=== FILE: README.md ===
# zwx in Dafny

This project models the core of zwx, a Go manager for WeChat applications.
zwx keeps a registry of apps (official accounts, WeCom, mini programs,
mini games, open platform, video, store and pay apps) in a Redis-like
store. It acquires and caches each app's access token and JS/card tickets
from the WeChat API. It also encrypts, signs and decrypts the messages
WeChat pushes to an app, using the "biz message crypt" scheme: AES-CBC
with PKCS#7 padding to 32 bytes, a SHA-1 signature over the sorted
parameters, and a frame of 16 random bytes, a big-endian length, the
message and the app id.

The model follows the program's packages:

- **`Wxcpt`** (wxcpt/crypto.go) and **`Biz`** (wxcpt/biz.go): the message codec.
  - The block ciphers, SHA-1 and base64 are fields of a `Primitives` value.
  - The predicate `Lawful` states their inverse laws. Every round-trip statement assumes it.
- **`Apps`**: the app record.
  - `Acquire` (ctx.go, ctx_token.go) states which requests each app category sends and how each response changes the record.
- **`Zwx`** (ctx.go, wx.go): the manager and the per-app context as classes.
  - `Wx` holds the logger and the prefixed storage.
  - `Context` holds the app record it updates in place.
  - The upstream API is an `Upstream` object that records every request and answers it by a function of what was sent.
- **`Store`**: the storage.
  - A `StoreState` value with string keys that expire, sets and hashes.
  - Each operation is specified by a function of the old state.
  - The `Backend` object holds the state. The `Storage` object is the prefixing wrapper.
- **The other modules**:
  - `Meta` (meta.go), `Api` (http.go), `Options` (wx_options.go)
  - `Util`, `Sorting` and `Buf` (utils/)
  - `Notify`, `Mp` and `Program` (wxnotify/, wxmp/, wxprogram/)
  - `Decimal` (integer text in the store and in timestamps)
  - `ByteStrings` (Go strings as byte sequences, ordered as Go orders them)

Time is a parameter `now`, in whole seconds. Randomness is a parameter `rng`. The log is a sequence of structured entries on the `Logger`.

## Model

| member | source | states |
|---|---|---|
| ByteStrings.LessIrreflexive | utils/util.go:44-51 | Go's byte-wise string order is irreflexive |
| ByteStrings.LessAsymmetric | utils/util.go:44-51 | the string order is asymmetric |
| ByteStrings.LessTransitive | utils/util.go:44-51 | the string order is transitive |
| ByteStrings.LessTrichotomy | utils/util.go:44-51 | two strings neither of which is below the other are equal, so the order is total |
| ByteStrings.LessEqTransitive | utils/util.go:44-51 | the non-strict order is transitive |
| Sorting.InsertSorted | utils/util.go:44-51 | inserting into a sorted list keeps it sorted and adds exactly that element |
| Sorting.SortCorrect | utils/util.go:44-51 | the sort's result is sorted and a permutation of its input |
| Sorting.SortedHeadIsLeast | utils/util.go:44-51 | the head of a sorted list is at most every element |
| Sorting.SortedUnique | utils/util.go:44-51 | two sorted permutations of one multiset are the same list |
| Sorting.SortPermutationInvariant | utils/util.go:44-51 | sorting gives the same list for any ordering of the same elements |
| Sorting.SwapDown | utils/util.go:44-51 | swaps two neighbours in place; the array keeps its elements |
| Sorting.InsertAt | utils/util.go:44-51 | moves one element into a sorted prefix in place; the prefix grows by one and the elements are kept |
| Sorting.SortStrings | utils/util.go:44-51 | sorts the array in place: the result is sorted, a permutation, and equal to the reference sort of the old contents |
| Decimal.DigitOf | ctx.go:174-180 | a digit value maps to its ASCII digit |
| Decimal.FormatNat | ctx.go:174-180 | decimal text of a natural number is non-empty and all digits |
| Decimal.FormatInt | wxnotify/reply.go:10-18 | decimal text of an integer starts with "-" exactly when it is negative |
| Decimal.ParseInt | ctx.go:174-180 | a parsed value is negative exactly when the text starts with "-" |
| Decimal.FormatNatLeading | ctx.go:174-180 | a positive number has no leading zero |
| Decimal.DigitsValuePositive | ctx.go:174-180 | digits without a leading zero denote a positive value |
| Decimal.DigitsOfFormat | ctx.go:174-180 | reading the digits of a formatted number gives the number back |
| Decimal.ParseFormat | ctx.go:174-180 | parsing the decimal text of any integer gives that integer back (the retry counter and expiry survive the store) |
| Primitives.HexDigit | wxcpt/crypto.go:213-223 | a nibble maps to a lower-case hex digit |
| Primitives.Hex | wxcpt/crypto.go:213-223 | "%x" gives two lower-case hex digits per byte: byte i becomes its high-nibble digit at 2i and its low-nibble digit at 2i+1 |
| Primitives.HexInjective | wxcpt/crypto.go:222 | different digests give different hex text, so the signature text determines the digest |
| Util.RandomStr | utils/util.go:29-38 | exactly `length` characters, each the alphabet letter the random source picked, so all alphanumeric |
| Util.SignatureOrderInsensitive | utils/util.go:44-51 | the signature of a parameter list does not depend on its order |
| Util.SignatureShape | utils/util.go:44-51 | the signature is 40 lower-case hex characters |
| Util.Signature | utils/util.go:44-51 | sorts the caller's array in place as a side effect and returns the signature of its contents |
| Util.HashInput | utils/util.go:44-51 | the loop writes exactly the concatenation of the parameters in their order |
| Util.FirstTruth | utils/util.go:72-79 | returns the first argument that is not the zero value, or the first argument when all are zero; needs one argument |
| Buf.Buffer.constructor | utils/buffer.go:7-16 | a new buffer is empty with capacity 1024 |
| Buf.Buffer.Write | utils/buffer.go:25-28 | appends exactly the bytes and returns their count; the capacity never shrinks and stays the same while the contents fit |
| Buf.Buffer.WriteByte | utils/buffer.go:30-33 | appends exactly one byte; the capacity never shrinks and stays the same while a free slot remains |
| Buf.Buffer.WriteString | utils/buffer.go:35-38 | appends the string's bytes and returns their count; the capacity never shrinks and stays the same while the contents fit |
| Buf.Buffer.WriteStringIf | utils/buffer.go:40-45 | with false changes nothing and returns 0; with true acts as WriteString, including keeping the capacity while the contents fit |
| Buf.Buffer.Free | utils/buffer.go:18-24 | empties a buffer of capacity at most 16384 and leaves a larger one untouched |
| Buf.Buffer.String | utils/buffer.go:46-48 | the accumulated bytes, within the capacity |
| Buf.Buffer.Grow | utils/buffer.go:25-28 | `append` keeps the capacity while the contents fit; otherwise the new capacity is some value at least the new length, never less than before |
| Biz.NewBizMsgSendJson | wxcpt/biz.go:12-19 | encrypt, signature, timestamp and nonce land in Encrypt, Msgsignature, Timestamp and Nonce, unchanged |
| Biz.NewBizMsgSendXml | wxcpt/biz.go:37-44 | the same mapping, with Encrypt, Msgsignature and Nonce wrapped as CDATA and Timestamp plain |
| Biz.EnvelopesAgree | wxcpt/biz.go:12-44 | for the same arguments the JSON and XML envelopes carry the same four values |
| Wxcpt.NewBizMsgCrypt | wxcpt/crypto.go:32-38 | keeps token and app id; the stored key is the configured key with exactly one "=" appended |
| Wxcpt.Uint32 | wxcpt/crypto.go:225-243 | a big-endian 4-byte field denotes a value below 2^32 |
| Wxcpt.PutUint32 | wxcpt/crypto.go:49-57 | a value below 2^32 is written as 4 bytes that read back as it |
| Wxcpt.PutUint32Uint32 | wxcpt/crypto.go:49-57 | writing back a read 4-byte field gives the same bytes |
| Wxcpt.RandomPrefix | wxcpt/crypto.go:49-57 | the frame's random prefix is 16 bytes |
| Wxcpt.Pad | wxcpt/crypto.go:142-149 | appends p = 32 − len mod 32 bytes of value p: length a multiple of the block, 1 to 32 bytes added, input kept as prefix |
| Wxcpt.Unpad | wxcpt/crypto.go:151-161 | empty and unaligned input are errors; otherwise drops exactly last-byte-value bytes without checking them, and agrees with the code wherever the code does not panic |
| Wxcpt.UnpadPad | wxcpt/crypto.go:142-161 | unpadding undoes padding |
| Wxcpt.UnpadAsWrittenPanics | wxcpt/crypto.go:151-161 | a 32-byte input ending in 200 makes the code panic; the corrected version reports an error |
| Wxcpt.UnpadAsWritten | wxcpt/crypto.go:151-161 | the code as written: it panics exactly when the input is non-empty, block-aligned and its last byte exceeds its length; otherwise a success is the input's prefix shortened by the last byte's value |
| Wxcpt.ParsePlainText | wxcpt/crypto.go:225-243 | unpadding errors pass through; a successful parse splits the text into 16 random bytes, the 4-byte length, exactly that many message bytes and the app id |
| Wxcpt.ParsePlainTextAgrees | wxcpt/crypto.go:225-243 | below 4 GiB the corrected parser returns what the code returns wherever the code does not panic |
| Wxcpt.ParseFrame | wxcpt/crypto.go:49-57 | parsing a padded frame returns its random prefix, length, message and app id |
| Wxcpt.ParsePlainTextAsWrittenPanics | wxcpt/crypto.go:225-243 | with a length field of 2^32−1 the uint32 bound check wraps and the slice panics; the corrected parser reports an error |
| Wxcpt.ParsePlainTextAsWritten | wxcpt/crypto.go:225-243 | the code as written: a panic in unpadding propagates; a success splits the unpadded text into 16 random bytes, the 4-byte length, exactly that many message bytes and the app id |
| Wxcpt.Frame | wxcpt/crypto.go:49-57 | the frame is random ‖ big-endian uint32(len(msg)) ‖ msg ‖ app id, with the length taken modulo 2^32 |
| Wxcpt.WrappedLengthInput | wxcpt/crypto.go:225-243 | the counterexample input is 64 bytes, two blocks |
| Wxcpt.CbcEncrypt | wxcpt/crypto.go:163-186 | a key that does not decode is Base64Error; a decoded key that is not 16, 24 or 32 bytes is AesError; otherwise success, and the result is the base64 of the 32-byte-padded plaintext encrypted under that key with IV = key[:16] |
| Wxcpt.CbcDecrypt | wxcpt/crypto.go:188-211 | a key or ciphertext that does not decode is Base64DecodeError; then a key that is not 16, 24 or 32 bytes is AesError; shorter than one AES block is EncryptMsgSizeNotValid, not a whole number of blocks is EncryptMsgNotBlockMultiple, otherwise success; success is the decryption under that key with IV = key[:16] |
| Wxcpt.CbcRoundTrip | wxcpt/crypto.go:163-211 | decrypting what was encrypted gives the padded plaintext; both sides use IV = key[:16], as CbcEncrypt and CbcDecrypt state |
| Wxcpt.CalSignature | wxcpt/crypto.go:213-223 | the signature of token, timestamp, nonce and data |
| Wxcpt.CalSignatureOrderInsensitive | wxcpt/crypto.go:213-223 | any arrangement of the four values gives the same signature |
| Wxcpt.EncryptFrame | wxcpt/crypto.go:49-57 | encrypts exactly random ‖ length ‖ message ‖ app id |
| Wxcpt.EncryptJsonMsg | wxcpt/crypto.go:48-66 | fails exactly when encryption fails, with its error; otherwise the envelope holds the ciphertext, timestamp, nonce and their signature, and DecryptMsg opens it to the reply |
| Wxcpt.EncryptXmlMsg | wxcpt/crypto.go:76-94 | the same for the XML envelope, with the same frame |
| Wxcpt.Open | wxcpt/crypto.go:106-123 | a wrong signature fails before decryption; success means decrypted and parsed, returning exactly the message; an app id mismatch is an error only when an app id is configured; conversely, a matching signature with a successful decrypt and parse yields the message, or AppidNotEqual when a configured app id differs |
| Wxcpt.DecryptMsg | wxcpt/crypto.go:106-132 | a signature that differs from the one computed over the Encrypt field fails with SignatureNotEqual before decryption; success returns exactly the parsed message, whose app id matches when one is configured; conversely, a matching signature with a successful decrypt and parse yields the message, or AppidNotEqual when a configured app id differs |
| Wxcpt.VerifyURL | wxcpt/crypto.go:245-262 | behaves as DecryptMsg with the echo string as the encrypted field |
| Wxcpt.OpenSealed | wxcpt/crypto.go:48-123 | whatever the encrypt paths seal opens to the original message |
| Meta.PrefixString | meta.go:6-8 | every prefix is "wx:" and one more character |
| Meta.Key | meta.go:11-17 | the loop builds exactly the key function's text |
| Meta.KeyOfJoined | meta.go:11-17 | a key is the prefix followed by ":" v for every argument, in order |
| Meta.JoinedSnoc | meta.go:13-15 | one more argument appends ":" and that argument |
| Meta.KeyEmpty | meta.go:11-17 | with no arguments the key is the prefix |
| Meta.KeyExtend | meta.go:13-15 | Key(a, b) = Key(a) + ":" + b |
| Meta.KeyHasPrefix | meta.go:11-17 | every key starts with its prefix |
| Meta.PrefixesDistinct | meta.go:6-8 | different prefixes give different keys |
| Meta.KeyInjective | meta.go:11-17 | one-argument keys under one prefix determine the argument |
| Api.TrimSuffix | http.go:15-21 | drops one trailing "/" if present |
| Api.TrimPrefix | http.go:15-21 | drops one leading "/" if present |
| Api.WithPath | http.go:15-21 | the result is the trimmed base, "/", and the trimmed path |
| Api.WithPathLeadingSlash | http.go:19 | a path with one leading "/" gives the same URL as without |
| Api.WithPathTrailingSlash | http.go:18 | a base with one trailing "/" gives the same URL as without |
| Api.WithPathTrimsOnce | http.go:18-19 | only one slash is removed, so "//x" keeps one |
| Apps.AppidMain | ctx.go:66-71 | the main app id when set, otherwise the app id |
| Apps.CategoriesExclusive | ctx.go:75-104 | the IsWxMpServe … IsWxPay helpers are pairwise exclusive, and one holds exactly when the type is one of "1" to "10" |
| Apps.ValidIgnoresMaintained | ctx.go:30-55 | the validate tags (type, appid and secret required; token, key and notify URI too for type "10") read only caller-supplied fields, never the token, tickets, expiry or retry counter |
| Apps.FieldNamesDistinct | ctx.go:30-55 | the record's field names are pairwise distinct |
| Apps.ToHash | ctx.go:30-55 | the stored hash is never empty and carries the retry counter and token |
| Apps.FromHash | ctx.go:30-55 | reads each field by name |
| Apps.FromToHash | wx.go:74-85 | storing a record and loading it gives the record back |
| Apps.FromHashOverwrite | ctx.go:174-180 | writing a whole record over any stored hash loads as that record |
| Store.GetOf | wx_options.go:19-30 | a live key reads its stored value; a missing or expired key reads as empty |
| Store.SetEXOf | wx_options.go:19-30 | the key reads the value exactly until now + TTL; every other key reads and expires as before; sets and hashes unchanged |
| Store.SAddOf | wx_options.go:19-30 | adds the members to that set only; no members is a no-op |
| Store.SRemOf | wx_options.go:19-30 | removes the members from that set only |
| Store.DelOf | wx_options.go:19-30 | removes the key whatever it holds; every other key keeps its value, members and hash |
| Store.HSetOf | wx_options.go:19-30 | overwrites the given fields and keeps the rest; other hashes stay |
| Store.HIncrByOf | wx_options.go:19-30 | keeps every field and every other hash |
| Store.HIncrBySteps | ctx.go:174-176 | an integer field steps by the increment, other fields unchanged |
| Store.HIncrByMissing | ctx.go:174-176 | a missing field becomes the increment |
| Store.HIncrByRejects | ctx.go:174-176 | non-integer text is left alone |
| Store.SetNXGate | ctx.go:189-200 | a key set at t with TTL d is live at t' ≥ t exactly until t + d |
| Store.DelClears | wx.go:115-121 | after Del the key reads as absent |
| Store.SRemAfterSAdd | wx.go:92-121 | adding then removing one member leaves the set without it |
| Store.Backend.constructor | wx_options.go:19-30 | the store starts in the given state |
| Store.Backend.Get | wx_options.go:19-30 | returns the live value or empty |
| Store.Backend.Del | wx_options.go:19-30 | new state is DelOf of the old |
| Store.Backend.SetEX | wx_options.go:19-30 | new state is SetEXOf of the old |
| Store.Backend.SetNX | wx_options.go:19-30 | succeeds exactly when the key is not live, and then sets it; otherwise nothing changes |
| Store.Backend.SAdd | wx_options.go:19-30 | new state is SAddOf of the old |
| Store.Backend.SRem | wx_options.go:19-30 | new state is SRemOf of the old |
| Store.Backend.SMembers | wx_options.go:19-30 | each member exactly once |
| Store.Backend.HSet | wx_options.go:19-30 | new state is HSetOf of the old |
| Store.Backend.HGetAll | wx_options.go:19-30 | the hash, or empty |
| Store.Backend.HIncrBy | wx_options.go:19-30 | new state is HIncrByOf of the old |
| Store.Pre | wx.go:183-188 | with no prefix the key itself, otherwise prefix ":" key |
| Store.PreInjective | wx.go:183-188 | prefixing never merges two keys |
| Store.Storage.constructor | wx.go:148-151 | keeps prefix and backend |
| Store.Storage.Get | wx.go:153-155 | the backend's Get on the prefixed key |
| Store.Storage.Del | wx.go:156-158 | the backend's Del on the prefixed key |
| Store.Storage.SetEX | wx.go:159-161 | the backend's SetEX on the prefixed key |
| Store.Storage.SetNX | wx.go:162-164 | the backend's SetNX on the prefixed key |
| Store.Storage.SAdd | wx.go:165-167 | the backend's SAdd on the prefixed key |
| Store.Storage.SRem | wx.go:168-170 | the backend's SRem on the prefixed key |
| Store.Storage.SMembers | wx.go:171-173 | the members of the prefixed key, each once |
| Store.Storage.HSet | wx.go:174-176 | the backend's HSet on the prefixed key |
| Store.Storage.HGetAll | wx.go:177-179 | the hash of the prefixed key |
| Store.Storage.HIncrBy | wx.go:180-182 | the backend's HIncrBy on the prefixed key |
| Logging.Logger.constructor | wx.go:135-138 | starts with no entries and the debug flag |
| Logging.Logger.Debugf | wx.go:140-144 | logs only in debug mode |
| Logging.Logger.Infof | wx_options.go:13-18 | appends one info entry |
| Logging.Logger.Errorf | wx_options.go:13-18 | appends one error entry |
| Acquire.Upstream.constructor | http.go:142-202 | nothing sent yet |
| Acquire.Upstream.Do | http.go:142-202 | records the request and answers it |
| Acquire.RequestFor | ctx_token.go:25-117 | token requests use the main app id with the secret (grant_type=client_credential, or corpid/corpsecret); a ticket request carries the token and is skipped exactly when the token is empty |
| Acquire.Applied | ctx_token.go:25-117 | a failure changes nothing; a token sets token and expiry now + expires_in; jsapi and agent_config set only JsTicket; wx_card sets only CardTicket |
| Acquire.FailureLog | ctx_token.go:35-42 | a failed fetch logs exactly one error, a successful one nothing |
| Acquire.RunFetches | ctx.go:145-169 | running fetches changes only token, tickets and expiry, and sends at most one request per fetch after the earlier ones |
| Acquire.ClearIfExpired | ctx.go:120-125 | an expired record loses token and both tickets together; otherwise unchanged |
| Acquire.Dispatch | ctx.go:145-172 | categories "1" to "10" are known; the first fetch is a token fetch, the others ticket fetches |
| Acquire.NoFetchCategories | ctx.go:160-168 | mini games, open platform, video, store and pay fetch nothing |
| Acquire.TicketCategories | ctx.go:145-159 | exactly service, subscription and WeCom apps fetch a ticket |
| Acquire.FailedTokenKeepsCached | ctx_token.go:35-72 | a failed token fetch keeps the cached token, and the ticket request still goes out with it |
| Acquire.AcquireOutcome | ctx.go:137-173 | unknown category exactly when not dispatchable; otherwise only token, tickets and expiry change |
| Acquire.NoFetchExpired | ctx.go:137-173 | a no-fetch category with an expired token ends without a token |
| Options.ResolvedLogger | wx_options.go:51-53 | a missing logger becomes the default one; a given one is kept |
| Options.ResolvedStorage | wx_options.go:54-60 | a valkey client wins, then a redis client, then the custom storage |
| Options.ResolvedRefresh | wx_options.go:61-63 | 0 becomes 55 minutes; other values stay |
| Options.ResolvedIdempotent | wx_options.go:50-64 | validating twice gives what validating once gives |
| Options.Options.constructor | wx_options.go:31-48 | the fields are as given |
| Options.Options.Validate | wx_options.go:50-64 | assigns the resolved logger, storage and refresh; fatal exactly when no storage remains; other fields kept |
| Zwx.KeysDistinct | meta.go:6-8 | the list, app and retry keys never collide, and different apps get different keys |
| Zwx.Persisted | ctx.go:174-180 | only the app's hash changes; with a token it loads as the record |
| Zwx.PersistedCountsRetry | ctx.go:174-176 | without a token a stored retry n becomes n + 1 and the other fields stay |
| Zwx.NoFetchBumpsRetry | ctx.go:160-180 | a no-fetch category bumps retry on every acquisition once expired |
| Zwx.RetryWindow | ctx.go:189-200 | the retry marker outlives persistence and lasts exactly two minutes |
| Zwx.ErrorText | ctx.go:202-204 | "[appid] action failed: message", ending in the message |
| Zwx.Context.constructor | wx.go:74-85 | a context over the given manager and record |
| Zwx.Context.NewMpToken | ctx_token.go:25-45 | one step of the reference run: request sent, response applied, failure logged |
| Zwx.Context.NewMpTicket | ctx_token.go:46-72 | one step: skipped without a token, otherwise as above |
| Zwx.Context.NewWorkToken | ctx_token.go:76-95 | one step with the corpid/corpsecret request |
| Zwx.Context.NewWorkTicket | ctx_token.go:96-117 | one step with the agent_config request |
| Zwx.Context.FetchAll | ctx.go:145-173 | known exactly for dispatchable categories; the record, requests and log are those of RunFetches; otherwise nothing changes |
| Zwx.Context.NewAccessToken | ctx.go:137-181 | the outcome of AcquireOutcome: an unknown category is logged and nothing stored; otherwise the result is persisted by Persisted |
| Zwx.Context.AccessToken | ctx.go:120-130 | a live token is returned with no acquisition and no change; otherwise an acquisition from the cleared record runs and its token is returned |
| Zwx.Context.RetryAccessToken | ctx.go:189-200 | false with no effect for other codes; for the four codes true exactly when the retry marker was not live, and then the marker is set and an acquisition has run |
| Zwx.Wx.constructor | wx.go:27-32 | the manager's fields are as given |
| Zwx.Wx.LoadApp | wx.go:74-85 | "not found" exactly when the app's hash is empty; otherwise a new context over the stored record |
| Zwx.Wx.DeleteApp | wx.go:115-121 | removes the app id from the list and deletes its hash |
| Zwx.Wx.Appids | wx.go:127-131 | the listed app ids, each once |
| Zwx.Wx.CreateApp | wx.go:92-109 | an invalid app is refused with nothing written; otherwise stored with retry "0" and expiry at the first clock reading, listed, given an acquisition at the second reading (which clears the supplied token once the clock has moved), and success whatever the acquisition did |
| Zwx.Wx.Register | wx.go:99-100 | the new store state is the old one with the app id added to the list and the record written as its hash (`Registered`) |
| Zwx.Wx.Clean | wx.go:33-36 | deletes each listed app once, in the order read: the list ends empty, every formerly listed app's hash is gone, every other key keeps its members, hash and string (`OnlyAppsDeleted`), and the log gains one Deleting line per app in debug mode |
| Zwx.Wx.DeleteAll | wx.go:34-36 | the loop: `CleanedUpTo` holds for all the given apps and the log gains their Deleting lines in order |
| Zwx.Wx.DeleteListed | wx.go:35 | one DeleteApp of a listed app extends `CleanedUpTo` by that app and logs its Deleting line |
| Zwx.Wx.RefreshAccessTokenMember | wx.go:55-66 | the ids are exactly the listed members; the trace starts at the initial store, requests, log and acquisitions, each listed app takes one RefreshStep, and the end of the sweep is logged |
| Zwx.Wx.Sweep | wx.go:57-64 | the loop: a trace from the initial to the final manager state, one RefreshStep per app id in order |
| Zwx.Wx.RefreshOne | wx.go:58-63 | one RefreshStep: loads exactly when the stored hash is non-empty; a failure is logged and changes nothing else; a loaded record is acquired for, recorded in `acquired`, and the outcome persisted and logged |
| Zwx.CreatedRecord | wx.go:97-98 | retry "0" and expiry now, the rest of the record as given |
| Zwx.Registered | wx.go:99-100 | the app is listed and its hash loads as the record |
| Zwx.DeleteEffect | wx.go:115-121 | the app leaves the list, its hash is empty, other apps' hashes stay |
| Zwx.DeleteStaysInFrame | wx.go:115-121 | deleting a listed app changes no key but the list and that app's record |
| Zwx.CleanStep | wx.go:34-36 | one DeleteApp of a listed app extends the cleaned prefix by that app and keeps every other key |
| Zwx.CleanedAll | wx.go:33-36 | once every listed app is deleted the list is empty and every listed record is gone |
| Zwx.DeletingLines | wx.go:118 | one Deleting debug line per app in debug mode, none otherwise |
| Zwx.DeleteUnknown | wx.go:115-121 | deleting an app that is not stored changes no observable state |
| Zwx.PersistedKeepsRecord | ctx.go:174-180 | persisting never empties an app's stored hash |
| Zwx.CreatedIsLoadable | wx.go:92-109 | after creation and its acquisition the app is listed and still loads, so the load-failure branch cannot be reached |
| Zwx.CreatedNoFetchHasNoToken | wx.go:97-104 | once the clock has moved on, a created app of a category that fetches nothing keeps no token or ticket it was created with |
| Zwx.New | wx.go:25-42 | validates the options; no manager exactly when no storage is configured; otherwise the fields come from the options and the log ends with the init message; with clean-before-start the listed apps (`cleaned`) are deleted, nothing else in the store changes, no request is sent and the log is their Deleting lines then the init message |
| Mp.App | wxmp/app.go:9-18 | a load error is returned unchanged; exactly service and subscription accounts are accepted, with the loaded context; others get "非公众号" |
| Program.App | wxprogram/app.go:11-20 | a load error is returned unchanged; exactly mini programs are accepted; others get an error |
| Notify.App | wxnotify/app.go:13-22 | a load error is returned unchanged; exactly service, subscription, WeCom and mini-program apps are accepted |
| Notify.NotifyCodec | wxnotify/app.go:25 | the codec uses the notification token and key and the main app id |
| Notify.DecodeMessage | wxnotify/app.go:24-37 | a decryption error is returned with no message; on success the message carries the request's nonce and the receiving context |
| Notify.ReplyText | wxnotify/reply.go:34-44 | swaps the parties, keeps nonce and context, type text, the given content |
| Notify.ReplyNews | wxnotify/reply.go:131-142 | swaps the parties, type news, the articles and their count |
| Notify.RepliesAgree | wxnotify/reply.go:34-142 | text and news replies share their header except for the type |
| Notify.EncryptMsg | wxnotify/reply.go:10-18 | no envelope exactly when encryption fails, which is logged; the timestamp in decimal; the envelope opens to the data |
| Notify.Encrypted | wxnotify/reply.go:20-23 | sealed under the reply's own creation time and nonce, carrying the ciphertext and its signature over them, and opens to the rendered reply; a sealing failure appends exactly one error log line, success logs nothing |
| Notify.EncryptedArticles | wxnotify/reply.go:24-27 | the same for a news reply: ciphertext and signature fields, exact log, and opens to the rendered reply |
| Notify.SealedDecodes | wxnotify/app.go:24-37 | a sealed reply presented as a push request decodes to its content, stamped by the receiver |

## Left out

- AES-CBC, SHA-1 and base64 are not implemented. They are function values whose inverse laws (`Lawful`) are assumed by the round-trip statements. HMAC-SHA256 and Md5 are not part of this model.
- XML and JSON (un)marshalling, including DecryptMsgFromBinary, CDATA.MarshalXML and StructToMap, are not modelled. The unmarshal and marshal of messages are parameters. The app record ↔ hash conversion is `ToHash`/`FromHash`, with the expiry as decimal seconds.
- The HTTP client (http.go:46-202) is network I/O. A request yields a reply or a transport failure through `Upstream`. `Api.String` is the identity and has no member.
- The valkey/redis adapters and the default logger are I/O. Storage is the in-memory `Backend`; the logger records structured entries, not formatted text.
- Fatalf's process exit is not modelled: `New` returns no manager instead.
- Locks, goroutines, the ticker loop of `refreshAccessToken` with its panic recovery, and the `sync.Pool` of the buffer are left out; the model is sequential. `New`'s non-clean branch runs the sweep synchronously.
- Zwx.New: on the non-clean branch the ensures states only that the log ends with the init message, not the sweep's effect, which `RefreshAccessTokenMember` states.
- Each operation reads the clock once (`now`), in whole seconds, except `CreateApp`, which takes its two readings as `now` and `later`; durations are whole seconds.
- Store.Backend.SetEX: requires a positive TTL, since the program only uses two minutes; a zero or negative TTL is not modelled.
- Store.Backend.SetNX: requires a positive TTL for the same reason.
- Store.Storage.SetEX: requires a positive TTL, as the backend's SetEX does.
- Store.Storage.SetNX: requires a positive TTL, as the backend's SetNX does.
- Wxcpt.Open: uses the corrected `Unpad` and `ParsePlainText`, so where the code panics (see Findings) `Open`, `DecryptMsg` and `VerifyURL` return an error instead.
- Values of one kind stored under a key of another kind (the store's WRONGTYPE errors) are not modelled; each kind has its own map.
- The int64 range of HIncrBy and of the expiry arithmetic is not modelled; integers are unbounded.
- RandomIntStr uses floating point and is not part of this model.
- ReplyImage, ReplyVoice, ReplyVideo and ReplyMusic write through nil sub-records and are not modelled.
- The per-product endpoint wrappers (wxprogram/*.go other than app.go, wxmp/menu.go) and wxpay are not part of this model.
- The message type constants and fields of wxnotify/message.go beyond those listed on `Message` and `MessageReply` are left out.
- The `Context` types of wxnotify, wxmp and wxprogram embed the manager's context. The manager's `Context` stands for them.
- Zwx.Wx.CreateApp: the load failure after the write is unreachable (`CreatedIsLoadable`), so that error path has no branch of its own.

## Findings

| source | as written | input that shows it | evidently intended | confidence | as-written member | corrected member |
|---|---|---|---|---|---|---|
| wxcpt/crypto.go:237 | the bound check computes 20 + msgLen in uint32, so a length field near 2^32 wraps and passes the check, and the slice [20:20+msgLen] then panics | a 64-byte plaintext whose last byte is 32 and whose length field (bytes 16 to 19) is 255 255 255 255 | reject a length field that does not fit the text | not executed | Wxcpt.ParsePlainTextAsWrittenPanics | Wxcpt.ParseFrame |
| wxcpt/crypto.go:159-160 | the pad length is the last byte and is never compared with the text length, so a last byte above the length makes the slice panic | a 32-byte plaintext whose last byte is 200 | reject a pad length larger than the text | not executed | Wxcpt.UnpadAsWrittenPanics | Wxcpt.UnpadPad |

=== FILE: acquire.dfy ===
/**
 * ctx.go and ctx_token.go, as values: which upstream requests an
 * acquisition sends for each app category, and how each response changes
 * the app record. The `Context` methods in zwx.dfy are proved against
 * these functions.
 */
module Acquire {
  import opened ByteStrings
  import opened Wrappers
  import opened Apps
  import opened Logging
  import Api

  /** An upstream GET request: the URL and its query arguments. */
  datatype Request = Request(url: Bytes, query: map<Bytes, Bytes>)

  /**
   * What a request yields: a transport or decoding failure, or a reply
   * (`errcode`, `errmsg`, the token or ticket, `expires_in` in seconds).
   */
  datatype Response = TransportFailure | Reply(errcode: int, errmsg: Bytes, value: Bytes, expiresIn: int)

  /** The four fetches: `newMpToken`, `newMpTicket(t)`, `newWorkToken`, `newWorkTicket`. */
  datatype Fetch = MpToken | MpTicket(t: TicketType) | WorkToken | WorkTicket {
    predicate IsToken() { this == MpToken || this == WorkToken }
  }

  /**
   * The upstream service: every request is recorded and answered by a
   * function of everything sent so far (so its answers may change over time).
   */
  class Upstream {
    var sent: seq<Request>
    const respond: seq<Request> -> Response

    constructor (respond: seq<Request> -> Response)
      ensures sent == [] && this.respond == respond
    {
      sent := [];
      this.respond := respond;
    }

    method Do(req: Request) returns (resp: Response)
      modifies this
      ensures sent == old(sent) + [req]
      ensures resp == respond(sent)
    {
      sent := sent + [req];
      resp := respond(sent);
    }
  }

  function TicketName(t: TicketType): Bytes {
    match t
    case Js => Lit("jsapi")
    case Card => Lit("wx_card")
  }

  /**
   * The request a fetch sends, or None when a ticket fetch is skipped
   * because there is no access token.
   */
  function RequestFor(f: Fetch, app: App): (r: Option<Request>)
    ensures r.None? <==> !f.IsToken() && app.accessToken == []
    ensures r.Some? && f == MpToken ==>
              r.value.query == map[Lit("grant_type") := Lit("client_credential"), Lit("appid") := AppidMain(app),
                                   Lit("secret") := app.appSecret]
    ensures r.Some? && f == WorkToken ==>
              r.value.query == map[Lit("corpid") := AppidMain(app), Lit("corpsecret") := app.appSecret]
    ensures r.Some? && !f.IsToken() ==> Lit("access_token") in r.value.query && r.value.query[Lit("access_token")] == app.accessToken
  {
    match f
    case MpToken =>
      Some(Request(Api.WithPath(Api.ApiCgiBin, Lit("token")),
                   map[Lit("grant_type") := Lit("client_credential"), Lit("appid") := AppidMain(app), Lit("secret") := app.appSecret]))
    case WorkToken =>
      Some(Request(Api.WithPath(Api.ApiWorkCgiBin, Lit("gettoken")),
                   map[Lit("corpid") := AppidMain(app), Lit("corpsecret") := app.appSecret]))
    case MpTicket(t) =>
      if app.accessToken == [] then None
      else
        assert |Lit("type")| != |Lit("access_token")|;
        Some(Request(Api.WithPath(Api.ApiCgiBin, Lit("ticket/getticket")),
                     map[Lit("type") := TicketName(t), Lit("access_token") := app.accessToken]))
    case WorkTicket =>
      if app.accessToken == [] then None
      else
        assert |Lit("type")| != |Lit("access_token")|;
        Some(Request(Api.WithPath(Api.ApiWorkCgiBin, Lit("ticket/get")),
                     map[Lit("type") := Lit("agent_config"), Lit("access_token") := app.accessToken]))
  }

  predicate Succeeded(resp: Response) {
    resp.Reply? && resp.errcode == 0
  }

  /**
   * The record after a fetch got `resp` at `now`: a token fetch sets the
   * token and its expiry, a ticket fetch sets its one ticket, and a failure
   * changes nothing.
   */
  function Applied(f: Fetch, app: App, resp: Response, now: int): (r: App)
    ensures !Succeeded(resp) ==> r == app
    ensures Succeeded(resp) && f.IsToken() ==> r == app.(accessToken := resp.value, expireTime := now + resp.expiresIn)
    ensures Succeeded(resp) && (f == MpTicket(Js) || f == WorkTicket) ==> r == app.(jsTicket := resp.value)
    ensures Succeeded(resp) && f == MpTicket(Card) ==> r == app.(cardTicket := resp.value)
  {
    if !Succeeded(resp) then app
    else
      match f
      case MpToken => app.(accessToken := resp.value, expireTime := now + resp.expiresIn)
      case WorkToken => app.(accessToken := resp.value, expireTime := now + resp.expiresIn)
      case MpTicket(Js) => app.(jsTicket := resp.value)
      case MpTicket(Card) => app.(cardTicket := resp.value)
      case WorkTicket => app.(jsTicket := resp.value)
  }

  /** What a failed fetch logs: token failures name the main app id, ticket failures the token sent. */
  function FailureLog(f: Fetch, app: App, resp: Response): (r: seq<LogEntry>)
    ensures Succeeded(resp) <==> r == []
    ensures |r| <= 1 && forall e :: e in r ==> e.level == Error
  {
    if Succeeded(resp) then []
    else
      var detail := if resp.Reply? then Some(resp.errmsg) else None;
      if f.IsToken() then [LogEntry(Error, TokenRequestFailed(f == WorkToken, AppidMain(app), detail))]
      else [LogEntry(Error, TicketRequestFailed(app.accessToken, detail))]
  }

  /** The token, tickets and expiry are what a fetch may change; the rest of the record is its identity. */
  predicate SameIdentity(a: App, b: App) {
    a.(accessToken := b.accessToken, jsTicket := b.jsTicket, cardTicket := b.cardTicket, expireTime := b.expireTime) == b
  }

  datatype Outcome = Outcome(app: App, sent: seq<Request>, logs: seq<LogEntry>)

  /** Running fetches in order against `respond`, starting from the requests already `sent`. */
  function RunFetches(fs: seq<Fetch>, app: App, respond: seq<Request> -> Response, sent: seq<Request>, now: int): (o: Outcome)
    ensures SameIdentity(app, o.app)
    ensures |sent| <= |o.sent| <= |sent| + |fs| && o.sent[..|sent|] == sent
    decreases |fs|
  {
    if fs == [] then Outcome(app, sent, [])
    else
      match RequestFor(fs[0], app)
      case None => RunFetches(fs[1..], app, respond, sent, now)
      case Some(req) =>
        var resp := respond(sent + [req]);
        var rest := RunFetches(fs[1..], Applied(fs[0], app, resp, now), respond, sent + [req], now);
        assert rest.sent[..|sent|] == (sent + [req])[..|sent|];
        Outcome(rest.app, rest.sent, FailureLog(fs[0], app, resp) + rest.logs)
  }

  /** `NewAccessToken` clears the token and both tickets once the expiry instant has passed. */
  function ClearIfExpired(app: App, now: int): (r: App)
    ensures app.expireTime < now ==> r == app.(accessToken := [], jsTicket := [], cardTicket := [])
    ensures app.expireTime >= now ==> r == app
  {
    if app.expireTime < now then app.(accessToken := [], jsTicket := [], cardTicket := []) else app
  }

  /**
   * The fetches each category runs, in order; None for a category outside
   * "1".."10", which `NewAccessToken` only logs.
   */
  function Dispatch(appType: Bytes): (r: Option<seq<Fetch>>)
    ensures r.None? <==>
              appType !in {TypeWxMpServe, TypeWxMpSubscribe, TypeWxWork, TypeWxApp, TypeWxMiniApp,
                           TypeWxMiniGame, TypeWxOpen, TypeWxVideo, TypeWxStore, TypeWxPay}
    ensures r.Some? && r.value != [] ==> r.value[0].IsToken() && forall i :: 0 < i < |r.value| ==> !r.value[i].IsToken()
  {
    if appType == TypeWxMpServe then Some([MpToken, MpTicket(Js), MpTicket(Card)])
    else if appType == TypeWxMpSubscribe then Some([MpToken, MpTicket(Js)])
    else if appType == TypeWxWork then Some([WorkToken, WorkTicket])
    else if appType == TypeWxApp || appType == TypeWxMiniApp then Some([MpToken])
    else if appType in {TypeWxMiniGame, TypeWxOpen, TypeWxVideo, TypeWxStore, TypeWxPay} then Some([])
    else None
  }

  /** Mini games, open platform, video, store and pay apps fetch nothing. */
  lemma NoFetchCategories(appType: Bytes)
    requires appType in {TypeWxMiniGame, TypeWxOpen, TypeWxVideo, TypeWxStore, TypeWxPay}
    ensures Dispatch(appType) == Some([])
  {
    TypeCodes();
  }

  /** Which categories fetch a ticket at all. */
  lemma TicketCategories(appType: Bytes)
    requires Dispatch(appType).Some?
    ensures (exists i :: 0 <= i < |Dispatch(appType).value| && !Dispatch(appType).value[i].IsToken())
            <==> appType in {TypeWxMpServe, TypeWxMpSubscribe, TypeWxWork}
  {
    TypeCodes();
    if appType == TypeWxMpServe || appType == TypeWxMpSubscribe || appType == TypeWxWork {
      assert !Dispatch(appType).value[1].IsToken();
    }
  }

  /**
   * A failed token fetch keeps the token the record already had, and the
   * ticket fetch that follows is still sent with that token.
   */
  lemma FailedTokenKeepsCached(app: App, respond: seq<Request> -> Response, sent: seq<Request>, now: int)
    requires app.accessToken != []
    requires !Succeeded(respond(sent + [RequestFor(MpToken, app).value]))
    ensures var o := RunFetches([MpToken, MpTicket(Js)], app, respond, sent, now);
            && o.app.accessToken == app.accessToken
            && |o.sent| == |sent| + 2
            && o.sent[|sent| + 1] == RequestFor(MpTicket(Js), app).value
  {
    var req := RequestFor(MpToken, app).value;
    assert [MpToken, MpTicket(Js)][1..] == [MpTicket(Js)];
    assert RunFetches([MpToken, MpTicket(Js)], app, respond, sent, now).sent
           == RunFetches([MpTicket(Js)], app, respond, sent + [req], now).sent;
  }

  /**
   * What `NewAccessToken` does to the record, the requests and the log:
   * clear an expired token, then run the category's fetches; None for an
   * unknown category.
   */
  function AcquireOutcome(app: App, respond: seq<Request> -> Response, sent: seq<Request>, now: int): (r: Option<Outcome>)
    ensures r.None? <==> Dispatch(app.appType).None?
    ensures r.Some? ==> SameIdentity(app, r.value.app)
  {
    var cleared := ClearIfExpired(app, now);
    match Dispatch(cleared.appType)
    case None => None
    case Some(fs) => Some(RunFetches(fs, cleared, respond, sent, now))
  }

  /** A category that fetches nothing ends with no token once the old one has expired. */
  lemma NoFetchExpired(app: App, respond: seq<Request> -> Response, sent: seq<Request>, now: int)
    requires app.appType in {TypeWxMiniGame, TypeWxOpen, TypeWxVideo, TypeWxStore, TypeWxPay}
    requires app.expireTime < now
    ensures AcquireOutcome(app, respond, sent, now) == Some(Outcome(ClearIfExpired(app, now), sent, []))
    ensures AcquireOutcome(app, respond, sent, now).value.app.accessToken == []
  {
    NoFetchCategories(app.appType);
  }
}

=== FILE: app.dfy ===
/**
 * ctx.go: the managed application record, its category constants, the
 * helpers that read it, and the flat string hash it is stored as.
 */
module Apps {
  import opened ByteStrings
  import opened Wrappers
  import Decimal

  /** The category codes "0" to "10". */
  const TypeWxUnknown: Bytes := Lit("0")
  const TypeWxMpServe: Bytes := Lit("1")
  const TypeWxMpSubscribe: Bytes := Lit("2")
  const TypeWxWork: Bytes := Lit("3")
  const TypeWxApp: Bytes := Lit("4")
  const TypeWxMiniApp: Bytes := Lit("5")
  const TypeWxMiniGame: Bytes := Lit("6")
  const TypeWxOpen: Bytes := Lit("7")
  const TypeWxVideo: Bytes := Lit("8")
  const TypeWxStore: Bytes := Lit("9")
  const TypeWxPay: Bytes := Lit("10")

  /** Times are whole seconds since the Unix epoch; this is Go's zero `time.Time` (1 January of year 1). */
  const ZeroTime: int := -62135596800

  datatype App = App(
    appType: Bytes,
    appid: Bytes,
    appSecret: Bytes,
    mainAppid: Bytes,
    token: Bytes,
    encodingAesKey: Bytes,
    notifyUri: Bytes,
    accessToken: Bytes,
    jsTicket: Bytes,
    cardTicket: Bytes,
    expireTime: int,
    retry: Bytes)

  /** The `validate` tags: type, appid and secret are required; token, key and notify URI too for type "10". */
  predicate Valid(app: App) {
    && app.appType != []
    && app.appid != []
    && app.appSecret != []
    && (app.appType == TypeWxPay ==> app.token != [] && app.encodingAesKey != [] && app.notifyUri != [])
  }

  /** `AppidMain`: the main app id when one is set, otherwise the app's own. */
  function AppidMain(app: App): (r: Bytes)
    ensures app.mainAppid != [] ==> r == app.mainAppid
    ensures app.mainAppid == [] ==> r == app.appid
  {
    if app.mainAppid != [] then app.mainAppid else app.appid
  }

  predicate IsWxMpServe(app: App) { app.appType == TypeWxMpServe }
  predicate IsWxMpSubscribe(app: App) { app.appType == TypeWxMpSubscribe }
  predicate IsWork(app: App) { app.appType == TypeWxWork }
  predicate IsWxApp(app: App) { app.appType == TypeWxApp }
  predicate IsWxMiniProgram(app: App) { app.appType == TypeWxMiniApp }
  predicate IsWxMiniGame(app: App) { app.appType == TypeWxMiniGame }
  predicate IsWxOpen(app: App) { app.appType == TypeWxOpen }
  predicate IsWxVideo(app: App) { app.appType == TypeWxVideo }
  predicate IsWxStore(app: App) { app.appType == TypeWxStore }
  predicate IsWxPay(app: App) { app.appType == TypeWxPay }

  /**
   * The `Is*` helpers name disjoint categories: at most one holds of any
   * record, and one holds exactly when the type is one of "1" to "10".
   */
  lemma CategoriesExclusive(app: App)
    ensures var holds := [IsWxMpServe(app), IsWxMpSubscribe(app), IsWork(app), IsWxApp(app), IsWxMiniProgram(app),
                          IsWxMiniGame(app), IsWxOpen(app), IsWxVideo(app), IsWxStore(app), IsWxPay(app)];
            && (forall i, j :: 0 <= i < j < |holds| && holds[i] ==> !holds[j])
            && ((exists i :: 0 <= i < |holds| && holds[i]) <==>
                 app.appType in {TypeWxMpServe, TypeWxMpSubscribe, TypeWxWork, TypeWxApp, TypeWxMiniApp,
                                 TypeWxMiniGame, TypeWxOpen, TypeWxVideo, TypeWxStore, TypeWxPay})
  {
    TypeCodes();
    var holds := [IsWxMpServe(app), IsWxMpSubscribe(app), IsWork(app), IsWxApp(app), IsWxMiniProgram(app),
                  IsWxMiniGame(app), IsWxOpen(app), IsWxVideo(app), IsWxStore(app), IsWxPay(app)];
    var codes := [TypeWxMpServe, TypeWxMpSubscribe, TypeWxWork, TypeWxApp, TypeWxMiniApp,
                  TypeWxMiniGame, TypeWxOpen, TypeWxVideo, TypeWxStore, TypeWxPay];
    assert forall i :: 0 <= i < |holds| ==> (holds[i] <==> app.appType == codes[i]);
    assert forall i, j :: 0 <= i < j < |codes| ==> codes[i] != codes[j];
    if app.appType in codes {
      var k :| 0 <= k < |codes| && codes[k] == app.appType;
      assert holds[k];
    }
  }

  /**
   * Validation reads only the fields a caller supplies: the fields the
   * manager maintains (token, tickets, expiry, retry counter) never make
   * a record valid or invalid.
   */
  lemma ValidIgnoresMaintained(app: App, accessToken: Bytes, jsTicket: Bytes, cardTicket: Bytes, expireTime: int, retry: Bytes)
    ensures var kept := app.(accessToken := accessToken, jsTicket := jsTicket, cardTicket := cardTicket,
                             expireTime := expireTime, retry := retry);
            Valid(kept) <==> Valid(app)
  {
  }

  /** The category codes as bytes: "0" to "9" are single digits, "10" is two bytes. */
  lemma TypeCodes()
    ensures TypeWxUnknown == [48] && TypeWxMpServe == [49] && TypeWxMpSubscribe == [50] && TypeWxWork == [51]
    ensures TypeWxApp == [52] && TypeWxMiniApp == [53] && TypeWxMiniGame == [54] && TypeWxOpen == [55]
    ensures TypeWxVideo == [56] && TypeWxStore == [57] && TypeWxPay == [49, 48]
  {
    assert TypeWxUnknown[0] == 48 && TypeWxMpServe[0] == 49 && TypeWxMpSubscribe[0] == 50 && TypeWxWork[0] == 51;
    assert TypeWxApp[0] == 52 && TypeWxMiniApp[0] == 53 && TypeWxMiniGame[0] == 54 && TypeWxOpen[0] == 55;
    assert TypeWxVideo[0] == 56 && TypeWxStore[0] == 57 && TypeWxPay[0] == 49 && TypeWxPay[1] == 48;
  }

  // The JSON field names of the record, which are the hash field names in storage.
  const FieldAppType: Bytes := Lit("app_type")
  const FieldAppid: Bytes := Lit("appid")
  const FieldAppSecret: Bytes := Lit("app_secret")
  const FieldMainAppid: Bytes := Lit("main_appid")
  const FieldToken: Bytes := Lit("token")
  const FieldEncodingAesKey: Bytes := Lit("encoding_aes_key")
  const FieldNotifyUri: Bytes := Lit("notify_uri")
  const FieldAccessToken: Bytes := Lit("access_token")
  const FieldJsTicket: Bytes := Lit("js_ticket")
  const FieldCardTicket: Bytes := Lit("card_ticket")
  const FieldExpireTime: Bytes := Lit("expire_time")
  const FieldRetry: Bytes := Lit("retry")

  /** The twelve field names are pairwise distinct: they differ in length or in their first letter. */
  lemma FieldNamesDistinct()
    ensures |FieldAppType| == 8 && |FieldEncodingAesKey| == 16 && |FieldAccessToken| == 12 && |FieldJsTicket| == 9
    ensures |FieldAppid| == |FieldToken| == |FieldRetry| == 5
    ensures FieldAppid[0] != FieldToken[0] && FieldAppid[0] != FieldRetry[0] && FieldToken[0] != FieldRetry[0]
    ensures |FieldAppSecret| == |FieldMainAppid| == |FieldNotifyUri| == 10
    ensures FieldAppSecret[0] != FieldMainAppid[0] && FieldAppSecret[0] != FieldNotifyUri[0]
    ensures FieldMainAppid[0] != FieldNotifyUri[0]
    ensures |FieldCardTicket| == |FieldExpireTime| == 11 && FieldCardTicket[0] != FieldExpireTime[0]
  {
  }

  /**
   * `utils.StructToMap(app)`: every field under its JSON name. The time is
   * written as decimal seconds (the JSON form is RFC 3339; only the instant
   * matters here).
   */
  function ToHash(app: App): (h: map<Bytes, Bytes>)
    ensures |h| > 0
    ensures FieldRetry in h && h[FieldRetry] == app.retry
    ensures FieldAccessToken in h && h[FieldAccessToken] == app.accessToken
  {
    FieldNamesDistinct();
    map[
      FieldAppType := app.appType,
      FieldAppid := app.appid,
      FieldAppSecret := app.appSecret,
      FieldMainAppid := app.mainAppid,
      FieldToken := app.token,
      FieldEncodingAesKey := app.encodingAesKey,
      FieldNotifyUri := app.notifyUri,
      FieldAccessToken := app.accessToken,
      FieldJsTicket := app.jsTicket,
      FieldCardTicket := app.cardTicket,
      FieldExpireTime := Decimal.FormatInt(app.expireTime),
      FieldRetry := app.retry]
  }

  function Field(h: map<Bytes, Bytes>, name: Bytes): Bytes {
    if name in h then h[name] else []
  }

  /**
   * Reading a stored hash back into a record: a missing field is the empty
   * string, and an unreadable time is the zero time.
   */
  function FromHash(h: map<Bytes, Bytes>): (app: App)
    ensures app.appid == Field(h, FieldAppid) && app.retry == Field(h, FieldRetry)
    ensures app.accessToken == Field(h, FieldAccessToken)
  {
    App(
      Field(h, FieldAppType),
      Field(h, FieldAppid),
      Field(h, FieldAppSecret),
      Field(h, FieldMainAppid),
      Field(h, FieldToken),
      Field(h, FieldEncodingAesKey),
      Field(h, FieldNotifyUri),
      Field(h, FieldAccessToken),
      Field(h, FieldJsTicket),
      Field(h, FieldCardTicket),
      match Decimal.ParseInt(Field(h, FieldExpireTime)) case Some(t) => t case None => ZeroTime,
      Field(h, FieldRetry))
  }

  /** A stored record reads back as itself. */
  lemma FromToHash(app: App)
    ensures FromHash(ToHash(app)) == app
  {
    FieldNamesDistinct();
    Decimal.ParseFormat(app.expireTime);
    var h := ToHash(app);
    assert Field(h, FieldAppType) == app.appType && Field(h, FieldAppid) == app.appid;
    assert Field(h, FieldAppSecret) == app.appSecret && Field(h, FieldMainAppid) == app.mainAppid;
    assert Field(h, FieldToken) == app.token && Field(h, FieldEncodingAesKey) == app.encodingAesKey;
    assert Field(h, FieldNotifyUri) == app.notifyUri && Field(h, FieldAccessToken) == app.accessToken;
    assert Field(h, FieldJsTicket) == app.jsTicket && Field(h, FieldCardTicket) == app.cardTicket;
    assert Field(h, FieldExpireTime) == Decimal.FormatInt(app.expireTime) && Field(h, FieldRetry) == app.retry;
  }

  /** Fields written over a stored record replace exactly those fields on reading it back. */
  lemma FromHashOverwrite(h: map<Bytes, Bytes>, app: App)
    ensures FromHash(h + ToHash(app)) == app
  {
    FromToHash(app);
    assert forall k :: k in ToHash(app) ==> (h + ToHash(app))[k] == ToHash(app)[k];
    assert forall k :: k in h + ToHash(app) <==> k in h || k in ToHash(app);
    assert FieldExpireTime in ToHash(app);
  }
}

=== FILE: biz.dfy ===
/**
 * wxcpt/biz.go: the outgoing encrypted envelope, as JSON and as XML.
 * In the XML form three of the fields are CDATA sections; marshalling
 * itself is not modelled.
 */
module Biz {
  import opened ByteStrings

  datatype BizMsgSendJson = BizMsgSendJson(Encrypt: Bytes, Msgsignature: Bytes, Nonce: Bytes, Timestamp: Bytes)

  /** Text written as a CDATA section when marshalled. */
  datatype CDATA = CDATA(text: Bytes)

  datatype BizMsgSendXml = BizMsgSendXml(Encrypt: CDATA, Msgsignature: CDATA, Nonce: CDATA, Timestamp: Bytes)

  /** The four string values an envelope carries, whatever its encoding. */
  datatype Envelope = Envelope(encrypt: Bytes, signature: Bytes, timestamp: Bytes, nonce: Bytes)

  function JsonValues(m: BizMsgSendJson): Envelope {
    Envelope(m.Encrypt, m.Msgsignature, m.Timestamp, m.Nonce)
  }

  function XmlValues(m: BizMsgSendXml): Envelope {
    Envelope(m.Encrypt.text, m.Msgsignature.text, m.Timestamp, m.Nonce.text)
  }

  /** Note the argument order: the third argument is the timestamp, the fourth the nonce. */
  function NewBizMsgSendJson(encrypt: Bytes, signature: Bytes, timestamp: Bytes, nonce: Bytes): (r: BizMsgSendJson)
    ensures JsonValues(r) == Envelope(encrypt, signature, timestamp, nonce)
  {
    BizMsgSendJson(Encrypt := encrypt, Msgsignature := signature, Nonce := nonce, Timestamp := timestamp)
  }

  function NewBizMsgSendXml(encrypt: Bytes, signature: Bytes, timestamp: Bytes, nonce: Bytes): (r: BizMsgSendXml)
    ensures XmlValues(r) == Envelope(encrypt, signature, timestamp, nonce)
    ensures r.Encrypt == CDATA(encrypt) && r.Msgsignature == CDATA(signature) && r.Nonce == CDATA(nonce)
  {
    BizMsgSendXml(Encrypt := CDATA(encrypt), Msgsignature := CDATA(signature), Nonce := CDATA(nonce), Timestamp := timestamp)
  }

  /** Given the same arguments, both encodings carry the same four values. */
  lemma EnvelopesAgree(encrypt: Bytes, signature: Bytes, timestamp: Bytes, nonce: Bytes)
    ensures JsonValues(NewBizMsgSendJson(encrypt, signature, timestamp, nonce))
         == XmlValues(NewBizMsgSendXml(encrypt, signature, timestamp, nonce))
  {
  }
}

=== FILE: buffer.dfy ===
/**
 * utils/buffer.go: an append-only byte buffer. The Go type is a slice, so
 * the state is its contents and its capacity; appending may grow the
 * capacity. Handing a freed buffer back to the shared pool is not modelled.
 */
module Buf {
  import opened ByteStrings

  /** Buffers above this capacity (16 KiB) are not recycled by `Free`. */
  const MaxBufferSize := 16 * 1024

  /** Capacity of a buffer fresh from the pool. */
  const InitialCapacity := 1024

  class Buffer {
    var bytes: Bytes
    var cap: nat

    ghost predicate Valid()
      reads this
    {
      |bytes| <= cap
    }

    /** `NewBuffer()` when the pool has no buffer to hand out: empty, capacity 1024. */
    constructor ()
      ensures Valid()
      ensures bytes == [] && cap == InitialCapacity
    {
      bytes := [];
      cap := InitialCapacity;
    }

    /**
     * `append`'s capacity: unchanged while the contents fit, otherwise some
     * capacity at least the new length, which the runtime's growth rule
     * chooses and which is not modelled further.
     */
    method Grow()
      modifies this`cap
      ensures old(cap) >= |bytes| ==> cap == old(cap)
      ensures cap >= old(cap) && cap >= |bytes|
    {
      if cap < |bytes| {
        var c: nat :| c >= |bytes|;
        cap := c;
      }
    }

    method Write(b: Bytes) returns (n: int)
      requires Valid()
      modifies this
      ensures Valid()
      ensures String() == old(String()) + b
      ensures n == |b|
      ensures cap >= old(cap)
      ensures old(cap) >= |old(bytes)| + |b| ==> cap == old(cap)
    {
      bytes := bytes + b;
      Grow();
      n := |b|;
    }

    method WriteByte(c: byte)
      requires Valid()
      modifies this
      ensures Valid()
      ensures String() == old(String()) + [c]
      ensures cap >= old(cap)
      ensures old(cap) > |old(bytes)| ==> cap == old(cap)
    {
      bytes := bytes + [c];
      Grow();
    }

    method WriteString(s: Bytes) returns (n: int)
      requires Valid()
      modifies this
      ensures Valid()
      ensures String() == old(String()) + s
      ensures n == |s|
      ensures cap >= old(cap)
      ensures old(cap) >= |old(bytes)| + |s| ==> cap == old(cap)
    {
      n := Write(s);
    }

    method WriteStringIf(ok: bool, s: Bytes) returns (n: int)
      requires Valid()
      modifies this
      ensures Valid()
      ensures ok ==> String() == old(String()) + s && n == |s| && cap >= old(cap)
      ensures ok && old(cap) >= |old(bytes)| + |s| ==> cap == old(cap)
      ensures !ok ==> String() == old(String()) && n == 0 && cap == old(cap)
    {
      if !ok {
        return 0;
      }
      n := WriteString(s);
    }

    /** Empties a buffer of capacity at most 16 KiB; a larger one is left as it is. */
    method Free()
      requires Valid()
      modifies this
      ensures Valid()
      ensures cap == old(cap)
      ensures old(cap) <= MaxBufferSize ==> String() == []
      ensures old(cap) > MaxBufferSize ==> String() == old(String())
    {
      if cap <= MaxBufferSize {
        bytes := [];
      }
    }

    /** The accumulated bytes. */
    function String(): (r: Bytes)
      reads this
      requires Valid()
      ensures |r| <= cap
    {
      bytes
    }
  }
}

=== FILE: bytestrings.dfy ===
/**
 * Go strings and byte slices. A Go `string` is an immutable sequence of
 * bytes, so both are modelled as `Bytes`; literals are written `Lit("...")`.
 * Go compares strings byte by byte (`<` and `sort.Strings`), which is the
 * lexicographic order `Less` below.
 */
module ByteStrings {

  newtype byte = x: int | 0 <= x < 256

  type Bytes = seq<byte>

  /** The bytes of a literal written with characters below 256. */
  function Lit(s: string): (r: Bytes)
    ensures |r| == |s|
    ensures forall i :: 0 <= i < |s| ==> r[i] as int == s[i] as int % 256
  {
    seq(|s|, i requires 0 <= i < |s| => (s[i] as int % 256) as byte)
  }

  predicate HasPrefix(s: Bytes, prefix: Bytes) {
    |prefix| <= |s| && s[..|prefix|] == prefix
  }

  predicate HasSuffix(s: Bytes, suffix: Bytes) {
    |suffix| <= |s| && s[|s| - |suffix|..] == suffix
  }

  /** Concatenation of all parts, in order. */
  function Concat(parts: seq<Bytes>): (r: Bytes)
  {
    if parts == [] then [] else Concat(parts[..|parts| - 1]) + parts[|parts| - 1]
  }

  /** Go's `a < b` on strings: lexicographic on byte values, a proper prefix is smaller. */
  predicate Less(a: Bytes, b: Bytes) {
    if a == [] then b != []
    else if b == [] then false
    else a[0] < b[0] || (a[0] == b[0] && Less(a[1..], b[1..]))
  }

  predicate LessEq(a: Bytes, b: Bytes) {
    !Less(b, a)
  }

  lemma {:induction false} LessIrreflexive(a: Bytes)
    ensures !Less(a, a)
  {
    if a != [] {
      LessIrreflexive(a[1..]);
    }
  }

  lemma {:induction false} LessAsymmetric(a: Bytes, b: Bytes)
    requires Less(a, b)
    ensures !Less(b, a)
  {
    if a != [] && b != [] && a[0] == b[0] {
      LessAsymmetric(a[1..], b[1..]);
    }
  }

  lemma {:induction false} LessTransitive(a: Bytes, b: Bytes, c: Bytes)
    requires Less(a, b) && Less(b, c)
    ensures Less(a, c)
  {
    if a != [] && b != [] && c != [] && a[0] == b[0] && b[0] == c[0] {
      LessTransitive(a[1..], b[1..], c[1..]);
    }
  }

  /** Two strings neither of which is smaller than the other are equal. */
  lemma {:induction false} LessTrichotomy(a: Bytes, b: Bytes)
    requires !Less(a, b) && !Less(b, a)
    ensures a == b
  {
    if a != [] && b != [] {
      LessTrichotomy(a[1..], b[1..]);
      assert a == [a[0]] + a[1..] && b == [b[0]] + b[1..];
    }
  }

  lemma LessEqTransitive(a: Bytes, b: Bytes, c: Bytes)
    requires LessEq(a, b) && LessEq(b, c)
    ensures LessEq(a, c)
  {
    if Less(c, a) {
      if Less(b, c) {
        LessTransitive(b, c, a);
      } else {
        LessTrichotomy(b, c);
      }
    }
  }
}

=== FILE: crypto.dfy ===
/**
 * wxcpt/crypto.go: the webhook message codec. A message is framed as
 * 16 random characters, the 4-byte big-endian message length, the message
 * and the app id; the frame is PKCS#7-padded to 32 bytes, encrypted with
 * AES-CBC under the base64-decoded key (IV = first 16 key bytes) and
 * base64-encoded. The signature is the hex SHA-1 of the sorted
 * {token, timestamp, nonce, ciphertext}.
 */
module Wxcpt {
  import opened ByteStrings
  import opened Wrappers
  import opened Primitives
  import opened Sorting
  import opened Util
  import opened Biz

  /** Block size of the PKCS#7 padding used by the codec (not the AES block size). */
  const BlockSize := 32

  const Two32 := 0x1_0000_0000

  /** Length of the frame header: 16 random bytes and the 4-byte length. */
  const HeaderLen := 20

  datatype BizMsgRecv = BizMsgRecv(Tousername: Bytes, Encrypt: Bytes, Agentid: Bytes)

  datatype BizMsgCrypt = BizMsgCrypt(Token: Bytes, EncodingAesKey: Bytes, Appid: Bytes)

  datatype CryptError =
    | SignatureNotEqual
    | Base64Error           // key does not decode, on the encrypt path
    | Base64DecodeError     // key or ciphertext does not decode, on the decrypt path
    | AesError              // key length is not an AES key length
    | EncryptMsgSizeNotValid
    | EncryptMsgNotBlockMultiple
    | UnpadNilOrZero
    | UnpadNotBlockMultiple
    | UnpadTooLarge         // the correction of the unpadding panic
    | PlainTooSmall1
    | PlainTooSmall2
    | AppidNotEqual

  /** What a Go function does: return a value or an error, or panic. */
  datatype Run<T> = Returned(result: Result<T, CryptError>) | Panicked

  datatype Parsed = Parsed(random: Bytes, msgLen: nat, msg: Bytes, appid: Bytes)

  /** The configured key is stored with exactly one "=" appended, which makes 43 base64 characters decodable. */
  function NewBizMsgCrypt(token: Bytes, encodingAeskey: Bytes, appid: Bytes): (c: BizMsgCrypt)
    ensures c.Token == token && c.Appid == appid
    ensures |c.EncodingAesKey| == |encodingAeskey| + 1
    ensures HasPrefix(c.EncodingAesKey, encodingAeskey)
    ensures c.EncodingAesKey[|encodingAeskey|] == Lit("=")[0]
  {
    BizMsgCrypt(token, encodingAeskey + Lit("="), appid)
  }

  // ---------------------------------------------------------------- framing

  function Uint32(b: Bytes): (n: nat)
    requires |b| == 4
    ensures n < Two32
  {
    ((b[0] as int * 256 + b[1] as int) * 256 + b[2] as int) * 256 + b[3] as int
  }

  /** `binary.BigEndian.PutUint32`. */
  function PutUint32(n: nat): (r: Bytes)
    requires n < Two32
    ensures |r| == 4 && Uint32(r) == n
  {
    var n1 := n / 256;
    var n2 := n1 / 256;
    var n3 := n2 / 256;
    [(n3 % 256) as byte, (n2 % 256) as byte, (n1 % 256) as byte, (n % 256) as byte]
  }

  lemma PutUint32Uint32(b: Bytes)
    requires |b| == 4
    ensures PutUint32(Uint32(b)) == b
  {
    var x0, x1, x2, x3 := b[0] as int, b[1] as int, b[2] as int, b[3] as int;
    var n2 := x0 * 256 + x1;
    var n1 := n2 * 256 + x2;
    var n := n1 * 256 + x3;
    assert n == Uint32(b);
    assert n / 256 == n1 && n % 256 == x3;
    assert n1 / 256 == n2 && n1 % 256 == x2;
    assert n2 / 256 == x0 && n2 % 256 == x1;
  }

  /** The plaintext frame; the length field is `uint32(len(msg))`, so it wraps for messages of 4 GiB and more. */
  function Frame(random: Bytes, msg: Bytes, appid: Bytes): (r: Bytes)
    ensures |r| == |random| + 4 + |msg| + |appid|
    ensures r[..|random|] == random && Uint32(r[|random|..|random| + 4]) == |msg| % Two32
    ensures r[|random| + 4..] == msg + appid
  {
    random + PutUint32(|msg| % Two32) + msg + appid
  }

  /** The first 16 characters `RandomStr(16)` draws. */
  function RandomPrefix(rng: nat -> Draw): (r: Bytes)
    ensures |r| == 16
  {
    seq(16, i requires 0 <= i < 16 => Alphabet[rng(i)])
  }

  // ---------------------------------------------------------------- padding

  /** `pKCS7Padding`: p = blockSize - len % blockSize bytes, each `byte(p)`, so 1 <= p <= blockSize. */
  function Pad(plaintext: Bytes, blockSize: nat): (r: Bytes)
    requires blockSize > 0
    ensures |r| % blockSize == 0
    ensures |plaintext| < |r| <= |plaintext| + blockSize
    ensures r[..|plaintext|] == plaintext
    ensures forall i :: |plaintext| <= i < |r| ==> r[i] as int == (|r| - |plaintext|) % 256
  {
    var padding := blockSize - |plaintext| % blockSize;
    PaddedLength(|plaintext|, blockSize);
    plaintext + seq(padding, _ => (padding % 256) as byte)
  }

  lemma PaddedLength(n: nat, b: nat)
    requires b > 0
    ensures (n + (b - n % b)) % b == 0
  {
    var q := n / b;
    assert n + (b - n % b) == (q + 1) * b;
    MultipleMod(q + 1, b);
  }

  lemma MultipleMod(k: nat, b: nat)
    requires b > 0
    ensures (k * b) % b == 0
  {
    var d, m := (k * b) / b, (k * b) % b;
    assert (k - d) * b == m;
    SmallMultiple(k - d, b);
  }

  lemma SmallMultiple(x: int, b: nat)
    requires b > 0 && 0 <= x * b < b
    ensures x == 0
  {
  }

  /**
   * `pKCS7UnPadding` as written: it slices off as many bytes as the last
   * byte says without checking that value against the length, so a value
   * larger than the length panics.
   */
  function UnpadAsWritten(plaintext: Bytes, blockSize: nat): (r: Run<Bytes>)
    requires blockSize > 0
    ensures r == Panicked <==>
              |plaintext| > 0 && |plaintext| % blockSize == 0 && plaintext[|plaintext| - 1] as int > |plaintext|
    ensures r.Returned? && r.result.Success? ==>
              && |plaintext| > 0 && |plaintext| % blockSize == 0
              && |r.result.value| == |plaintext| - plaintext[|plaintext| - 1] as int
              && HasPrefix(plaintext, r.result.value)
  {
    if |plaintext| == 0 then Returned(Failure(UnpadNilOrZero))
    else if |plaintext| % blockSize != 0 then Returned(Failure(UnpadNotBlockMultiple))
    else
      var paddingLen := plaintext[|plaintext| - 1] as int;
      if paddingLen > |plaintext| then Panicked
      else Returned(Success(plaintext[..|plaintext| - paddingLen]))
  }

  /**
   * `pKCS7UnPadding` corrected: an oversized pad value is an error instead
   * of a panic. The pad bytes themselves are still not checked.
   */
  function Unpad(plaintext: Bytes, blockSize: nat): (r: Result<Bytes, CryptError>)
    requires blockSize > 0
    ensures |plaintext| == 0 ==> r == Failure(UnpadNilOrZero)
    ensures |plaintext| > 0 && |plaintext| % blockSize != 0 ==> r == Failure(UnpadNotBlockMultiple)
    ensures r.Success? <==>
              |plaintext| > 0 && |plaintext| % blockSize == 0 && plaintext[|plaintext| - 1] as int <= |plaintext|
    ensures r.Success? ==>
              |r.value| == |plaintext| - plaintext[|plaintext| - 1] as int && HasPrefix(plaintext, r.value)
    ensures UnpadAsWritten(plaintext, blockSize) != Panicked ==> UnpadAsWritten(plaintext, blockSize) == Returned(r)
  {
    if |plaintext| == 0 then Failure(UnpadNilOrZero)
    else if |plaintext| % blockSize != 0 then Failure(UnpadNotBlockMultiple)
    else
      var paddingLen := plaintext[|plaintext| - 1] as int;
      if paddingLen > |plaintext| then Failure(UnpadTooLarge)
      else Success(plaintext[..|plaintext| - paddingLen])
  }

  /** Unpadding undoes padding for every block size a pad byte can hold. */
  lemma UnpadPad(plaintext: Bytes, blockSize: nat)
    requires 0 < blockSize < 256
    ensures Unpad(Pad(plaintext, blockSize), blockSize) == Success(plaintext)
  {
    var r := Pad(plaintext, blockSize);
    assert r[|r| - 1] as int == |r| - |plaintext|;
  }

  /** A 32-byte plaintext whose last byte is 200: the unchecked slice panics. */
  lemma UnpadAsWrittenPanics()
    ensures UnpadAsWritten(seq(32, i => if i == 31 then 200 else 0), BlockSize) == Panicked
    ensures Unpad(seq(32, i => if i == 31 then 200 else 0), BlockSize) == Failure(UnpadTooLarge)
  {
    var s: Bytes := seq(32, i => if i == 31 then 200 else 0);
    assert s[|s| - 1] == 200;
  }

  // ---------------------------------------------------------------- parsing

  /**
   * `ParsePlainText` as written: the length checks use uint32 arithmetic,
   * so `20 + msgLen` can wrap below 20 and the slice `[20:20+msgLen]` panics.
   */
  function ParsePlainTextAsWritten(plaintext: Bytes): (r: Run<Parsed>)
    ensures UnpadAsWritten(plaintext, BlockSize) == Panicked ==> r == Panicked
    ensures r.Returned? && r.result.Success? ==>
              && UnpadAsWritten(plaintext, BlockSize).Returned?
              && UnpadAsWritten(plaintext, BlockSize).result.Success?
              && |r.result.value.random| == 16
              && |r.result.value.msg| == r.result.value.msgLen < Two32
              && UnpadAsWritten(plaintext, BlockSize).result.value
                 == r.result.value.random + PutUint32(r.result.value.msgLen) + r.result.value.msg + r.result.value.appid
  {
    match UnpadAsWritten(plaintext, BlockSize)
    case Panicked => Panicked
    case Returned(Failure(e)) => Returned(Failure(e))
    case Returned(Success(t)) =>
      var textLen := |t| % Two32;
      if textLen < HeaderLen then Returned(Failure(PlainTooSmall1))
      else
        var msgLen := Uint32(t[16..20]);
        var end := (HeaderLen + msgLen) % Two32;
        if textLen < end then Returned(Failure(PlainTooSmall2))
        else if end < HeaderLen then Panicked
        else
          PutUint32Uint32(t[16..20]);
          assert t == t[..16] + t[16..20] + t[HeaderLen..end] + t[end..];
          Returned(Success(Parsed(t[..16], msgLen, t[HeaderLen..end], t[end..])))
  }

  /**
   * `ParsePlainText` corrected: lengths compared without wrap-around. A
   * successful parse splits the unpadded text back into its frame.
   */
  function ParsePlainText(plaintext: Bytes): (r: Result<Parsed, CryptError>)
    ensures Unpad(plaintext, BlockSize).Failure? ==> r == Failure(Unpad(plaintext, BlockSize).error)
    ensures r.Success? ==>
              && |r.value.random| == 16
              && |r.value.msg| == r.value.msgLen < Two32
              && Unpad(plaintext, BlockSize).value
                 == r.value.random + PutUint32(r.value.msgLen) + r.value.msg + r.value.appid
  {
    match Unpad(plaintext, BlockSize)
    case Failure(e) => Failure(e)
    case Success(t) =>
      if |t| < HeaderLen then Failure(PlainTooSmall1)
      else
        var msgLen := Uint32(t[16..20]);
        if |t| < HeaderLen + msgLen then Failure(PlainTooSmall2)
        else
          var parsed := Parsed(t[..16], msgLen, t[HeaderLen..HeaderLen + msgLen], t[HeaderLen + msgLen..]);
          PutUint32Uint32(t[16..20]);
          assert t == t[..16] + t[16..20] + t[HeaderLen..HeaderLen + msgLen] + t[HeaderLen + msgLen..];
          Success(parsed)
  }

  /**
   * The corrected parser gives what the code as written gives whenever the
   * code does not panic and the plaintext is shorter than 4 GiB (so the
   * uint32 length itself cannot wrap).
   */
  lemma ParsePlainTextAgrees(plaintext: Bytes)
    requires |plaintext| < Two32
    requires ParsePlainTextAsWritten(plaintext) != Panicked
    ensures ParsePlainTextAsWritten(plaintext) == Returned(ParsePlainText(plaintext))
  {
  }

  /** Parsing a padded frame gives back its parts. */
  lemma ParseFrame(random: Bytes, msg: Bytes, appid: Bytes)
    requires |random| == 16 && |msg| < Two32
    ensures ParsePlainText(Pad(Frame(random, msg, appid), BlockSize)) == Success(Parsed(random, |msg|, msg, appid))
  {
    var frame := Frame(random, msg, appid);
    UnpadPad(frame, BlockSize);
    FrameSlices(random, msg, appid);
  }

  /** Where the parts of a frame sit. */
  lemma FrameSlices(random: Bytes, msg: Bytes, appid: Bytes)
    requires |random| == 16 && |msg| < Two32
    ensures var frame := Frame(random, msg, appid);
            && |frame| == HeaderLen + |msg| + |appid|
            && frame[..16] == random
            && Uint32(frame[16..20]) == |msg|
            && frame[HeaderLen..HeaderLen + |msg|] == msg
            && frame[HeaderLen + |msg|..] == appid
  {
    assert |msg| % Two32 == |msg|;
    var len := PutUint32(|msg|);
    var head := random + len;
    var tail := msg + appid;
    var frame := Frame(random, msg, appid);
    assert frame == head + tail by {
      AppendAssoc(head, msg, appid);
    }
    assert |head| == HeaderLen;
    assert frame[..16] == head[..16] == random;
    assert frame[16..20] == head[16..20] == len;
    assert frame[HeaderLen..] == tail;
    assert frame[HeaderLen..HeaderLen + |msg|] == tail[..|msg|] == msg;
    assert frame[HeaderLen + |msg|..] == tail[|msg|..] == appid;
  }

  lemma AppendAssoc(a: Bytes, b: Bytes, c: Bytes)
    ensures a + b + c == a + (b + c)
  {
  }

  /** 16 random bytes, length 0xFFFFFFFF, 12 more bytes and a full pad block: the as-written parser panics. */
  lemma ParsePlainTextAsWrittenPanics()
    ensures ParsePlainTextAsWritten(WrappedLengthInput()) == Panicked
    ensures ParsePlainText(WrappedLengthInput()) == Failure(PlainTooSmall2)
  {
    var s := WrappedLengthInput();
    assert s[63] == 32;
    assert UnpadAsWritten(s, BlockSize) == Returned(Success(s[..32]));
    assert s[..32][16..20] == [255, 255, 255, 255];
  }

  function WrappedLengthInput(): (s: Bytes)
    ensures |s| == 64
  {
    seq(64, i => if 16 <= i < 20 then 255 else if i >= 32 then 32 else 0)
  }

  // ---------------------------------------------------------------- cipher

  /** `cbcEncrypt`: decode the key, pad to 32 bytes, encrypt with IV = key[:16], base64-encode. */
  function CbcEncrypt(p: Primitives, cpt: BizMsgCrypt, plaintext: Bytes): (r: Result<Bytes, CryptError>)
    ensures p.base64Decode(cpt.EncodingAesKey).None? <==> r == Failure(Base64Error)
    ensures p.base64Decode(cpt.EncodingAesKey).Some? && !ValidAesKey(p.base64Decode(cpt.EncodingAesKey).value) ==>
              r == Failure(AesError)
    ensures r.Success? <==> p.base64Decode(cpt.EncodingAesKey).Some? && ValidAesKey(p.base64Decode(cpt.EncodingAesKey).value)
    ensures r.Success? ==>
              var aeskey := p.base64Decode(cpt.EncodingAesKey).value;
              && |aeskey| >= AesBlockSize
              && r.value == p.base64Encode(p.cbcEncrypt(aeskey, aeskey[..AesBlockSize], Pad(plaintext, BlockSize)))
  {
    match p.base64Decode(cpt.EncodingAesKey)
    case None => Failure(Base64Error)
    case Some(aeskey) =>
      var padMsg := Pad(plaintext, BlockSize);
      if !ValidAesKey(aeskey) then Failure(AesError)
      else Success(p.base64Encode(p.cbcEncrypt(aeskey, aeskey[..AesBlockSize], padMsg)))
  }

  /**
   * `cbcDecrypt`: decode key and ciphertext, then decrypt with IV = key[:16];
   * ciphertext shorter than one AES block or not a whole number of blocks
   * is rejected.
   */
  function CbcDecrypt(p: Primitives, cpt: BizMsgCrypt, base64EncryptMsg: Bytes): (r: Result<Bytes, CryptError>)
    ensures p.base64Decode(cpt.EncodingAesKey).None? ==> r == Failure(Base64DecodeError)
    ensures p.base64Decode(cpt.EncodingAesKey).Some? && p.base64Decode(base64EncryptMsg).None? ==>
              r == Failure(Base64DecodeError)
    ensures p.base64Decode(cpt.EncodingAesKey).Some? && p.base64Decode(base64EncryptMsg).Some? &&
            !ValidAesKey(p.base64Decode(cpt.EncodingAesKey).value) ==>
              r == Failure(AesError)
    ensures r.Success? ==>
              && p.base64Decode(cpt.EncodingAesKey).Some?
              && ValidAesKey(p.base64Decode(cpt.EncodingAesKey).value)
              && p.base64Decode(base64EncryptMsg).Some?
              && |p.base64Decode(base64EncryptMsg).value| >= AesBlockSize
              && |p.base64Decode(base64EncryptMsg).value| % AesBlockSize == 0
    ensures p.base64Decode(cpt.EncodingAesKey).Some? && ValidAesKey(p.base64Decode(cpt.EncodingAesKey).value)
            && p.base64Decode(base64EncryptMsg).Some? ==>
              var n := |p.base64Decode(base64EncryptMsg).value|;
              && (n < AesBlockSize ==> r == Failure(EncryptMsgSizeNotValid))
              && (n >= AesBlockSize && n % AesBlockSize != 0 ==> r == Failure(EncryptMsgNotBlockMultiple))
              && (n >= AesBlockSize && n % AesBlockSize == 0 ==> r.Success?)
    ensures r.Success? ==>
              var aeskey := p.base64Decode(cpt.EncodingAesKey).value;
              && |aeskey| >= AesBlockSize
              && r.value == p.cbcDecrypt(aeskey, aeskey[..AesBlockSize], p.base64Decode(base64EncryptMsg).value)
  {
    match p.base64Decode(cpt.EncodingAesKey)
    case None => Failure(Base64DecodeError)
    case Some(aeskey) =>
      match p.base64Decode(base64EncryptMsg)
      case None => Failure(Base64DecodeError)
      case Some(encryptMsg) =>
        if !ValidAesKey(aeskey) then Failure(AesError)
        else if |encryptMsg| < AesBlockSize then Failure(EncryptMsgSizeNotValid)
        else if |encryptMsg| % AesBlockSize != 0 then Failure(EncryptMsgNotBlockMultiple)
        else Success(p.cbcDecrypt(aeskey, aeskey[..AesBlockSize], encryptMsg))
  }

  /** Decrypting what `CbcEncrypt` produced gives back the padded plaintext. */
  lemma CbcRoundTrip(p: Primitives, cpt: BizMsgCrypt, plaintext: Bytes)
    requires Lawful(p)
    requires CbcEncrypt(p, cpt, plaintext).Success?
    ensures CbcDecrypt(p, cpt, CbcEncrypt(p, cpt, plaintext).value) == Success(Pad(plaintext, BlockSize))
  {
    var aeskey := p.base64Decode(cpt.EncodingAesKey).value;
    var padMsg := Pad(plaintext, BlockSize);
    BlocksOfSixteen(|padMsg|);
    var c := p.cbcEncrypt(aeskey, aeskey[..AesBlockSize], padMsg);
    assert CbcEncrypt(p, cpt, plaintext) == Success(p.base64Encode(c));
    assert p.base64Decode(p.base64Encode(c)) == Some(c);
    assert |c| == |padMsg| > 0;
    assert p.cbcDecrypt(aeskey, aeskey[..AesBlockSize], c) == padMsg;
  }

  /** A whole number of 32-byte blocks is a whole number of AES blocks. */
  lemma BlocksOfSixteen(n: nat)
    requires n % BlockSize == 0
    ensures n % AesBlockSize == 0
  {
    var q := n / BlockSize;
    assert n == (2 * q) * AesBlockSize;
    MultipleMod(2 * q, AesBlockSize);
  }

  // ---------------------------------------------------------------- signature

  /** The value `calSignature(timestamp, nonce, data)` computes. */
  function CalSignatureOf(p: Primitives, cpt: BizMsgCrypt, timestamp: Bytes, nonce: Bytes, data: Bytes): Bytes {
    SignatureOf(p, [cpt.Token, timestamp, nonce, data])
  }

  /** `calSignature`: sort the four strings in place, write them one after the other, hash, hex. */
  method CalSignature(p: Primitives, cpt: BizMsgCrypt, timestamp: Bytes, nonce: Bytes, data: Bytes) returns (sig: Bytes)
    ensures sig == CalSignatureOf(p, cpt, timestamp, nonce, data)
  {
    var sortArr := new Bytes[] [cpt.Token, timestamp, nonce, data];
    assert sortArr[..] == [cpt.Token, timestamp, nonce, data];
    SortStrings(sortArr);
    var buffer := HashInput(sortArr);
    sig := Hex(p.sha1(buffer));
  }

  /** Any arrangement of the four inputs gives the same signature. */
  lemma CalSignatureOrderInsensitive(p: Primitives, cpt: BizMsgCrypt, timestamp: Bytes, nonce: Bytes, data: Bytes, arranged: seq<Bytes>)
    requires multiset(arranged) == multiset{cpt.Token, timestamp, nonce, data}
    ensures SignatureOf(p, arranged) == CalSignatureOf(p, cpt, timestamp, nonce, data)
  {
    SignatureOrderInsensitive(p, arranged, [cpt.Token, timestamp, nonce, data]);
  }

  // ---------------------------------------------------------------- encrypt

  /** Lines shared by both encrypt paths: frame the message with 16 random characters and encrypt it. */
  method EncryptFrame(p: Primitives, cpt: BizMsgCrypt, replyMsg: Bytes, rng: nat -> Draw) returns (r: Result<Bytes, CryptError>)
    ensures r == CbcEncrypt(p, cpt, Frame(RandomPrefix(rng), replyMsg, cpt.Appid))
  {
    var randStr := RandomStr(16, rng);
    var buffer: Bytes := [];
    buffer := buffer + randStr;
    var msgLenBuf := PutUint32(|replyMsg| % Two32);
    buffer := buffer + msgLenBuf;
    buffer := buffer + replyMsg;
    buffer := buffer + cpt.Appid;
    assert randStr == RandomPrefix(rng);
    assert buffer == Frame(RandomPrefix(rng), replyMsg, cpt.Appid);
    r := CbcEncrypt(p, cpt, buffer);
  }

  method EncryptJsonMsg(p: Primitives, cpt: BizMsgCrypt, replyMsg: Bytes, timestamp: Bytes, nonce: Bytes, rng: nat -> Draw)
    returns (r: Result<BizMsgSendJson, CryptError>)
    ensures r.Failure? <==> CbcEncrypt(p, cpt, Frame(RandomPrefix(rng), replyMsg, cpt.Appid)).Failure?
    ensures r.Failure? ==> r.error == CbcEncrypt(p, cpt, Frame(RandomPrefix(rng), replyMsg, cpt.Appid)).error
    ensures r.Success? ==>
              && r.value.Encrypt == CbcEncrypt(p, cpt, Frame(RandomPrefix(rng), replyMsg, cpt.Appid)).value
              && r.value.Timestamp == timestamp && r.value.Nonce == nonce
              && r.value.Msgsignature == CalSignatureOf(p, cpt, timestamp, nonce, r.value.Encrypt)
    ensures r.Success? && Lawful(p) && |replyMsg| < Two32 ==>
              DecryptMsg(p, cpt, r.value.Msgsignature, timestamp, nonce, BizMsgRecv([], r.value.Encrypt, [])) == Success(replyMsg)
  {
    var tmpCiphertext := EncryptFrame(p, cpt, replyMsg, rng);
    if tmpCiphertext.Failure? {
      return Failure(tmpCiphertext.error);
    }
    var ciphertext := tmpCiphertext.value;
    var signature := CalSignature(p, cpt, timestamp, nonce, ciphertext);
    r := Success(NewBizMsgSendJson(ciphertext, signature, timestamp, nonce));
    if Lawful(p) && |replyMsg| < Two32 {
      OpenSealed(p, cpt, RandomPrefix(rng), replyMsg, timestamp, nonce);
    }
  }

  method EncryptXmlMsg(p: Primitives, cpt: BizMsgCrypt, replyMsg: Bytes, timestamp: Bytes, nonce: Bytes, rng: nat -> Draw)
    returns (r: Result<BizMsgSendXml, CryptError>)
    ensures r.Failure? <==> CbcEncrypt(p, cpt, Frame(RandomPrefix(rng), replyMsg, cpt.Appid)).Failure?
    ensures r.Failure? ==> r.error == CbcEncrypt(p, cpt, Frame(RandomPrefix(rng), replyMsg, cpt.Appid)).error
    ensures r.Success? ==>
              && r.value.Encrypt.text == CbcEncrypt(p, cpt, Frame(RandomPrefix(rng), replyMsg, cpt.Appid)).value
              && r.value.Timestamp == timestamp && r.value.Nonce.text == nonce
              && r.value.Msgsignature.text == CalSignatureOf(p, cpt, timestamp, nonce, r.value.Encrypt.text)
    ensures r.Success? && Lawful(p) && |replyMsg| < Two32 ==>
              DecryptMsg(p, cpt, r.value.Msgsignature.text, timestamp, nonce, BizMsgRecv([], r.value.Encrypt.text, [])) == Success(replyMsg)
  {
    var tmpCiphertext := EncryptFrame(p, cpt, replyMsg, rng);
    if tmpCiphertext.Failure? {
      return Failure(tmpCiphertext.error);
    }
    var ciphertext := tmpCiphertext.value;
    var signature := CalSignature(p, cpt, timestamp, nonce, ciphertext);
    r := Success(NewBizMsgSendXml(ciphertext, signature, timestamp, nonce));
    if Lawful(p) && |replyMsg| < Two32 {
      OpenSealed(p, cpt, RandomPrefix(rng), replyMsg, timestamp, nonce);
    }
  }

  // ---------------------------------------------------------------- decrypt

  /**
   * The pipeline `DecryptMsg` and `VerifyURL` share: check the signature
   * before anything is decrypted, decrypt, parse, and compare the embedded
   * app id only when one is configured.
   */
  function Open(p: Primitives, cpt: BizMsgCrypt, msgSignature: Bytes, timestamp: Bytes, nonce: Bytes, ciphertext: Bytes)
    : (r: Result<Bytes, CryptError>)
    ensures CalSignatureOf(p, cpt, timestamp, nonce, ciphertext) != msgSignature ==> r == Failure(SignatureNotEqual)
    ensures r.Success? ==>
              && CalSignatureOf(p, cpt, timestamp, nonce, ciphertext) == msgSignature
              && CbcDecrypt(p, cpt, ciphertext).Success?
              && ParsePlainText(CbcDecrypt(p, cpt, ciphertext).value).Success?
              && r.value == ParsePlainText(CbcDecrypt(p, cpt, ciphertext).value).value.msg
              && (|cpt.Appid| > 0 ==> ParsePlainText(CbcDecrypt(p, cpt, ciphertext).value).value.appid == cpt.Appid)
    ensures |cpt.Appid| == 0 ==> r != Failure(AppidNotEqual)
    ensures CalSignatureOf(p, cpt, timestamp, nonce, ciphertext) == msgSignature &&
            CbcDecrypt(p, cpt, ciphertext).Success? &&
            ParsePlainText(CbcDecrypt(p, cpt, ciphertext).value).Success? ==>
              var parsed := ParsePlainText(CbcDecrypt(p, cpt, ciphertext).value).value;
              r == if |cpt.Appid| > 0 && parsed.appid != cpt.Appid then Failure(AppidNotEqual) else Success(parsed.msg)
  {
    if CalSignatureOf(p, cpt, timestamp, nonce, ciphertext) != msgSignature then Failure(SignatureNotEqual)
    else
      match CbcDecrypt(p, cpt, ciphertext)
      case Failure(e) => Failure(e)
      case Success(plaintext) =>
        match ParsePlainText(plaintext)
        case Failure(e) => Failure(e)
        case Success(parsed) =>
          if |cpt.Appid| > 0 && parsed.appid != cpt.Appid then Failure(AppidNotEqual)
          else Success(parsed.msg)
  }

  function DecryptMsg(p: Primitives, cpt: BizMsgCrypt, msgSignature: Bytes, timestamp: Bytes, nonce: Bytes, msg4Recv: BizMsgRecv)
    : (r: Result<Bytes, CryptError>)
    ensures CalSignatureOf(p, cpt, timestamp, nonce, msg4Recv.Encrypt) != msgSignature ==> r == Failure(SignatureNotEqual)
    ensures r.Success? ==>
              && CbcDecrypt(p, cpt, msg4Recv.Encrypt).Success?
              && ParsePlainText(CbcDecrypt(p, cpt, msg4Recv.Encrypt).value).Success?
              && r.value == ParsePlainText(CbcDecrypt(p, cpt, msg4Recv.Encrypt).value).value.msg
    ensures |cpt.Appid| > 0 && r.Success? ==> ParsePlainText(CbcDecrypt(p, cpt, msg4Recv.Encrypt).value).value.appid == cpt.Appid
    ensures CalSignatureOf(p, cpt, timestamp, nonce, msg4Recv.Encrypt) == msgSignature &&
            CbcDecrypt(p, cpt, msg4Recv.Encrypt).Success? &&
            ParsePlainText(CbcDecrypt(p, cpt, msg4Recv.Encrypt).value).Success? ==>
              var parsed := ParsePlainText(CbcDecrypt(p, cpt, msg4Recv.Encrypt).value).value;
              r == if |cpt.Appid| > 0 && parsed.appid != cpt.Appid then Failure(AppidNotEqual) else Success(parsed.msg)
  {
    Open(p, cpt, msgSignature, timestamp, nonce, msg4Recv.Encrypt)
  }

  function VerifyURL(p: Primitives, cpt: BizMsgCrypt, msgSignature: Bytes, timestamp: Bytes, nonce: Bytes, echostr: Bytes)
    : (r: Result<Bytes, CryptError>)
    ensures r == DecryptMsg(p, cpt, msgSignature, timestamp, nonce, BizMsgRecv([], echostr, []))
  {
    Open(p, cpt, msgSignature, timestamp, nonce, echostr)
  }

  /** Whatever the encrypt paths produce opens to the original message. */
  lemma OpenSealed(p: Primitives, cpt: BizMsgCrypt, random: Bytes, msg: Bytes, timestamp: Bytes, nonce: Bytes)
    requires Lawful(p)
    requires |random| == 16 && |msg| < Two32
    requires CbcEncrypt(p, cpt, Frame(random, msg, cpt.Appid)).Success?
    ensures var sealed := CbcEncrypt(p, cpt, Frame(random, msg, cpt.Appid)).value;
            Open(p, cpt, CalSignatureOf(p, cpt, timestamp, nonce, sealed), timestamp, nonce, sealed) == Success(msg)
  {
    CbcRoundTrip(p, cpt, Frame(random, msg, cpt.Appid));
    ParseFrame(random, msg, cpt.Appid);
  }
}

=== FILE: decimal.dfy ===
/**
 * Base-10 integer text: Go's `strconv.FormatInt(i, 10)`, and the integer
 * reading a Redis-style store applies to a hash field before `HIncrBy`.
 */
module Decimal {
  import opened ByteStrings
  import opened Wrappers

  const Minus: byte := 45

  predicate IsDigit(b: byte) {
    48 <= b <= 57
  }

  predicate AllDigits(s: Bytes) {
    forall i :: 0 <= i < |s| ==> IsDigit(s[i])
  }

  function DigitOf(d: nat): (b: byte)
    requires d < 10
    ensures IsDigit(b) && b as int - 48 == d
  {
    (48 + d) as byte
  }

  function FormatNat(n: nat): (r: Bytes)
    ensures |r| >= 1 && AllDigits(r)
    decreases n
  {
    if n < 10 then [DigitOf(n)] else FormatNat(n / 10) + [DigitOf(n % 10)]
  }

  /** `strconv.FormatInt(i, 10)`: an optional minus sign, then the digits. */
  function FormatInt(i: int): (r: Bytes)
    ensures |r| >= 1
    ensures i < 0 <==> r[0] == Minus
  {
    if i < 0 then [Minus] + FormatNat(-i) else FormatNat(i)
  }

  function DigitsValue(s: Bytes): nat
    requires AllDigits(s)
  {
    if s == [] then 0 else 10 * DigitsValue(s[..|s| - 1]) + (s[|s| - 1] as int - 48)
  }

  const Zero: byte := 48

  /**
   * The integer text a Redis-style store accepts: "0", or an optional minus
   * sign followed by digits with no leading zero; anything else is rejected.
   */
  function ParseInt(s: Bytes): (r: Option<int>)
    ensures r.Some? ==> |s| > 0 && (r.value < 0 <==> s[0] == Minus)
  {
    if |s| > 1 && s[0] == Minus && AllDigits(s[1..]) && s[1] != Zero then
      DigitsValuePositive(s[1..]);
      Some(0 - DigitsValue(s[1..]) as int)
    else if |s| > 0 && AllDigits(s) && (|s| == 1 || s[0] != Zero) then Some(DigitsValue(s))
    else None
  }

  lemma {:induction false} FormatNatLeading(n: nat)
    ensures n > 0 ==> FormatNat(n)[0] != Zero
    decreases n
  {
    if n >= 10 {
      FormatNatLeading(n / 10);
    }
  }

  lemma {:induction false} DigitsValuePositive(s: Bytes)
    requires |s| > 0 && AllDigits(s) && s[0] != Zero
    ensures DigitsValue(s) > 0
    decreases |s|
  {
    if |s| > 1 {
      DigitsValuePositive(s[..|s| - 1]);
    }
  }

  lemma {:induction false} DigitsOfFormat(n: nat)
    ensures DigitsValue(FormatNat(n)) == n
    decreases n
  {
    if n >= 10 {
      DigitsOfFormat(n / 10);
      var r := FormatNat(n);
      assert r[..|r| - 1] == FormatNat(n / 10);
    }
  }

  /** Reading back what `FormatInt` wrote gives the same integer. */
  lemma ParseFormat(i: int)
    ensures ParseInt(FormatInt(i)) == Some(i)
  {
    if i < 0 {
      DigitsOfFormat(-i);
      FormatNatLeading(-i);
      assert FormatInt(i)[1..] == FormatNat(-i);
    } else {
      DigitsOfFormat(i);
      FormatNatLeading(i);
    }
  }
}

=== FILE: http.dfy ===
/**
 * http.go: joining an API base and a path with exactly one "/" between
 * them, removing at most one "/" from each side.
 */
module Api {
  import opened ByteStrings

  const Slash: byte := 47

  /** `strings.TrimSuffix(s, "/")`. */
  function TrimSuffix(s: Bytes): (r: Bytes)
    ensures HasSuffix(s, [Slash]) ==> r + [Slash] == s
    ensures !HasSuffix(s, [Slash]) ==> r == s
  {
    if HasSuffix(s, [Slash]) then s[..|s| - 1] else s
  }

  /** `strings.TrimPrefix(s, "/")`. */
  function TrimPrefix(s: Bytes): (r: Bytes)
    ensures HasPrefix(s, [Slash]) ==> [Slash] + r == s
    ensures !HasPrefix(s, [Slash]) ==> r == s
  {
    if HasPrefix(s, [Slash]) then s[1..] else s
  }

  /** `Api.WithPath`: `fmt.Sprintf("%s/%s", TrimSuffix(base, "/"), TrimPrefix(path, "/"))`. */
  function WithPath(base: Bytes, path: Bytes): (r: Bytes)
    ensures exists i :: 0 <= i < |r| && r[i] == Slash && r[..i] == TrimSuffix(base) && r[i + 1..] == TrimPrefix(path)
    ensures |base| + |path| - 1 <= |r| <= |base| + |path| + 1
  {
    var r := TrimSuffix(base) + [Slash] + TrimPrefix(path);
    assert r[|TrimSuffix(base)|] == Slash;
    assert r[..|TrimSuffix(base)|] == TrimSuffix(base);
    assert r[|TrimSuffix(base)| + 1..] == TrimPrefix(path);
    r
  }

  /** A leading "/" on the path makes no difference when the path does not already start with one. */
  lemma WithPathLeadingSlash(base: Bytes, path: Bytes)
    requires !HasPrefix(path, [Slash])
    ensures WithPath(base, [Slash] + path) == WithPath(base, path)
  {
    assert HasPrefix([Slash] + path, [Slash]);
    assert ([Slash] + path)[1..] == path;
  }

  /** A base with one trailing "/" gives the same result as the base without it. */
  lemma WithPathTrailingSlash(base: Bytes, path: Bytes)
    requires !HasSuffix(base, [Slash])
    ensures WithPath(base + [Slash], path) == WithPath(base, path)
  {
    assert HasSuffix(base + [Slash], [Slash]);
    assert (base + [Slash])[..|base|] == base;
  }

  /** Only one slash is trimmed on each side, so "//x" keeps a leading slash. */
  lemma WithPathTrimsOnce(base: Bytes, path: Bytes)
    requires !HasSuffix(base, [Slash])
    ensures WithPath(base, [Slash, Slash] + path) == base + [Slash, Slash] + path
  {
    assert HasPrefix([Slash, Slash] + path, [Slash]);
    assert ([Slash, Slash] + path)[1..] == [Slash] + path;
  }

  /** The API base addresses. */
  const ApiCgiBin: Bytes := Lit("https://api.weixin.qq.com/cgi-bin")
  const ApiMpCgiBin: Bytes := Lit("https://mp.weixin.qq.com/cgi-bin")
  const ApiWorkCgiBin: Bytes := Lit("https://qyapi.weixin.qq.com/cgi-bin")
  const ApiWxa: Bytes := Lit("https://api.weixin.qq.com/wxa")
  const ApiWxaapi: Bytes := Lit("https://api.weixin.qq.com/wxaapi")
  const ApiSns: Bytes := Lit("https://api.weixin.qq.com/sns")
}

=== FILE: logging.dfy ===
/**
 * What the package logs. A log line is an event with a level; message
 * formatting is not modelled. `Logger` is the wx.go wrapper that drops
 * debug lines unless debug mode is on.
 */
module Logging {
  import opened ByteStrings
  import opened Wrappers
  import Wxcpt

  datatype Level = Debug | Info | Error

  /** The token and ticket fetches; `TokenRequestFailed` and `TicketRequestFailed` name one. */
  datatype TicketType = Js | Card

  datatype Event =
    | UnknownAppType(appType: Bytes)
    | TokenRequestFailed(work: bool, appidMain: Bytes, detail: Option<Bytes>)   // detail: the upstream errmsg; None for a transport error
    | TicketRequestFailed(accessToken: Bytes, detail: Option<Bytes>)
    | LoadFailed(appid: Bytes)
    | Refreshing(appid: Bytes)
    | Refreshed
    | Created(appid: Bytes)
    | Deleting(appid: Bytes)
    | Initialised
    | EncryptFailed(error: Wxcpt.CryptError)

  datatype LogEntry = LogEntry(level: Level, event: Event)

  class Logger {
    const debug: bool
    var entries: seq<LogEntry>

    constructor (debug: bool)
      ensures this.debug == debug && entries == []
    {
      this.debug := debug;
      entries := [];
    }

    /** `logger.Debugf`: passed on only in debug mode. */
    method Debugf(event: Event)
      modifies this
      ensures entries == old(entries) + if debug then [LogEntry(Debug, event)] else []
    {
      if debug {
        entries := entries + [LogEntry(Debug, event)];
      }
    }

    method Infof(event: Event)
      modifies this
      ensures entries == old(entries) + [LogEntry(Info, event)]
    {
      entries := entries + [LogEntry(Info, event)];
    }

    method Errorf(event: Event)
      modifies this
      ensures entries == old(entries) + [LogEntry(Error, event)]
    {
      entries := entries + [LogEntry(Error, event)];
    }
  }
}

=== FILE: meta.dfy ===
/**
 * meta.go: storage key construction. A key is the prefix followed by each
 * argument, every one preceded by ":".
 */
module Meta {
  import opened ByteStrings

  datatype Prefix = PrefixAppList | PrefixApp | PrefixRetry

  /** The prefix string: "wx:1", "wx:2", "wx:3". */
  function PrefixString(p: Prefix): (r: Bytes)
    ensures |r| == 4 && r[..3] == Lit("wx:")
  {
    match p
    case PrefixAppList => Lit("wx:1")
    case PrefixApp => Lit("wx:2")
    case PrefixRetry => Lit("wx:3")
  }

  const Colon: byte := 58

  /** The key the loop has built after the given arguments. */
  function KeyOf(p: Prefix, vals: seq<Bytes>): Bytes
  {
    if |vals| == 0 then PrefixString(p)
    else KeyOf(p, vals[..|vals| - 1]) + [Colon] + vals[|vals| - 1]
  }

  /** `Prefix.Key(val...)`. */
  method Key(p: Prefix, vals: seq<Bytes>) returns (key: Bytes)
    ensures key == KeyOf(p, vals)
  {
    key := PrefixString(p);
    for i := 0 to |vals|
      invariant key == KeyOf(p, vals[..i])
    {
      assert vals[..i + 1][..i] == vals[..i];
      key := key + [Colon] + vals[i];
    }
    assert vals[..|vals|] == vals;
  }

  /** The same key read from the front: prefix, then ":" v for each argument in order. */
  function Joined(vals: seq<Bytes>): Bytes {
    if |vals| == 0 then [] else [Colon] + vals[0] + Joined(vals[1..])
  }

  lemma {:induction false} KeyOfJoined(p: Prefix, vals: seq<Bytes>)
    ensures KeyOf(p, vals) == PrefixString(p) + Joined(vals)
    decreases |vals|
  {
    if |vals| > 0 {
      var init := vals[..|vals| - 1];
      KeyOfJoined(p, init);
      JoinedSnoc(init, vals[|vals| - 1]);
      assert init + [vals[|vals| - 1]] == vals;
    }
  }

  lemma {:induction false} JoinedSnoc(vals: seq<Bytes>, v: Bytes)
    ensures Joined(vals + [v]) == Joined(vals) + [Colon] + v
    decreases |vals|
  {
    if |vals| == 0 {
      assert Joined([v]) == [Colon] + v + Joined([]);
    } else {
      assert (vals + [v])[1..] == vals[1..] + [v];
      JoinedSnoc(vals[1..], v);
    }
  }

  /** No arguments: the key is the prefix itself. */
  lemma KeyEmpty(p: Prefix)
    ensures KeyOf(p, []) == PrefixString(p)
  {
  }

  /** Key(a, b) == Key(a) + ":" + b. */
  lemma KeyExtend(p: Prefix, a: Bytes, b: Bytes)
    ensures KeyOf(p, [a, b]) == KeyOf(p, [a]) + [Colon] + b
  {
    assert [a, b][..1] == [a];
  }

  /** Every key starts with its prefix string. */
  lemma {:induction false} KeyHasPrefix(p: Prefix, vals: seq<Bytes>)
    ensures HasPrefix(KeyOf(p, vals), PrefixString(p))
  {
    KeyOfJoined(p, vals);
  }

  /** The three prefixes are pairwise distinct, so keys under different prefixes never collide. */
  lemma PrefixesDistinct(p: Prefix, q: Prefix, vals: seq<Bytes>, wals: seq<Bytes>)
    requires p != q
    ensures PrefixString(p) != PrefixString(q)
    ensures KeyOf(p, vals) != KeyOf(q, wals)
  {
    KeyHasPrefix(p, vals);
    KeyHasPrefix(q, wals);
    assert PrefixString(p)[3] != PrefixString(q)[3];
    assert KeyOf(p, vals)[3] == PrefixString(p)[3];
    assert KeyOf(q, wals)[3] == PrefixString(q)[3];
  }

  /** One-argument keys under the same prefix are equal only for equal arguments. */
  lemma KeyInjective(p: Prefix, a: Bytes, b: Bytes)
    requires KeyOf(p, [a]) == KeyOf(p, [b])
    ensures a == b
  {
    assert KeyOf(p, [a])[5..] == a;
    assert KeyOf(p, [b])[5..] == b;
  }
}

=== FILE: mp.dfy ===
/**
 * wxmp/app.go: the official-account package accepts only service and
 * subscription accounts. Its `Context` embeds the manager's context, so the
 * manager's `Context` stands for it.
 */
module Mp {
  import opened ByteStrings
  import opened Wrappers
  import opened Apps
  import opened Store
  import opened Zwx

  /** "非公众号" ("not an official account"), as UTF-8. */
  const NotOfficialAccount: Bytes := [233, 157, 158, 229, 133, 172, 228, 188, 151, 229, 143, 183]

  /** `App`: load the app, then admit it only when it is a service or subscription account. */
  method App(wx: Wx, appid: Bytes) returns (r: Result<Context, WxError>)
    ensures var h := HGetAllOf(wx.storage.s.state, Pre(wx.storage.prefix, AppKey(appid)));
            && (h == map[] ==> r == Failure(NotFound(appid)))
            && (r.Success? <==> h != map[] && (IsWxMpServe(FromHash(h)) || IsWxMpSubscribe(FromHash(h))))
            && (r.Success? ==> r.value.wx == wx && r.value.app == FromHash(h))
            && (h != map[] && r.Failure? ==> r.error == Rejected(ErrorText(FromHash(h).appid, [], NotOfficialAccount)))
  {
    var loaded := wx.LoadApp(appid);
    if loaded.Failure? {
      return Failure(loaded.error);
    }
    var c := loaded.value;
    if !IsWxMpServe(c.app) && !IsWxMpSubscribe(c.app) {
      return Failure(Rejected(ErrorText(c.app.appid, [], NotOfficialAccount)));
    }
    return Success(c);
  }
}

=== FILE: notify.dfy ===
/**
 * wxnotify/app.go and wxnotify/reply.go: receiving pushed messages and
 * building encrypted passive replies. The codec is keyed with the app's
 * notification token and key and its main app id. XML (un)marshalling is a
 * parameter: `unmarshal` reads the message fields out of the decrypted
 * bytes and `marshal` renders a reply. The package's `Context` embeds the
 * manager's context, so the manager's `Context` stands for it.
 */
module Notify {
  import opened ByteStrings
  import opened Wrappers
  import opened Primitives
  import opened Util
  import opened Biz
  import opened Wxcpt
  import opened Apps
  import opened Store
  import opened Logging
  import opened Zwx
  import Decimal

  const MessageTypeText: Bytes := Lit("text")
  const MessageTypeNews: Bytes := Lit("news")

  /**
   * "推送消息仅支持服务号、订阅号、企业号、小程序" ("pushed messages are
   * only for service accounts, subscription accounts, WeCom and mini
   * programs"), as UTF-8.
   */
  const NotifyUnsupported: Bytes :=
    [230, 142, 168, 233, 128, 129, 230, 182, 136, 230, 129, 175, 228, 187, 133, 230, 148, 175, 230, 140, 129,
     230, 156, 141, 229, 138, 161, 229, 143, 183, 227, 128, 129, 232, 174, 162, 233, 152, 133, 229, 143, 183,
     227, 128, 129, 228, 188, 129, 228, 184, 154, 229, 143, 183, 227, 128, 129, 229, 176, 143, 231, 168, 139,
     229, 186, 143]

  /** The query of a push request. */
  datatype ReqNotify = ReqNotify(MsgSignature: Bytes, Timestamp: Bytes, Nonce: Bytes, Echostr: Bytes, EncryptType: Bytes)

  /** The fields every message and reply shares; `Nonce` and `ctx` are not part of the XML. */
  datatype CommonMessage = CommonMessage(ToUserName: Bytes, FromUserName: Bytes, CreateTime: int, MsgType: Bytes,
                                         Nonce: Bytes, ctx: Context)

  /** An incoming message, with the fields a text or event message carries. */
  datatype Message = Message(common: CommonMessage, MsgId: int, Content: Bytes, Event: Bytes, EventKey: Bytes)

  /** A reply; the image, voice, video and music parts are absent in the replies modelled here. */
  datatype MessageReply = MessageReply(common: CommonMessage, Content: Bytes, ArticleCount: int)

  datatype Article = Article(Title: Bytes, Description: Bytes, PicURL: Bytes, URL: Bytes)

  datatype MessageReplyArticles = MessageReplyArticles(reply: MessageReply, Articles: seq<Article>)

  datatype DecodeError = Crypt(error: CryptError) | Malformed

  /** `App`: load the app, then admit it only when it can receive pushed messages. */
  method App(wx: Wx, appid: Bytes) returns (r: Result<Context, WxError>)
    ensures var h := HGetAllOf(wx.storage.s.state, Pre(wx.storage.prefix, AppKey(appid)));
            var app := FromHash(h);
            && (h == map[] ==> r == Failure(NotFound(appid)))
            && (r.Success? <==> h != map[] && (IsWxMpServe(app) || IsWxMpSubscribe(app) || IsWork(app) || IsWxMiniProgram(app)))
            && (r.Success? ==> r.value.wx == wx && r.value.app == app)
            && (h != map[] && r.Failure? ==> r.error == Rejected(ErrorText(app.appid, [], NotifyUnsupported)))
  {
    var loaded := wx.LoadApp(appid);
    if loaded.Failure? {
      return Failure(loaded.error);
    }
    var c := loaded.value;
    if !IsWxMpServe(c.app) && !IsWxMpSubscribe(c.app) && !IsWork(c.app) && !IsWxMiniProgram(c.app) {
      return Failure(Rejected(ErrorText(c.app.appid, [], NotifyUnsupported)));
    }
    return Success(c);
  }

  /** The codec of an app's notifications: its notify token and key, and its main app id. */
  function NotifyCodec(app: Apps.App): (cpt: BizMsgCrypt)
    ensures cpt.Token == app.token && cpt.Appid == AppidMain(app)
    ensures HasPrefix(cpt.EncodingAesKey, app.encodingAesKey) && |cpt.EncodingAesKey| == |app.encodingAesKey| + 1
  {
    NewBizMsgCrypt(app.token, app.encodingAesKey, AppidMain(app))
  }

  /** A decoded message as the receiver stamps it: the request's nonce and the receiving context. */
  function Received(m: Message, nonce: Bytes, c: Context): Message {
    m.(common := m.common.(Nonce := nonce, ctx := c))
  }

  /**
   * `DecodeMessage`: open the envelope with the app's notification codec,
   * then read the message fields out of the plain text. A decryption error
   * is returned as it is and no message is produced.
   */
  function DecodeMessage(p: Primitives, c: Context, req: ReqNotify, recv: BizMsgRecv, unmarshal: Bytes -> Option<Message>)
    : (r: Result<Message, DecodeError>)
    reads c
    ensures var decrypted := DecryptMsg(p, NotifyCodec(c.app), req.MsgSignature, req.Timestamp, req.Nonce, recv);
            && (decrypted.Failure? ==> r == Failure(Crypt(decrypted.error)))
            && (decrypted.Success? && unmarshal(decrypted.value).None? ==> r == Failure(Malformed))
            && (r.Success? ==> decrypted.Success? && r.value.common.Nonce == req.Nonce && r.value.common.ctx == c
                               && r.value == Received(unmarshal(decrypted.value).value, req.Nonce, c))
  {
    match DecryptMsg(p, NotifyCodec(c.app), req.MsgSignature, req.Timestamp, req.Nonce, recv)
    case Failure(e) => Failure(Crypt(e))
    case Success(plain) =>
      match unmarshal(plain)
      case None => Failure(Malformed)
      case Some(m) => Success(Received(m, req.Nonce, c))
  }

  /** `ReplyText`: a text reply addressed back to the sender, in the same conversation. */
  function ReplyText(msg: Message, content: Bytes, now: int): (r: MessageReply)
    ensures r.common.FromUserName == msg.common.ToUserName && r.common.ToUserName == msg.common.FromUserName
    ensures r.common.Nonce == msg.common.Nonce && r.common.ctx == msg.common.ctx
    ensures r.common.MsgType == MessageTypeText && r.Content == content && r.common.CreateTime == now
    ensures r.ArticleCount == 0
  {
    MessageReply(CommonMessage(msg.common.FromUserName, msg.common.ToUserName, now, MessageTypeText,
                               msg.common.Nonce, msg.common.ctx),
                 content, 0)
  }

  /** `ReplyNews`: a news reply carrying the articles and their count. */
  function ReplyNews(msg: Message, articles: seq<Article>, now: int): (r: MessageReplyArticles)
    ensures r.reply.common.FromUserName == msg.common.ToUserName && r.reply.common.ToUserName == msg.common.FromUserName
    ensures r.reply.common.Nonce == msg.common.Nonce && r.reply.common.ctx == msg.common.ctx
    ensures r.reply.common.MsgType == MessageTypeNews && r.reply.common.CreateTime == now
    ensures r.Articles == articles && r.reply.ArticleCount == |articles| && r.reply.Content == []
  {
    var news := MessageReply(CommonMessage(msg.common.FromUserName, msg.common.ToUserName, now, MessageTypeNews,
                                           msg.common.Nonce, msg.common.ctx),
                             [], |articles|);
    MessageReplyArticles(news, articles)
  }

  /** Both replies to one message share the conversation header; only the type differs. */
  lemma RepliesAgree(msg: Message, content: Bytes, articles: seq<Article>, now: int)
    ensures ReplyNews(msg, articles, now).reply.common == ReplyText(msg, content, now).common.(MsgType := MessageTypeNews)
  {
  }

  /**
   * `encryptMsg`: seal `data` with the context's notification codec, the
   * timestamp in decimal and the given nonce. On failure the error is logged
   * and there is no envelope.
   */
  method EncryptMsg(p: Primitives, ctx: Context, data: Bytes, timestamp: int, nonce: Bytes, rng: nat -> Draw)
    returns (r: Option<BizMsgSendXml>)
    modifies ctx.wx.logger
    ensures var cpt := NotifyCodec(ctx.app);
            var sealed := CbcEncrypt(p, cpt, Frame(RandomPrefix(rng), data, cpt.Appid));
            && (r.None? <==> sealed.Failure?)
            && (sealed.Failure? ==> ctx.wx.logger.entries == old(ctx.wx.logger.entries) + [LogEntry(Error, EncryptFailed(sealed.error))])
            && (sealed.Success? ==> ctx.wx.logger.entries == old(ctx.wx.logger.entries))
            && (r.Some? ==> r.value.Encrypt.text == sealed.value && r.value.Nonce.text == nonce
                            && r.value.Timestamp == Decimal.FormatInt(timestamp)
                            && r.value.Msgsignature.text == CalSignatureOf(p, cpt, r.value.Timestamp, nonce, sealed.value))
            && (r.Some? && Lawful(p) && |data| < Two32 ==>
                  DecryptMsg(p, cpt, r.value.Msgsignature.text, r.value.Timestamp, nonce, BizMsgRecv([], r.value.Encrypt.text, []))
                  == Success(data))
  {
    var cpt := NewBizMsgCrypt(ctx.app.token, ctx.app.encodingAesKey, AppidMain(ctx.app));
    var send := EncryptXmlMsg(p, cpt, data, Decimal.FormatInt(timestamp), nonce, rng);
    if send.Failure? {
      ctx.wx.logger.Errorf(EncryptFailed(send.error));
      return None;
    }
    return Some(send.value);
  }

  /** `MessageReply.Encrypted`: the rendered reply sealed under its own creation time and nonce. */
  method Encrypted(p: Primitives, msg: MessageReply, marshal: MessageReply -> Bytes, rng: nat -> Draw)
    returns (r: Option<BizMsgSendXml>)
    modifies msg.common.ctx.wx.logger
    ensures var ctx := msg.common.ctx;
            var cpt := NotifyCodec(ctx.app);
            var sealed := CbcEncrypt(p, cpt, Frame(RandomPrefix(rng), marshal(msg), cpt.Appid));
            && (r.None? <==> sealed.Failure?)
            && (sealed.Failure? ==> ctx.wx.logger.entries == old(ctx.wx.logger.entries) + [LogEntry(Error, EncryptFailed(sealed.error))])
            && (sealed.Success? ==> ctx.wx.logger.entries == old(ctx.wx.logger.entries))
            && (r.Some? ==> r.value.Timestamp == Decimal.FormatInt(msg.common.CreateTime) && r.value.Nonce.text == msg.common.Nonce
                            && r.value.Encrypt.text == sealed.value
                            && r.value.Msgsignature.text == CalSignatureOf(p, cpt, r.value.Timestamp, msg.common.Nonce, sealed.value))
            && (r.Some? && Lawful(p) && |marshal(msg)| < Two32 ==>
                  DecryptMsg(p, cpt, r.value.Msgsignature.text, r.value.Timestamp, r.value.Nonce.text,
                             BizMsgRecv([], r.value.Encrypt.text, []))
                  == Success(marshal(msg)))
  {
    r := EncryptMsg(p, msg.common.ctx, marshal(msg), msg.common.CreateTime, msg.common.Nonce, rng);
  }

  /** `MessageReplyArticles.Encrypted`: the same sealing for a news reply. */
  method EncryptedArticles(p: Primitives, msg: MessageReplyArticles, marshal: MessageReplyArticles -> Bytes, rng: nat -> Draw)
    returns (r: Option<BizMsgSendXml>)
    modifies msg.reply.common.ctx.wx.logger
    ensures var ctx := msg.reply.common.ctx;
            var cpt := NotifyCodec(ctx.app);
            var sealed := CbcEncrypt(p, cpt, Frame(RandomPrefix(rng), marshal(msg), cpt.Appid));
            && (r.None? <==> sealed.Failure?)
            && (sealed.Failure? ==> ctx.wx.logger.entries == old(ctx.wx.logger.entries) + [LogEntry(Error, EncryptFailed(sealed.error))])
            && (sealed.Success? ==> ctx.wx.logger.entries == old(ctx.wx.logger.entries))
            && (r.Some? ==> r.value.Timestamp == Decimal.FormatInt(msg.reply.common.CreateTime) && r.value.Nonce.text == msg.reply.common.Nonce
                            && r.value.Encrypt.text == sealed.value
                            && r.value.Msgsignature.text == CalSignatureOf(p, cpt, r.value.Timestamp, msg.reply.common.Nonce, sealed.value))
            && (r.Some? && Lawful(p) && |marshal(msg)| < Two32 ==>
                  DecryptMsg(p, cpt, r.value.Msgsignature.text, r.value.Timestamp, r.value.Nonce.text,
                             BizMsgRecv([], r.value.Encrypt.text, []))
                  == Success(marshal(msg)))
  {
    r := EncryptMsg(p, msg.reply.common.ctx, marshal(msg), msg.reply.common.CreateTime, msg.reply.common.Nonce, rng);
  }

  /**
   * A sealed reply, presented as a push request to an app with the same
   * codec, decodes to what its plain text reads as, stamped by the receiver.
   */
  lemma SealedDecodes(p: Primitives, c: Context, random: Bytes, data: Bytes, timestamp: Bytes, nonce: Bytes,
                      unmarshal: Bytes -> Option<Message>)
    requires Lawful(p)
    requires |random| == 16 && |data| < Two32
    requires CbcEncrypt(p, NotifyCodec(c.app), Frame(random, data, AppidMain(c.app))).Success?
    ensures var cpt := NotifyCodec(c.app);
            var sealed := CbcEncrypt(p, cpt, Frame(random, data, cpt.Appid)).value;
            var req := ReqNotify(CalSignatureOf(p, cpt, timestamp, nonce, sealed), timestamp, nonce, [], []);
            DecodeMessage(p, c, req, BizMsgRecv([], sealed, []), unmarshal)
            == if unmarshal(data).None? then Failure(Malformed) else Success(Received(unmarshal(data).value, nonce, c))
  {
    OpenSealed(p, NotifyCodec(c.app), random, data, timestamp, nonce);
  }
}

=== FILE: options.dfy ===
/**
 * wx_options.go: `Options.Validate` fills in a logger, chooses the store
 * and defaults the refresh interval. Durations are whole seconds.
 */
module Options {
  import opened ByteStrings

  /** The logger an `Options` holds: none, the package default, or one supplied by the caller. */
  datatype LoggerRef = NoLogger | DefaultLogger | CustomLogger(id: nat)

  /** A Valkey or Redis client the caller may supply. */
  datatype ClientRef = NoClient | Client(id: nat)

  /** The store an `Options` holds: none, an adapter over a client, or the caller's own `Storage`. */
  datatype StorageRef = NoStorage | ValkeyStorage(valkey: nat) | RedisStorage(redis: nat) | CustomStorage(id: nat)

  /** 55 minutes. */
  const DefaultAccessTokenRefresh := 55 * 60

  function ResolvedLogger(logger: LoggerRef): (r: LoggerRef)
    ensures r != NoLogger
    ensures logger != NoLogger ==> r == logger
  {
    if logger == NoLogger then DefaultLogger else logger
  }

  /** A Valkey client wins over a Redis client, which wins over a caller's store. */
  function ResolvedStorage(valkey: ClientRef, redis: ClientRef, storage: StorageRef): (r: StorageRef)
    ensures valkey.Client? ==> r == ValkeyStorage(valkey.id)
    ensures valkey.NoClient? && redis.Client? ==> r == RedisStorage(redis.id)
    ensures valkey.NoClient? && redis.NoClient? ==> r == storage
  {
    if valkey.Client? then ValkeyStorage(valkey.id)
    else if redis.Client? then RedisStorage(redis.id)
    else storage
  }

  function ResolvedRefresh(refresh: int): (r: int)
    ensures refresh == 0 ==> r == DefaultAccessTokenRefresh
    ensures refresh != 0 ==> r == refresh
    ensures r != 0
  {
    if refresh == 0 then DefaultAccessTokenRefresh else refresh
  }

  /** Defaulting twice is defaulting once. */
  lemma ResolvedIdempotent(logger: LoggerRef, valkey: ClientRef, redis: ClientRef, storage: StorageRef, refresh: int)
    ensures ResolvedLogger(ResolvedLogger(logger)) == ResolvedLogger(logger)
    ensures ResolvedStorage(valkey, redis, ResolvedStorage(valkey, redis, storage)) == ResolvedStorage(valkey, redis, storage)
    ensures ResolvedRefresh(ResolvedRefresh(refresh)) == ResolvedRefresh(refresh)
  {
  }

  class Options {
    var debug: bool
    var logger: LoggerRef
    var storage: StorageRef
    var valkeyClient: ClientRef
    var redisClient: ClientRef
    var storagePrefix: Bytes
    var accessTokenRefresh: int
    var alwaysCleanBeforeStart: bool

    constructor (debug: bool, logger: LoggerRef, storage: StorageRef, valkeyClient: ClientRef, redisClient: ClientRef,
                 storagePrefix: Bytes, accessTokenRefresh: int, alwaysCleanBeforeStart: bool)
      ensures this.debug == debug && this.logger == logger && this.storage == storage
      ensures this.valkeyClient == valkeyClient && this.redisClient == redisClient
      ensures this.storagePrefix == storagePrefix && this.accessTokenRefresh == accessTokenRefresh
      ensures this.alwaysCleanBeforeStart == alwaysCleanBeforeStart
    {
      this.debug := debug;
      this.logger := logger;
      this.storage := storage;
      this.valkeyClient := valkeyClient;
      this.redisClient := redisClient;
      this.storagePrefix := storagePrefix;
      this.accessTokenRefresh := accessTokenRefresh;
      this.alwaysCleanBeforeStart := alwaysCleanBeforeStart;
    }

    /**
     * `Validate`. `fatal` says that `Fatalf` was called because no store is
     * configured; with the default logger that ends the process.
     */
    method Validate() returns (fatal: bool)
      modifies this
      ensures logger == ResolvedLogger(old(logger))
      ensures storage == ResolvedStorage(old(valkeyClient), old(redisClient), old(storage))
      ensures fatal <==> storage == NoStorage
      ensures accessTokenRefresh == ResolvedRefresh(old(accessTokenRefresh))
      ensures debug == old(debug) && valkeyClient == old(valkeyClient) && redisClient == old(redisClient)
      ensures storagePrefix == old(storagePrefix) && alwaysCleanBeforeStart == old(alwaysCleanBeforeStart)
    {
      fatal := false;
      if logger == NoLogger {
        logger := DefaultLogger;
      }
      if valkeyClient.Client? {
        storage := ValkeyStorage(valkeyClient.id);
      } else if redisClient.Client? {
        storage := RedisStorage(redisClient.id);
      } else if storage == NoStorage {
        fatal := true;
      }
      if accessTokenRefresh == 0 {
        accessTokenRefresh := DefaultAccessTokenRefresh;
      }
    }
  }
}

=== FILE: primitives.dfy ===
/**
 * The library primitives the codec and the signature helpers call: SHA-1,
 * standard base64 and AES in CBC mode. They are not implemented here; a
 * `Primitives` value supplies them as functions, and `Lawful` states the
 * only facts the model relies on (digest length, decode after encode,
 * decrypt after encrypt, length preservation). Lower-case hex (`%x`) is
 * concrete.
 */
module Primitives {
  import opened ByteStrings
  import opened Wrappers

  /** AES block size in bytes; it is also the IV length. */
  const AesBlockSize := 16

  datatype Primitives = Primitives(
    sha1: Bytes -> Bytes,
    base64Encode: Bytes -> Bytes,
    base64Decode: Bytes -> Option<Bytes>,
    // key, iv, plaintext
    cbcEncrypt: (Bytes, Bytes, Bytes) -> Bytes,
    // key, iv, ciphertext
    cbcDecrypt: (Bytes, Bytes, Bytes) -> Bytes
  )

  ghost predicate Lawful(p: Primitives) {
    && (forall d :: |p.sha1(d)| == 20)
    && (forall b :: p.base64Decode(p.base64Encode(b)) == Some(b))
    && (forall k, iv, m :: |m| % AesBlockSize == 0 ==> |p.cbcEncrypt(k, iv, m)| == |m|)
    && (forall k, iv, m :: |m| % AesBlockSize == 0 ==> p.cbcDecrypt(k, iv, p.cbcEncrypt(k, iv, m)) == m)
  }

  /** `aes.NewCipher` accepts exactly AES-128, AES-192 and AES-256 keys. */
  predicate ValidAesKey(key: Bytes) {
    |key| == 16 || |key| == 24 || |key| == 32
  }

  predicate IsLowerHex(b: byte) {
    48 <= b <= 57 || 97 <= b <= 102
  }

  function HexDigit(d: nat): (b: byte)
    requires d < 16
    ensures IsLowerHex(b)
  {
    if d < 10 then (48 + d) as byte else (87 + d) as byte
  }

  /** `fmt.Sprintf("%x", d)`: two lower-case hex digits per byte, high nibble first. */
  function Hex(d: Bytes): (r: Bytes)
    ensures |r| == 2 * |d|
    ensures forall i :: 0 <= i < |r| ==> IsLowerHex(r[i])
    ensures forall i :: 0 <= i < |d| ==> r[2 * i] == HexDigit(d[i] as int / 16) && r[2 * i + 1] == HexDigit(d[i] as int % 16)
  {
    if d == [] then []
    else Hex(d[..|d| - 1]) + [HexDigit(d[|d| - 1] as int / 16), HexDigit(d[|d| - 1] as int % 16)]
  }

  /** Distinct nibbles have distinct digits. */
  lemma HexDigitInjective(x: nat, y: nat)
    requires x < 16 && y < 16 && HexDigit(x) == HexDigit(y)
    ensures x == y
  {
  }

  /** Different digests give different hex text. */
  lemma HexInjective(a: Bytes, b: Bytes)
    requires Hex(a) == Hex(b)
    ensures a == b
  {
    assert |a| == |b|;
    forall i | 0 <= i < |a|
      ensures a[i] == b[i]
    {
      HexDigitInjective(a[i] as int / 16, b[i] as int / 16);
      HexDigitInjective(a[i] as int % 16, b[i] as int % 16);
    }
  }
}

=== FILE: program.dfy ===
/**
 * wxprogram/app.go: the mini-program package accepts only mini programs.
 * Its `Context` embeds the manager's context, so the manager's `Context`
 * stands for it.
 */
module Program {
  import opened ByteStrings
  import opened Wrappers
  import opened Apps
  import opened Store
  import opened Zwx

  const NotMiniProgram: Bytes := Lit("this appid is not a miniprogam")

  /** `App`: load the app, then admit it only when it is a mini program. */
  method App(wx: Wx, appid: Bytes) returns (r: Result<Context, WxError>)
    ensures var h := HGetAllOf(wx.storage.s.state, Pre(wx.storage.prefix, AppKey(appid)));
            && (h == map[] ==> r == Failure(NotFound(appid)))
            && (r.Success? <==> h != map[] && IsWxMiniProgram(FromHash(h)))
            && (r.Success? ==> r.value.wx == wx && r.value.app == FromHash(h))
            && (h != map[] && r.Failure? ==> r.error == Rejected(ErrorText(FromHash(h).appid, [], NotMiniProgram)))
  {
    var loaded := wx.LoadApp(appid);
    if loaded.Failure? {
      return Failure(loaded.error);
    }
    var c := loaded.value;
    if !IsWxMiniProgram(c.app) {
      return Failure(Rejected(ErrorText(c.app.appid, [], NotMiniProgram)));
    }
    return Success(c);
  }
}

=== FILE: sorting.dfy ===
/**
 * Sorting byte strings the way Go's `sort.Strings` does. The pure `Sort`
 * is the reference; `SortStrings` sorts an array in place. Because the
 * order is total, a sorted permutation is unique (`SortedUnique`), so any
 * sorting algorithm, Go's included, yields `Sort` of its input.
 */
module Sorting {
  import opened ByteStrings

  predicate Sorted(s: seq<Bytes>) {
    forall i :: 0 <= i < |s| - 1 ==> LessEq(s[i], s[i + 1])
  }

  function Insert(x: Bytes, s: seq<Bytes>): seq<Bytes> {
    if s == [] then [x]
    else if LessEq(x, s[0]) then [x] + s
    else [s[0]] + Insert(x, s[1..])
  }

  function Sort(s: seq<Bytes>): seq<Bytes> {
    if s == [] then [] else Insert(s[0], Sort(s[1..]))
  }

  lemma {:induction false} InsertSorted(x: Bytes, s: seq<Bytes>)
    requires Sorted(s)
    ensures Sorted(Insert(x, s))
    ensures multiset(Insert(x, s)) == multiset(s) + multiset{x}
    ensures Insert(x, s)[0] == x || (s != [] && Insert(x, s)[0] == s[0])
  {
    if s != [] && !LessEq(x, s[0]) {
      InsertSorted(x, s[1..]);
      var t := Insert(x, s[1..]);
      LessAsymmetric(s[0], x);
      assert LessEq(s[0], t[0]);
      assert s == [s[0]] + s[1..];
    }
  }

  /** `Sort` returns a sorted permutation of its input. */
  lemma {:induction false} SortCorrect(s: seq<Bytes>)
    ensures Sorted(Sort(s))
    ensures multiset(Sort(s)) == multiset(s)
  {
    if s != [] {
      SortCorrect(s[1..]);
      InsertSorted(s[0], Sort(s[1..]));
      assert s == [s[0]] + s[1..];
    }
  }

  lemma {:induction false} SortedHeadIsLeast(s: seq<Bytes>, j: int)
    requires Sorted(s) && 0 <= j < |s|
    ensures LessEq(s[0], s[j])
  {
    if j == 0 {
      LessIrreflexive(s[0]);
    } else {
      SortedHeadIsLeast(s, j - 1);
      LessEqTransitive(s[0], s[j - 1], s[j]);
    }
  }

  /** Two sorted sequences holding the same strings are equal. */
  lemma {:induction false} SortedUnique(s: seq<Bytes>, t: seq<Bytes>)
    requires Sorted(s) && Sorted(t)
    requires multiset(s) == multiset(t)
    ensures s == t
  {
    if s == [] {
      assert |multiset(t)| == 0;
    } else {
      assert t != [] by {
        assert s[0] in multiset(t);
      }
      SameHead(s, t);
      Tail(s);
      Tail(t);
      SortedUnique(s[1..], t[1..]);
    }
  }

  /** Sorted sequences with the same strings start with the same string. */
  lemma SameHead(s: seq<Bytes>, t: seq<Bytes>)
    requires Sorted(s) && Sorted(t) && s != [] && t != []
    requires multiset(s) == multiset(t)
    ensures s[0] == t[0]
  {
    assert s[0] in multiset(t) && t[0] in multiset(s);
    var i :| 0 <= i < |t| && t[i] == s[0];
    var j :| 0 <= j < |s| && s[j] == t[0];
    SortedHeadIsLeast(t, i);
    SortedHeadIsLeast(s, j);
    LessTrichotomy(s[0], t[0]);
  }

  /** The tail of a non-empty sorted sequence: sorted, and its head taken out. */
  lemma Tail(s: seq<Bytes>)
    requires Sorted(s) && s != []
    ensures Sorted(s[1..])
    ensures multiset(s[1..]) == multiset(s) - multiset{s[0]}
    ensures s == [s[0]] + s[1..]
  {
    assert s == [s[0]] + s[1..];
    assert multiset(s) == multiset{s[0]} + multiset(s[1..]);
  }

  /** Sorting forgets the order of its input. */
  lemma SortPermutationInvariant(s: seq<Bytes>, t: seq<Bytes>)
    requires multiset(s) == multiset(t)
    ensures Sort(s) == Sort(t)
  {
    SortCorrect(s);
    SortCorrect(t);
    SortedUnique(Sort(s), Sort(t));
  }

  /** Exchanges a[j - 1] and a[j]. */
  method SwapDown(a: array<Bytes>, j: int)
    requires 0 < j < a.Length
    modifies a
    ensures a[..] == old(a[..])[j - 1 := old(a[j])][j := old(a[j - 1])]
    ensures multiset(a[..]) == multiset(old(a[..]))
  {
    a[j - 1], a[j] := a[j], a[j - 1];
  }

  /** Moves a[i] down into the sorted prefix a[..i]. */
  method InsertAt(a: array<Bytes>, i: int)
    requires 0 < i < a.Length
    requires forall k :: 0 <= k < i - 1 ==> LessEq(a[k], a[k + 1])
    modifies a
    ensures forall k :: 0 <= k < i ==> LessEq(a[k], a[k + 1])
    ensures multiset(a[..]) == multiset(old(a[..]))
  {
    var j := i;
    while j > 0 && Less(a[j], a[j - 1])
      invariant 0 <= j <= i
      invariant forall k :: 0 <= k < j - 1 ==> LessEq(a[k], a[k + 1])
      invariant forall k :: j < k < i ==> LessEq(a[k], a[k + 1])
      invariant j < i ==> Less(a[j], a[j + 1])
      invariant 0 < j < i ==> LessEq(a[j - 1], a[j + 1])
      invariant multiset(a[..]) == multiset(old(a[..]))
    {
      LessAsymmetric(a[j], a[j - 1]);
      SwapDown(a, j);
      j := j - 1;
    }
    if j < i {
      LessAsymmetric(a[j], a[j + 1]);
    }
  }

  /** In-place insertion sort; Go's `sort.Strings` reaches the same array. */
  method SortStrings(a: array<Bytes>)
    modifies a
    ensures Sorted(a[..])
    ensures multiset(a[..]) == multiset(old(a[..]))
    ensures a[..] == Sort(old(a[..]))
  {
    var i := 1;
    while i < a.Length
      invariant 1 <= i && (i <= a.Length || i == 1)
      invariant forall k :: 0 <= k < i - 1 ==> LessEq(a[k], a[k + 1])
      invariant multiset(a[..]) == multiset(old(a[..]))
    {
      InsertAt(a, i);
      i := i + 1;
    }
    SortCorrect(old(a[..]));
    SortedUnique(a[..], Sort(old(a[..])));
  }
}

=== FILE: store.dfy ===
/**
 * The key-value store behind the `Storage` interface (wx_options.go) and
 * the prefixing wrapper around it (wx.go). The store is Redis-like: string
 * keys with an expiry, sets and hashes, one key space. Its state is a value
 * so that what each operation does can be stated as a function of the old
 * state; the `Backend` object holds that value and is updated in place.
 */
module Store {
  import opened ByteStrings
  import opened Wrappers
  import Decimal
  import Meta

  datatype Entry = Entry(value: Bytes, expiresAt: int)

  datatype StoreState = StoreState(
    strs: map<Bytes, Entry>,
    sets: map<Bytes, set<Bytes>>,
    hashes: map<Bytes, map<Bytes, Bytes>>)

  const Empty := StoreState(map[], map[], map[])

  /** A string key is live until its expiry instant. */
  predicate Live(st: StoreState, key: Bytes, now: int) {
    key in st.strs && now < st.strs[key].expiresAt
  }

  function GetOf(st: StoreState, key: Bytes, now: int): (v: Bytes)
    ensures !Live(st, key, now) ==> v == []
    ensures Live(st, key, now) ==> v == st.strs[key].value
  {
    if Live(st, key, now) then st.strs[key].value else []
  }

  function SetEXOf(st: StoreState, key: Bytes, val: Bytes, ttl: int, now: int): (r: StoreState)
    ensures r.sets == st.sets && r.hashes == st.hashes
    ensures ttl > 0 ==> Live(r, key, now) && GetOf(r, key, now) == val
    ensures forall t :: Live(r, key, t) <==> t < now + ttl
    ensures forall t :: t < now + ttl ==> GetOf(r, key, t) == val
    ensures r.strs.Keys == st.strs.Keys + {key}
    ensures forall k, t :: k != key ==> GetOf(r, k, t) == GetOf(st, k, t) && (Live(r, k, t) <==> Live(st, k, t))
  {
    st.(strs := st.strs[key := Entry(val, now + ttl)])
  }

  function Members(st: StoreState, key: Bytes): set<Bytes> {
    if key in st.sets then st.sets[key] else {}
  }

  /** Adding no members is an error in the store and changes nothing. */
  function SAddOf(st: StoreState, key: Bytes, vals: seq<Bytes>): (r: StoreState)
    ensures r.strs == st.strs && r.hashes == st.hashes
    ensures |vals| > 0 ==> Members(r, key) == Members(st, key) + set v | v in vals
    ensures forall k :: k != key ==> Members(r, k) == Members(st, k)
  {
    if |vals| == 0 then st
    else st.(sets := st.sets[key := Members(st, key) + set v | v in vals])
  }

  /** A set left without members no longer exists. */
  function SRemOf(st: StoreState, key: Bytes, vals: seq<Bytes>): (r: StoreState)
    ensures r.strs == st.strs && r.hashes == st.hashes
    ensures |vals| > 0 ==> Members(r, key) == Members(st, key) - set v | v in vals
    ensures forall k :: k != key ==> Members(r, k) == Members(st, k)
  {
    if |vals| == 0 then st
    else
      var rest := Members(st, key) - set v | v in vals;
      if rest == {} then st.(sets := st.sets - {key}) else st.(sets := st.sets[key := rest])
  }

  /** `Del` removes the key whatever kind of value it holds. */
  function DelOf(st: StoreState, key: Bytes): (r: StoreState)
    ensures key !in r.strs && key !in r.sets && key !in r.hashes
    ensures forall k :: k != key ==> (k in r.strs <==> k in st.strs) && (k in r.sets <==> k in st.sets) && (k in r.hashes <==> k in st.hashes)
    ensures forall k :: k != key ==> Members(r, k) == Members(st, k) && HGetAllOf(r, k) == HGetAllOf(st, k)
    ensures forall k, t :: k != key ==> GetOf(r, k, t) == GetOf(st, k, t)
  {
    StoreState(st.strs - {key}, st.sets - {key}, st.hashes - {key})
  }

  function HGetAllOf(st: StoreState, key: Bytes): map<Bytes, Bytes> {
    if key in st.hashes then st.hashes[key] else map[]
  }

  /** `HSet` overwrites the given fields and keeps the others; an empty field map is an error and changes nothing. */
  function HSetOf(st: StoreState, key: Bytes, fields: map<Bytes, Bytes>): (r: StoreState)
    ensures r.strs == st.strs && r.sets == st.sets
    ensures |fields| > 0 ==> HGetAllOf(r, key) == HGetAllOf(st, key) + fields
    ensures forall k :: k != key ==> HGetAllOf(r, k) == HGetAllOf(st, k)
  {
    if |fields| == 0 then st
    else
      var merged := HGetAllOf(st, key) + fields;
      var r := st.(hashes := st.hashes[key := merged]);
      assert HGetAllOf(r, key) == merged;
      r
  }

  /**
   * `HIncrBy`: a missing field counts as 0; a field that is not integer
   * text is an error and changes nothing.
   */
  function HIncrByOf(st: StoreState, key: Bytes, field: Bytes, incr: int): (r: StoreState)
    ensures r.strs == st.strs && r.sets == st.sets
    ensures forall f :: f in HGetAllOf(st, key) ==> f in HGetAllOf(r, key)
    ensures forall k :: k != key ==> HGetAllOf(r, k) == HGetAllOf(st, k)
  {
    var h := HGetAllOf(st, key);
    var current := if field in h then Decimal.ParseInt(h[field]) else Some(0);
    match current
    case None => st
    case Some(v) => st.(hashes := st.hashes[key := h[field := Decimal.FormatInt(v + incr)]])
  }

  /** An integer field steps by the increment and every other field is kept. */
  lemma HIncrBySteps(st: StoreState, key: Bytes, field: Bytes, n: int, incr: int)
    requires field in HGetAllOf(st, key) && HGetAllOf(st, key)[field] == Decimal.FormatInt(n)
    ensures HGetAllOf(HIncrByOf(st, key, field, incr), key) == HGetAllOf(st, key)[field := Decimal.FormatInt(n + incr)]
  {
    Decimal.ParseFormat(n);
  }

  /** A missing field starts from 0, so it becomes the increment. */
  lemma HIncrByMissing(st: StoreState, key: Bytes, field: Bytes, incr: int)
    requires field !in HGetAllOf(st, key)
    ensures HGetAllOf(HIncrByOf(st, key, field, incr), key) == HGetAllOf(st, key)[field := Decimal.FormatInt(incr)]
  {
  }

  /** Text that is not an integer is left alone. */
  lemma HIncrByRejects(st: StoreState, key: Bytes, field: Bytes, incr: int)
    requires field in HGetAllOf(st, key) && Decimal.ParseInt(HGetAllOf(st, key)[field]).None?
    ensures HIncrByOf(st, key, field, incr) == st
  {
  }

  /**
   * The `SetNX` gate: once it has succeeded at `t` with a positive TTL, it
   * fails for the same key at every `t'` in [t, t + ttl) until the key is
   * written again, and succeeds again from t + ttl.
   */
  lemma SetNXGate(st: StoreState, key: Bytes, val: Bytes, ttl: int, t: int, t': int)
    requires ttl > 0 && t <= t'
    ensures Live(SetEXOf(st, key, val, ttl, t), key, t') <==> t' < t + ttl
  {
  }

  /** After `Del` the key reads as absent whatever it held. */
  lemma DelClears(st: StoreState, key: Bytes, now: int)
    ensures HGetAllOf(DelOf(st, key), key) == map[] && Members(DelOf(st, key), key) == {}
    ensures !Live(DelOf(st, key), key, now)
  {
  }

  /** Removing a member just added leaves the set as it was, minus that member. */
  lemma SRemAfterSAdd(st: StoreState, key: Bytes, v: Bytes)
    ensures Members(SRemOf(SAddOf(st, key, [v]), key, [v]), key) == Members(st, key) - {v}
  {
  }

  /** The store object: one mutable `StoreState`. */
  class Backend {
    var state: StoreState

    constructor (initial: StoreState)
      ensures state == initial
    {
      state := initial;
    }

    method Get(key: Bytes, now: int) returns (v: Bytes)
      ensures v == GetOf(state, key, now)
    {
      v := GetOf(state, key, now);
    }

    method Del(key: Bytes)
      modifies this
      ensures state == DelOf(old(state), key)
    {
      state := DelOf(state, key);
    }

    method SetEX(key: Bytes, val: Bytes, ttl: int, now: int)
      requires ttl > 0
      modifies this
      ensures state == SetEXOf(old(state), key, val, ttl, now)
    {
      state := SetEXOf(state, key, val, ttl, now);
    }

    /** Sets the key only when it is not live, and says whether it did. */
    method SetNX(key: Bytes, val: Bytes, ttl: int, now: int) returns (ok: bool)
      requires ttl > 0
      modifies this
      ensures ok <==> !Live(old(state), key, now)
      ensures state == if ok then SetEXOf(old(state), key, val, ttl, now) else old(state)
    {
      ok := !Live(state, key, now);
      if ok {
        state := SetEXOf(state, key, val, ttl, now);
      }
    }

    method SAdd(key: Bytes, vals: seq<Bytes>)
      modifies this
      ensures state == SAddOf(old(state), key, vals)
    {
      state := SAddOf(state, key, vals);
    }

    method SRem(key: Bytes, vals: seq<Bytes>)
      modifies this
      ensures state == SRemOf(old(state), key, vals)
    {
      state := SRemOf(state, key, vals);
    }

    /** The members in some order, each exactly once. */
    method SMembers(key: Bytes) returns (ms: seq<Bytes>)
      ensures forall v :: v in ms <==> v in Members(state, key)
      ensures forall i, j :: 0 <= i < j < |ms| ==> ms[i] != ms[j]
    {
      var rest := Members(state, key);
      ms := [];
      while rest != {}
        invariant forall v :: v in Members(state, key) <==> v in rest || v in ms
        invariant forall v :: v in ms ==> v !in rest
        invariant forall i, j :: 0 <= i < j < |ms| ==> ms[i] != ms[j]
        decreases |rest|
      {
        var x :| x in rest;
        ms := ms + [x];
        rest := rest - {x};
      }
    }

    method HSet(key: Bytes, fields: map<Bytes, Bytes>)
      modifies this
      ensures state == HSetOf(old(state), key, fields)
    {
      state := HSetOf(state, key, fields);
    }

    method HGetAll(key: Bytes) returns (h: map<Bytes, Bytes>)
      ensures h == HGetAllOf(state, key)
    {
      h := HGetAllOf(state, key);
    }

    method HIncrBy(key: Bytes, field: Bytes, incr: int)
      modifies this
      ensures state == HIncrByOf(old(state), key, field, incr)
    {
      state := HIncrByOf(state, key, field, incr);
    }
  }

  /** `storage.pre`: the key itself when there is no prefix, otherwise prefix ":" key. */
  function Pre(prefix: Bytes, key: Bytes): (r: Bytes)
    ensures prefix == [] ==> r == key
    ensures prefix != [] ==> |r| == |prefix| + 1 + |key| && r[..|prefix|] == prefix && r[|prefix|] == Meta.Colon
    ensures prefix != [] ==> r[|prefix| + 1..] == key
  {
    if prefix == [] then key else prefix + [Meta.Colon] + key
  }

  /** Under one prefix, distinct keys stay distinct. */
  lemma PreInjective(prefix: Bytes, a: Bytes, b: Bytes)
    requires Pre(prefix, a) == Pre(prefix, b)
    ensures a == b
  {
    if prefix != [] {
      assert a == Pre(prefix, a)[|prefix| + 1..];
    }
  }

  /**
   * The `storage` wrapper: every operation applies `Pre` to its key and
   * hands the call to the store.
   */
  class Storage {
    const prefix: Bytes
    const s: Backend

    constructor (prefix: Bytes, s: Backend)
      ensures this.prefix == prefix && this.s == s
    {
      this.prefix := prefix;
      this.s := s;
    }

    method Get(key: Bytes, now: int) returns (v: Bytes)
      ensures v == GetOf(s.state, Pre(prefix, key), now)
    {
      v := s.Get(Pre(prefix, key), now);
    }

    method Del(key: Bytes)
      modifies s
      ensures s.state == DelOf(old(s.state), Pre(prefix, key))
    {
      s.Del(Pre(prefix, key));
    }

    method SetEX(key: Bytes, val: Bytes, ttl: int, now: int)
      requires ttl > 0
      modifies s
      ensures s.state == SetEXOf(old(s.state), Pre(prefix, key), val, ttl, now)
    {
      s.SetEX(Pre(prefix, key), val, ttl, now);
    }

    method SetNX(key: Bytes, val: Bytes, ttl: int, now: int) returns (ok: bool)
      requires ttl > 0
      modifies s
      ensures ok <==> !Live(old(s.state), Pre(prefix, key), now)
      ensures s.state == if ok then SetEXOf(old(s.state), Pre(prefix, key), val, ttl, now) else old(s.state)
    {
      ok := s.SetNX(Pre(prefix, key), val, ttl, now);
    }

    method SAdd(key: Bytes, vals: seq<Bytes>)
      modifies s
      ensures s.state == SAddOf(old(s.state), Pre(prefix, key), vals)
    {
      s.SAdd(Pre(prefix, key), vals);
    }

    method SRem(key: Bytes, vals: seq<Bytes>)
      modifies s
      ensures s.state == SRemOf(old(s.state), Pre(prefix, key), vals)
    {
      s.SRem(Pre(prefix, key), vals);
    }

    method SMembers(key: Bytes) returns (ms: seq<Bytes>)
      ensures forall v :: v in ms <==> v in Members(s.state, Pre(prefix, key))
      ensures forall i, j :: 0 <= i < j < |ms| ==> ms[i] != ms[j]
    {
      ms := s.SMembers(Pre(prefix, key));
    }

    method HSet(key: Bytes, fields: map<Bytes, Bytes>)
      modifies s
      ensures s.state == HSetOf(old(s.state), Pre(prefix, key), fields)
    {
      s.HSet(Pre(prefix, key), fields);
    }

    method HGetAll(key: Bytes) returns (h: map<Bytes, Bytes>)
      ensures h == HGetAllOf(s.state, Pre(prefix, key))
    {
      h := s.HGetAll(Pre(prefix, key));
    }

    method HIncrBy(key: Bytes, field: Bytes, incr: int)
      modifies s
      ensures s.state == HIncrByOf(old(s.state), Pre(prefix, key), field, incr)
    {
      s.HIncrBy(Pre(prefix, key), field, incr);
    }
  }
}

=== FILE: util.dfy ===
/**
 * utils/util.go: random strings, the sorted SHA-1 signature and FirstTruth.
 * The pseudo-random source is a parameter: `rng(i)` is the i-th value
 * `Intn(62)` returns.
 */
module Util {
  import opened ByteStrings
  import opened Primitives
  import opened Sorting

  /** The i-th character of "0123456789abcdefghijklmnopqrstuvwxyzABCDEFGHIJKLMNOPQRSTUVWXYZ". */
  function AlphabetAt(i: nat): byte
    requires i < 62
  {
    if i < 10 then (48 + i) as byte
    else if i < 36 then (97 + i - 10) as byte
    else (65 + i - 36) as byte
  }

  const Alphabet: Bytes := seq(62, i requires 0 <= i < 62 => AlphabetAt(i))

  predicate IsAlphanumeric(b: byte) {
    48 <= b <= 57 || 97 <= b <= 122 || 65 <= b <= 90
  }

  /** A value `Intn(len(Alphabet))` can return. */
  type Draw = x: int | 0 <= x < 62

  method RandomStr(length: int, rng: nat -> Draw) returns (r: Bytes)
    ensures |r| == if length < 0 then 0 else length
    ensures forall i :: 0 <= i < |r| ==> IsAlphanumeric(r[i])
    ensures forall i :: 0 <= i < |r| ==> r[i] == Alphabet[rng(i)]
  {
    r := [];
    var i := 0;
    while i < length
      invariant 0 <= i && |r| == i
      invariant length >= 0 ==> i <= length
      invariant length < 0 ==> i == 0
      invariant forall j :: 0 <= j < i ==> r[j] == Alphabet[rng(j)]
    {
      r := r + [Alphabet[rng(i)]];
      i := i + 1;
    }
  }

  /** The signature of a multiset of strings: lower-case hex SHA-1 of their sorted concatenation. */
  function SignatureOf(p: Primitives, params: seq<Bytes>): Bytes {
    Hex(p.sha1(Concat(Sort(params))))
  }

  /** The order of the parameters does not matter. */
  lemma SignatureOrderInsensitive(p: Primitives, params: seq<Bytes>, permuted: seq<Bytes>)
    requires multiset(params) == multiset(permuted)
    ensures SignatureOf(p, params) == SignatureOf(p, permuted)
  {
    SortPermutationInvariant(params, permuted);
  }

  /** A signature is 40 lower-case hex digits. */
  lemma SignatureShape(p: Primitives, params: seq<Bytes>)
    requires Lawful(p)
    ensures |SignatureOf(p, params)| == 40
    ensures forall i :: 0 <= i < 40 ==> IsLowerHex(SignatureOf(p, params)[i])
  {
  }

  /**
   * `Signature(params...)`: sorts the caller's slice in place, then hashes
   * the strings one after the other.
   */
  method Signature(p: Primitives, params: array<Bytes>) returns (sig: Bytes)
    modifies params
    ensures params[..] == Sort(old(params[..]))
    ensures sig == SignatureOf(p, old(params[..]))
  {
    SortStrings(params);
    var hashed := HashInput(params);
    sig := Hex(p.sha1(hashed));
  }

  /** The bytes written to the hash, string after string. */
  method HashInput(a: array<Bytes>) returns (acc: Bytes)
    ensures acc == Concat(a[..])
  {
    acc := [];
    for i := 0 to a.Length
      invariant acc == Concat(a[..i])
    {
      assert a[..i + 1][..i] == a[..i];
      acc := acc + a[i];
    }
    assert a[..a.Length] == a[..];
  }

  /**
   * `FirstTruth(args...)`: the first argument that is not the zero value of
   * its type, or args[0] when all are zero (an empty call panics).
   */
  method FirstTruth<T(==)>(args: seq<T>, zero: T) returns (r: T)
    requires |args| > 0
    ensures (forall k :: 0 <= k < |args| ==> args[k] == zero) ==> r == args[0]
    ensures (exists k :: 0 <= k < |args| && args[k] != zero) ==>
              r != zero && exists k :: 0 <= k < |args| && args[k] == r && forall j :: 0 <= j < k ==> args[j] == zero
  {
    for i := 0 to |args|
      invariant forall j :: 0 <= j < i ==> args[j] == zero
    {
      if args[i] != zero {
        return args[i];
      }
    }
    return args[0];
  }
}

=== FILE: wrappers.dfy ===
/** Option and Result, the model's stand-ins for Go's nil results and `error` returns. */
module Wrappers {

  datatype Option<+T> = None | Some(value: T)

  datatype Result<+T, +E> = Success(value: T) | Failure(error: E)
}

=== FILE: zwx.dfy ===
/**
 * ctx.go, ctx_token.go and wx.go: the manager (`Wx`) and the per-app
 * context (`Context`). The package-level functions of wx.go act on the
 * manager `New` creates, so they are methods of `Wx` here. Locks are
 * dropped: every operation runs to completion before the next starts.
 * Time is the parameter `now` and the upstream API is an `Upstream`.
 */
module Zwx {
  import opened ByteStrings
  import opened Wrappers
  import opened Apps
  import opened Acquire
  import opened Logging
  import opened Store
  import Meta
  import Api
  import Opts = Options

  /** One refresh per app per two minutes after an expired-token error. */
  const RetryTtl := 120

  /** The upstream error codes that mean the access token is no longer good. */
  const RetryCodes: set<int> := {40014, 41001, 42001, 42007}

  function AppListKey(): Bytes { Meta.KeyOf(Meta.PrefixAppList, []) }
  function AppKey(appid: Bytes): Bytes { Meta.KeyOf(Meta.PrefixApp, [appid]) }
  function RetryKey(appid: Bytes): Bytes { Meta.KeyOf(Meta.PrefixRetry, [appid]) }

  /** The store-side keys never coincide: the list, an app record and a retry marker live under different prefixes. */
  lemma KeysDistinct(prefix: Bytes, a: Bytes, b: Bytes)
    ensures Pre(prefix, AppKey(a)) != Pre(prefix, AppListKey())
    ensures Pre(prefix, RetryKey(a)) != Pre(prefix, AppKey(b))
    ensures Pre(prefix, RetryKey(a)) != Pre(prefix, AppListKey())
    ensures a != b ==> Pre(prefix, AppKey(a)) != Pre(prefix, AppKey(b))
  {
    Meta.PrefixesDistinct(Meta.PrefixApp, Meta.PrefixAppList, [a], []);
    Meta.PrefixesDistinct(Meta.PrefixRetry, Meta.PrefixApp, [a], [b]);
    Meta.PrefixesDistinct(Meta.PrefixRetry, Meta.PrefixAppList, [a], []);
    if Pre(prefix, AppKey(a)) == Pre(prefix, AppListKey()) {
      PreInjective(prefix, AppKey(a), AppListKey());
    }
    if Pre(prefix, RetryKey(a)) == Pre(prefix, AppKey(b)) {
      PreInjective(prefix, RetryKey(a), AppKey(b));
    }
    if Pre(prefix, RetryKey(a)) == Pre(prefix, AppListKey()) {
      PreInjective(prefix, RetryKey(a), AppListKey());
    }
    if a != b && Pre(prefix, AppKey(a)) == Pre(prefix, AppKey(b)) {
      PreInjective(prefix, AppKey(a), AppKey(b));
      Meta.KeyInjective(Meta.PrefixApp, a, b);
    }
  }

  /**
   * The persistence rule of `NewAccessToken`: without a token only the
   * record's `retry` counter goes up by one; with one the whole record is
   * written.
   */
  function Persisted(st: StoreState, prefix: Bytes, app: App): (r: StoreState)
    ensures r.strs == st.strs && r.sets == st.sets
    ensures forall k :: k != Pre(prefix, AppKey(app.appid)) ==> HGetAllOf(r, k) == HGetAllOf(st, k)
    ensures app.accessToken != [] ==> FromHash(HGetAllOf(r, Pre(prefix, AppKey(app.appid)))) == app
  {
    var key := Pre(prefix, AppKey(app.appid));
    if app.accessToken == [] then HIncrByOf(st, key, FieldRetry, 1)
    else
      FromHashOverwrite(HGetAllOf(st, key), app);
      HSetOf(st, key, ToHash(app))
  }

  /** Without a token a stored retry count n becomes n + 1, and the other stored fields stay. */
  lemma PersistedCountsRetry(st: StoreState, prefix: Bytes, app: App, n: int)
    requires app.accessToken == []
    requires var h := HGetAllOf(st, Pre(prefix, AppKey(app.appid)));
             FieldRetry in h && h[FieldRetry] == Decimal.FormatInt(n)
    ensures var key := Pre(prefix, AppKey(app.appid));
            HGetAllOf(Persisted(st, prefix, app), key) == HGetAllOf(st, key)[FieldRetry := Decimal.FormatInt(n + 1)]
  {
    HIncrBySteps(st, Pre(prefix, AppKey(app.appid)), FieldRetry, n, 1);
  }

  /** An app whose category fetches nothing bumps its retry count on every acquisition once its token has expired. */
  lemma NoFetchBumpsRetry(st: StoreState, prefix: Bytes, app: App, respond: seq<Request> -> Response,
                          sent: seq<Request>, now: int)
    requires app.appType in {TypeWxMiniGame, TypeWxOpen, TypeWxVideo, TypeWxStore, TypeWxPay}
    requires app.expireTime < now
    ensures var o := AcquireOutcome(app, respond, sent, now).value;
            Persisted(st, prefix, o.app) == HIncrByOf(st, Pre(prefix, AppKey(app.appid)), FieldRetry, 1)
  {
    NoFetchExpired(app, respond, sent, now);
  }

  /**
   * The retry gate holds across acquisitions: after the marker is set at
   * `t`, persisting any record leaves it live for exactly two minutes.
   */
  lemma RetryWindow(st: StoreState, prefix: Bytes, appid: Bytes, app: App, t: int, t': int)
    requires t <= t'
    ensures var marked := SetEXOf(st, Pre(prefix, RetryKey(appid)), Lit("retrying"), RetryTtl, t);
            Live(Persisted(marked, prefix, app), Pre(prefix, RetryKey(appid)), t') <==> t' < t + RetryTtl
  {
    SetNXGate(st, Pre(prefix, RetryKey(appid)), Lit("retrying"), RetryTtl, t, t');
  }

  function DebugLine(debug: bool, event: Event): seq<LogEntry> {
    if debug then [LogEntry(Debug, event)] else []
  }

  /** `Context.Error`: "[appid] action failed: message". */
  function ErrorText(appid: Bytes, action: Bytes, message: Bytes): (r: Bytes)
    ensures |r| == |appid| + |action| + |message| + 12
    ensures r[0] == Lit("[")[0] && r[1..1 + |appid|] == appid
    ensures HasSuffix(r, message)
  {
    var r := Lit("[") + appid + Lit("] ") + action + Lit(" failed: ") + message;
    assert r[1..1 + |appid|] == appid;
    assert r[|r| - |message|..] == message;
    r
  }

  /** The errors of the manager: an app with no record, an app that fails validation, and a `Context.Error` text. */
  datatype WxError = NotFound(appid: Bytes) | InvalidApp(appid: Bytes) | Rejected(message: Bytes)

  /** A fetch method's effect: skipped, or one request sent and its response applied to the record. */
  twostate predicate Fetched(c: Context, net: Upstream, f: Fetch, start: App, now: int)
    reads c, c.wx.logger, net
  {
    Step(f, start, net.respond, old(net.sent), old(c.wx.logger.entries), now, c.app, net.sent, c.wx.logger.entries)
  }

  /**
   * `NewAccessToken`'s effect from the record `start` and the store state
   * `base`: the outcome of `AcquireOutcome`, persisted by `Persisted`.
   */
  twostate predicate Acquired(c: Context, net: Upstream, start: App, base: StoreState, now: int)
    reads c, c.wx, c.wx.logger, c.wx.storage.s, net
  {
    var o := AcquireOutcome(start, net.respond, old(net.sent), now);
    && c.wx.acquired == old(c.wx.acquired) + [start.appid]
    && (o.None? ==>
          && c.app == ClearIfExpired(start, now)
          && net.sent == old(net.sent)
          && c.wx.storage.s.state == base
          && c.wx.logger.entries == old(c.wx.logger.entries) + [LogEntry(Error, UnknownAppType(start.appType))])
    && (o.Some? ==>
          && c.app == o.value.app
          && net.sent == o.value.sent
          && c.wx.storage.s.state == Persisted(base, c.wx.storage.prefix, o.value.app)
          && c.wx.logger.entries == old(c.wx.logger.entries) + o.value.logs)
  }

  /** What one step of the refresh sweep reads and changes: the store, the requests sent, the log, the acquisitions. */
  datatype Snapshot = Snapshot(store: StoreState, sent: seq<Request>, logs: seq<LogEntry>, acquired: seq<Bytes>)

  /**
   * One step of the refresh sweep for `appid`, from `s` to `s'`: an app
   * whose record is empty is logged as not loaded and nothing else
   * changes; otherwise its stored record is loaded and goes through
   * `AcquireOutcome`, whose result is persisted.
   */
  ghost predicate RefreshStep(prefix: Bytes, debug: bool, respond: seq<Request> -> Response, now: int,
                              appid: Bytes, s: Snapshot, s': Snapshot, loaded: bool)
  {
    var h := HGetAllOf(s.store, Pre(prefix, AppKey(appid)));
    && (loaded <==> h != map[])
    && (!loaded ==> s' == s.(logs := s.logs + [LogEntry(Error, LoadFailed(appid))]))
    && (loaded ==>
          var start := FromHash(h);
          var o := AcquireOutcome(start, respond, s.sent, now);
          var logs := s.logs + DebugLine(debug, Refreshing(appid));
          && s'.acquired == s.acquired + [start.appid]
          && (o.None? ==>
                && s'.store == s.store && s'.sent == s.sent
                && s'.logs == logs + [LogEntry(Error, UnknownAppType(start.appType))])
          && (o.Some? ==>
                && s'.store == Persisted(s.store, prefix, o.value.app) && s'.sent == o.value.sent
                && s'.logs == logs + o.value.logs))
  }

  class Context {
    const wx: Wx
    var app: App

    constructor (wx: Wx, app: App)
      ensures this.wx == wx && this.app == app
    {
      this.wx := wx;
      this.app := app;
    }

    /** `newMpToken`. */
    method NewMpToken(net: Upstream, now: int)
      modifies this, wx.logger, net
      ensures Fetched(this, net, MpToken, old(app), now)
    {
      var req := Request(Api.WithPath(Api.ApiCgiBin, Lit("token")),
                         map[Lit("grant_type") := Lit("client_credential"), Lit("appid") := AppidMain(app),
                             Lit("secret") := app.appSecret]);
      var resp := net.Do(req);
      if resp.TransportFailure? {
        wx.logger.Errorf(TokenRequestFailed(false, AppidMain(app), None));
        return;
      }
      if resp.errcode != 0 {
        wx.logger.Errorf(TokenRequestFailed(false, AppidMain(app), Some(resp.errmsg)));
        return;
      }
      app := app.(accessToken := resp.value, expireTime := now + resp.expiresIn);
    }

    /** `newMpTicket(t)`. */
    method NewMpTicket(t: TicketType, net: Upstream, now: int)
      modifies this, wx.logger, net
      ensures Fetched(this, net, MpTicket(t), old(app), now)
    {
      if app.accessToken == [] {
        return;
      }
      assert |Lit("type")| != |Lit("access_token")|;
      var req := Request(Api.WithPath(Api.ApiCgiBin, Lit("ticket/getticket")),
                         map[Lit("type") := TicketName(t), Lit("access_token") := app.accessToken]);
      var resp := net.Do(req);
      if resp.TransportFailure? {
        wx.logger.Errorf(TicketRequestFailed(app.accessToken, None));
        return;
      }
      if resp.errcode != 0 {
        wx.logger.Errorf(TicketRequestFailed(app.accessToken, Some(resp.errmsg)));
        return;
      }
      match t
      case Js => app := app.(jsTicket := resp.value);
      case Card => app := app.(cardTicket := resp.value);
    }

    /** `newWorkToken`. */
    method NewWorkToken(net: Upstream, now: int)
      modifies this, wx.logger, net
      ensures Fetched(this, net, WorkToken, old(app), now)
    {
      var req := Request(Api.WithPath(Api.ApiWorkCgiBin, Lit("gettoken")),
                         map[Lit("corpid") := AppidMain(app), Lit("corpsecret") := app.appSecret]);
      var resp := net.Do(req);
      if resp.TransportFailure? {
        wx.logger.Errorf(TokenRequestFailed(true, AppidMain(app), None));
        return;
      }
      if resp.errcode != 0 {
        wx.logger.Errorf(TokenRequestFailed(true, AppidMain(app), Some(resp.errmsg)));
        return;
      }
      app := app.(accessToken := resp.value, expireTime := now + resp.expiresIn);
    }

    /** `newWorkTicket`. */
    method NewWorkTicket(net: Upstream, now: int)
      modifies this, wx.logger, net
      ensures Fetched(this, net, WorkTicket, old(app), now)
    {
      if app.accessToken == [] {
        return;
      }
      assert |Lit("type")| != |Lit("access_token")|;
      var req := Request(Api.WithPath(Api.ApiWorkCgiBin, Lit("ticket/get")),
                         map[Lit("type") := Lit("agent_config"), Lit("access_token") := app.accessToken]);
      var resp := net.Do(req);
      if resp.TransportFailure? {
        wx.logger.Errorf(TicketRequestFailed(app.accessToken, None));
        return;
      }
      if resp.errcode != 0 {
        wx.logger.Errorf(TicketRequestFailed(app.accessToken, Some(resp.errmsg)));
        return;
      }
      app := app.(jsTicket := resp.value);
    }

    /** The category switch of `NewAccessToken`: run the fetches `Dispatch` lists, in order. */
    method FetchAll(net: Upstream, now: int) returns (known: bool)
      modifies this, wx.logger, net
      ensures known <==> Dispatch(old(app).appType).Some?
      ensures known ==>
                var o := RunFetches(Dispatch(old(app).appType).value, old(app), net.respond, old(net.sent), now);
                app == o.app && net.sent == o.sent && wx.logger.entries == old(wx.logger.entries) + o.logs
      ensures !known ==> app == old(app) && net.sent == old(net.sent) && wx.logger.entries == old(wx.logger.entries)
    {
      ghost var app0, sent0, logs0 := app, net.sent, wx.logger.entries;
      TypeCodes();
      known := true;
      if app.appType == TypeWxMpServe {
        NewMpToken(net, now);
        ghost var app1, sent1, logs1 := app, net.sent, wx.logger.entries;
        NewMpTicket(Js, net, now);
        ghost var app2, sent2, logs2 := app, net.sent, wx.logger.entries;
        NewMpTicket(Card, net, now);
        RunThree(MpToken, MpTicket(Js), MpTicket(Card), app0, net.respond, sent0, logs0, now,
                 app1, sent1, logs1, app2, sent2, logs2, app, net.sent, wx.logger.entries);
      } else if app.appType == TypeWxMpSubscribe {
        NewMpToken(net, now);
        ghost var app1, sent1, logs1 := app, net.sent, wx.logger.entries;
        NewMpTicket(Js, net, now);
        RunTwo(MpToken, MpTicket(Js), app0, net.respond, sent0, logs0, now,
               app1, sent1, logs1, app, net.sent, wx.logger.entries);
      } else if app.appType == TypeWxWork {
        NewWorkToken(net, now);
        ghost var app1, sent1, logs1 := app, net.sent, wx.logger.entries;
        NewWorkTicket(net, now);
        RunTwo(WorkToken, WorkTicket, app0, net.respond, sent0, logs0, now,
               app1, sent1, logs1, app, net.sent, wx.logger.entries);
      } else if app.appType == TypeWxApp || app.appType == TypeWxMiniApp {
        NewMpToken(net, now);
        RunOne(MpToken, app0, net.respond, sent0, logs0, now, app, net.sent, wx.logger.entries);
      } else if app.appType in {TypeWxMiniGame, TypeWxOpen, TypeWxVideo, TypeWxStore, TypeWxPay} {
      } else {
        known := false;
      }
    }

    /**
     * `NewAccessToken`: clear an expired token, run the category's
     * fetches, then persist (see `Persisted`). An unknown category is
     * logged and nothing is stored.
     */
    method NewAccessToken(net: Upstream, now: int)
      modifies this, wx, wx.logger, wx.storage.s, net
      ensures Acquired(this, net, old(app), old(wx.storage.s.state), now)
    {
      wx.acquired := wx.acquired + [app.appid];
      if app.expireTime < now {
        app := app.(accessToken := [], jsTicket := [], cardTicket := []);
      }
      var known := FetchAll(net, now);
      if !known {
        wx.logger.Errorf(UnknownAppType(app.appType));
        return;
      }
      var key := Meta.Key(Meta.PrefixApp, [app.appid]);
      if app.accessToken == [] {
        wx.storage.HIncrBy(key, FieldRetry, 1);
      } else {
        wx.storage.HSet(key, ToHash(app));
      }
    }

    /**
     * `AccessToken`: a token that is set and not expired is returned as it
     * is; otherwise a new one is acquired and whatever that left is returned.
     */
    method AccessToken(net: Upstream, now: int) returns (token: Bytes)
      modifies this, wx, wx.logger, wx.storage.s, net
      ensures var cleared := ClearIfExpired(old(app), now);
              cleared.accessToken != [] ==>
                && token == old(app).accessToken && app == old(app)
                && net.sent == old(net.sent) && wx.storage.s.state == old(wx.storage.s.state)
                && wx.logger.entries == old(wx.logger.entries) && wx.acquired == old(wx.acquired)
      ensures var cleared := ClearIfExpired(old(app), now);
              cleared.accessToken == [] ==> Acquired(this, net, cleared, old(wx.storage.s.state), now) && token == app.accessToken
    {
      if app.expireTime < now {
        app := app.(accessToken := [], jsTicket := [], cardTicket := []);
      }
      if app.accessToken == [] {
        NewAccessToken(net, now);
      }
      token := app.accessToken;
    }

    /**
     * `RetryAccessToken`: for the four expired-token codes, refresh at most
     * once per app per two minutes, gated by `SetNX` on the retry key.
     */
    method RetryAccessToken(errcode: int, net: Upstream, now: int) returns (ok: bool)
      modifies this, wx, wx.logger, wx.storage.s, net
      ensures errcode !in RetryCodes ==> !ok
      ensures ok ==> errcode in RetryCodes && !Live(old(wx.storage.s.state), Pre(wx.storage.prefix, RetryKey(old(app).appid)), now)
      ensures errcode in RetryCodes && !Live(old(wx.storage.s.state), Pre(wx.storage.prefix, RetryKey(old(app).appid)), now) ==> ok
      ensures !ok ==>
                && app == old(app) && net.sent == old(net.sent) && wx.storage.s.state == old(wx.storage.s.state)
                && wx.logger.entries == old(wx.logger.entries) && wx.acquired == old(wx.acquired)
      ensures ok ==>
                var marked := SetEXOf(old(wx.storage.s.state), Pre(wx.storage.prefix, RetryKey(old(app).appid)),
                                      Lit("retrying"), RetryTtl, now);
                Acquired(this, net, old(app), marked, now)
    {
      if errcode in RetryCodes {
        var key := Meta.Key(Meta.PrefixRetry, [app.appid]);
        var marked := wx.storage.SetNX(key, Lit("retrying"), RetryTtl, now);
        if marked {
          NewAccessToken(net, now);
          return true;
        }
        return false;
      }
      return false;
    }
  }

  /** One fetch step as the fetch methods promise it, and as `RunFetches` takes it. */
  predicate Step(f: Fetch, app: App, respond: seq<Request> -> Response, sent: seq<Request>, logs: seq<LogEntry>, now: int,
                 app': App, sent': seq<Request>, logs': seq<LogEntry>)
  {
    match RequestFor(f, app)
    case None => app' == app && sent' == sent && logs' == logs
    case Some(req) =>
      && sent' == sent + [req]
      && app' == Applied(f, app, respond(sent'), now)
      && logs' == logs + FailureLog(f, app, respond(sent'))
  }

  /** Running `f` then `fs` is one `Step` followed by running `fs` from the stepped state. */
  lemma RunCons(f: Fetch, fs: seq<Fetch>, app: App, respond: seq<Request> -> Response, sent: seq<Request>,
                logs: seq<LogEntry>, now: int, app1: App, sent1: seq<Request>, logs1: seq<LogEntry>)
    requires Step(f, app, respond, sent, logs, now, app1, sent1, logs1)
    ensures var o := RunFetches([f] + fs, app, respond, sent, now);
            var rest := RunFetches(fs, app1, respond, sent1, now);
            o.app == rest.app && o.sent == rest.sent && logs + o.logs == logs1 + rest.logs
  {
    RunFirst(f, fs, app, respond, sent, now);
    if RequestFor(f, app).Some? {
      var sent1 := sent + [RequestFor(f, app).value];
      AppendAssoc(logs, FailureLog(f, app, respond(sent1)),
                  RunFetches(fs, Applied(f, app, respond(sent1), now), respond, sent1, now).logs);
    }
  }

  lemma AppendAssoc<T>(a: seq<T>, b: seq<T>, c: seq<T>)
    ensures a + (b + c) == (a + b) + c
  {
  }

  /** `RunFetches` on a non-empty list, unfolded once. */
  lemma RunFirst(f: Fetch, fs: seq<Fetch>, app: App, respond: seq<Request> -> Response, sent: seq<Request>, now: int)
    ensures RunFetches([f] + fs, app, respond, sent, now)
            == match RequestFor(f, app)
               case None => RunFetches(fs, app, respond, sent, now)
               case Some(req) =>
                 var rest := RunFetches(fs, Applied(f, app, respond(sent + [req]), now), respond, sent + [req], now);
                 Outcome(rest.app, rest.sent, FailureLog(f, app, respond(sent + [req])) + rest.logs)
  {
    var all := [f] + fs;
    assert all[0] == f && all[1..] == fs;
  }

  lemma RunOne(f: Fetch, app: App, respond: seq<Request> -> Response, sent: seq<Request>, logs: seq<LogEntry>, now: int,
               app1: App, sent1: seq<Request>, logs1: seq<LogEntry>)
    requires Step(f, app, respond, sent, logs, now, app1, sent1, logs1)
    ensures var o := RunFetches([f], app, respond, sent, now);
            o.app == app1 && o.sent == sent1 && logs1 == logs + o.logs
  {
    RunCons(f, [], app, respond, sent, logs, now, app1, sent1, logs1);
    assert [f] + [] == [f];
  }

  lemma RunTwo(f: Fetch, g: Fetch, app: App, respond: seq<Request> -> Response, sent: seq<Request>, logs: seq<LogEntry>, now: int,
               app1: App, sent1: seq<Request>, logs1: seq<LogEntry>,
               app2: App, sent2: seq<Request>, logs2: seq<LogEntry>)
    requires Step(f, app, respond, sent, logs, now, app1, sent1, logs1)
    requires Step(g, app1, respond, sent1, logs1, now, app2, sent2, logs2)
    ensures var o := RunFetches([f, g], app, respond, sent, now);
            o.app == app2 && o.sent == sent2 && logs2 == logs + o.logs
  {
    RunCons(f, [g], app, respond, sent, logs, now, app1, sent1, logs1);
    RunOne(g, app1, respond, sent1, logs1, now, app2, sent2, logs2);
    assert [f] + [g] == [f, g];
  }

  lemma RunThree(f: Fetch, g: Fetch, h: Fetch, app: App, respond: seq<Request> -> Response, sent: seq<Request>,
                 logs: seq<LogEntry>, now: int,
                 app1: App, sent1: seq<Request>, logs1: seq<LogEntry>,
                 app2: App, sent2: seq<Request>, logs2: seq<LogEntry>,
                 app3: App, sent3: seq<Request>, logs3: seq<LogEntry>)
    requires Step(f, app, respond, sent, logs, now, app1, sent1, logs1)
    requires Step(g, app1, respond, sent1, logs1, now, app2, sent2, logs2)
    requires Step(h, app2, respond, sent2, logs2, now, app3, sent3, logs3)
    ensures var o := RunFetches([f, g, h], app, respond, sent, now);
            o.app == app3 && o.sent == sent3 && logs3 == logs + o.logs
  {
    RunCons(f, [g, h], app, respond, sent, logs, now, app1, sent1, logs1);
    RunTwo(g, h, app1, respond, sent1, logs1, now, app2, sent2, logs2, app3, sent3, logs3);
    assert [f] + [g, h] == [f, g, h];
  }

  class Wx {
    const debug: bool
    const logger: Logger
    const storage: Storage
    const accessTokenRefresh: int
    /** The app ids `NewAccessToken` has run for, in order. */
    ghost var acquired: seq<Bytes>

    constructor (debug: bool, logger: Logger, storage: Storage, accessTokenRefresh: int)
      ensures this.debug == debug && this.logger == logger && this.storage == storage
      ensures this.accessTokenRefresh == accessTokenRefresh && acquired == []
    {
      this.debug := debug;
      this.logger := logger;
      this.storage := storage;
      this.accessTokenRefresh := accessTokenRefresh;
      acquired := [];
    }

    /** `LoadApp`: "not found" exactly when the app's stored record is empty; otherwise a new context over it. */
    method LoadApp(appid: Bytes) returns (r: Result<Context, WxError>)
      ensures var h := HGetAllOf(storage.s.state, Pre(storage.prefix, AppKey(appid)));
              && (r.Failure? <==> h == map[])
              && (r.Failure? ==> r.error == NotFound(appid))
              && (r.Success? ==> fresh(r.value) && r.value.wx == this && r.value.app == FromHash(h))
    {
      var key := Meta.Key(Meta.PrefixApp, [appid]);
      var m := storage.HGetAll(key);
      if m == map[] {
        return Failure(NotFound(appid));
      }
      var c := new Context(this, FromHash(m));
      return Success(c);
    }

    /** `DeleteApp`: drop the app from the list and delete its record. */
    method DeleteApp(appid: Bytes)
      modifies logger, storage.s
      ensures storage.s.state
              == DelOf(SRemOf(old(storage.s.state), Pre(storage.prefix, AppListKey()), [appid]), Pre(storage.prefix, AppKey(appid)))
      ensures logger.entries == old(logger.entries) + DebugLine(logger.debug, Deleting(appid))
    {
      logger.Debugf(Deleting(appid));
      var listKey := Meta.Key(Meta.PrefixAppList, []);
      storage.SRem(listKey, [appid]);
      var key := Meta.Key(Meta.PrefixApp, [appid]);
      storage.Del(key);
    }

    /** `Appids`: the listed app ids, each once. */
    method Appids() returns (ids: seq<Bytes>)
      ensures forall v :: v in ids <==> v in Members(storage.s.state, Pre(storage.prefix, AppListKey()))
      ensures forall i, j :: 0 <= i < j < |ids| ==> ids[i] != ids[j]
    {
      var listKey := Meta.Key(Meta.PrefixAppList, []);
      ids := storage.SMembers(listKey);
    }

    /**
     * `CreateApp`: an invalid record is refused with nothing written.
     * Otherwise the record is stored with retry "0" and expiry `now`, listed,
     * loaded back and given a token at the clock's second reading `later`;
     * the result is success whether or not the token was obtained.
     */
    method CreateApp(app: App, net: Upstream, now: int, later: int) returns (err: Option<WxError>)
      modifies this, logger, storage.s, net
      ensures !Valid(app) ==>
                && err == Some(InvalidApp(app.appid))
                && storage.s.state == old(storage.s.state) && net.sent == old(net.sent)
                && logger.entries == old(logger.entries) && acquired == old(acquired)
      ensures Valid(app) ==>
                var created := CreatedRecord(app, now);
                var written := Registered(old(storage.s.state), storage.prefix, created);
                var o := AcquireOutcome(created, net.respond, old(net.sent), later);
                && err == None
                && acquired == old(acquired) + [app.appid]
                && (o.Some? ==>
                      && storage.s.state == Persisted(written, storage.prefix, o.value.app)
                      && net.sent == o.value.sent
                      && logger.entries == old(logger.entries) + o.value.logs + DebugLine(logger.debug, Created(app.appid)))
                && (o.None? ==>
                      && storage.s.state == written
                      && net.sent == old(net.sent)
                      && logger.entries == old(logger.entries) + [LogEntry(Error, UnknownAppType(app.appType))]
                                           + DebugLine(logger.debug, Created(app.appid)))
    {
      if !Valid(app) {
        return Some(InvalidApp(app.appid));
      }
      var record := app.(retry := Lit("0"), expireTime := now);
      Register(record);
      var r := LoadApp(record.appid);
      if r.Failure? {
        assert false;
      }
      var c := r.value;
      c.NewAccessToken(net, later);
      logger.Debugf(Created(app.appid));
      return None;
    }

    /** The writes of `CreateApp`: list the app and store its record. */
    method Register(record: App)
      modifies storage.s
      ensures storage.s.state == Registered(old(storage.s.state), storage.prefix, record)
    {
      var listKey := Meta.Key(Meta.PrefixAppList, []);
      storage.SAdd(listKey, [record.appid]);
      var key := Meta.Key(Meta.PrefixApp, [record.appid]);
      storage.HSet(key, ToHash(record));
    }

    /**
     * The clean start of `New`: every listed app is deleted, record and list
     * entry, in the order `ids` the list was read in, each with its debug
     * line; no other key changes.
     */
    method Clean() returns (ghost ids: seq<Bytes>)
      modifies logger, storage.s
      ensures forall v :: v in ids <==> v in Members(old(storage.s.state), Pre(storage.prefix, AppListKey()))
      ensures forall i, j :: 0 <= i < j < |ids| ==> ids[i] != ids[j]
      ensures Members(storage.s.state, Pre(storage.prefix, AppListKey())) == {}
      ensures forall id :: id in Members(old(storage.s.state), Pre(storage.prefix, AppListKey())) ==>
                             HGetAllOf(storage.s.state, Pre(storage.prefix, AppKey(id))) == map[]
      ensures OnlyAppsDeleted(old(storage.s.state), storage.s.state, storage.prefix,
                              Members(old(storage.s.state), Pre(storage.prefix, AppListKey())))
      ensures logger.entries == old(logger.entries) + DeletingLines(logger.debug, ids)
    {
      ghost var listed := Members(storage.s.state, Pre(storage.prefix, AppListKey()));
      var appids := Appids();
      DeleteAll(appids, listed);
      CleanedAll(old(storage.s.state), storage.s.state, storage.prefix, listed, appids);
      ids := appids;
    }

    /** The loop of the clean start: `DeleteApp` for each of `appids`, all of them listed. */
    method DeleteAll(appids: seq<Bytes>, ghost listed: set<Bytes>)
      requires Members(storage.s.state, Pre(storage.prefix, AppListKey())) == listed
      requires forall v :: v in appids ==> v in listed
      modifies logger, storage.s
      ensures CleanedUpTo(old(storage.s.state), storage.s.state, storage.prefix, listed, appids)
      ensures logger.entries == old(logger.entries) + DeletingLines(logger.debug, appids)
    {
      ghost var start := storage.s.state;
      CleanStart(start, storage.prefix, listed);
      assert appids[..0] == [];
      for i := 0 to |appids|
        invariant CleanedUpTo(start, storage.s.state, storage.prefix, listed, appids[..i])
        invariant logger.entries == old(logger.entries) + DeletingLines(logger.debug, appids[..i])
      {
        DeleteListed(appids[i], start, listed, appids[..i]);
        DeletingLinesSnoc(logger.debug, appids[..i], appids[i]);
        assert appids[..i + 1] == appids[..i] + [appids[i]];
      }
      assert appids[..|appids|] == appids;
    }

    /** One `DeleteApp` of the clean start, seen through `CleanedUpTo`. */
    method DeleteListed(appid: Bytes, ghost start: StoreState, ghost listed: set<Bytes>, ghost done: seq<Bytes>)
      requires appid in listed && CleanedUpTo(start, storage.s.state, storage.prefix, listed, done)
      modifies logger, storage.s
      ensures CleanedUpTo(start, storage.s.state, storage.prefix, listed, done + [appid])
      ensures logger.entries == old(logger.entries) + DebugLine(logger.debug, Deleting(appid))
    {
      ghost var before := storage.s.state;
      DeleteApp(appid);
      CleanStep(start, before, storage.prefix, listed, done, appid);
    }

    /** The parts of the manager one refresh step reads and changes. */
    ghost function Observed(net: Upstream): Snapshot
      reads this, logger, storage.s, net
    {
      Snapshot(storage.s.state, net.sent, logger.entries, acquired)
    }

    /**
     * `refreshAccessTokenMember`: for every listed app id, load it and
     * acquire a token, or log the load failure and go on; then log the end
     * of the sweep. `ids` is the list read at the start, `loads` says which
     * of them loaded and `trace[i]` is the manager before app `ids[i]`.
     */
    method RefreshAccessTokenMember(net: Upstream, now: int)
      returns (ghost ids: seq<Bytes>, ghost loads: seq<bool>, ghost trace: seq<Snapshot>)
      modifies this, logger, storage.s, net
      ensures forall v :: v in ids <==> v in Members(old(storage.s.state), Pre(storage.prefix, AppListKey()))
      ensures |loads| == |ids| && |trace| == |ids| + 1
      ensures trace[0] == old(Observed(net))
      ensures forall i :: 0 <= i < |ids| ==>
                RefreshStep(storage.prefix, logger.debug, net.respond, now, ids[i], trace[i], trace[i + 1], loads[i])
      ensures Observed(net) == trace[|ids|].(logs := trace[|ids|].logs + DebugLine(logger.debug, Refreshed))
    {
      var listKey := Meta.Key(Meta.PrefixAppList, []);
      var appids := storage.SMembers(listKey);
      ids := appids;
      loads, trace := Sweep(appids, net, now);
      logger.Debugf(Refreshed);
    }

    /** The sweep's loop over the app ids read from the list. */
    method Sweep(appids: seq<Bytes>, net: Upstream, now: int) returns (ghost loads: seq<bool>, ghost trace: seq<Snapshot>)
      modifies this, logger, storage.s, net
      ensures |loads| == |appids| && |trace| == |appids| + 1
      ensures trace[0] == old(Observed(net)) && trace[|appids|] == Observed(net)
      ensures forall i :: 0 <= i < |appids| ==>
                RefreshStep(storage.prefix, logger.debug, net.respond, now, appids[i], trace[i], trace[i + 1], loads[i])
    {
      loads, trace := [], [Observed(net)];
      for i := 0 to |appids|
        invariant |loads| == i && |trace| == i + 1
        invariant trace[0] == old(Observed(net)) && trace[i] == Observed(net)
        invariant forall j :: 0 <= j < i ==>
                    RefreshStep(storage.prefix, logger.debug, net.respond, now, appids[j], trace[j], trace[j + 1], loads[j])
      {
        ghost var loaded := RefreshOne(appids[i], net, now);
        loads, trace := loads + [loaded], trace + [Observed(net)];
      }
    }

    /** One step of the sweep: load the app and acquire its token, or log that it did not load. */
    method RefreshOne(appid: Bytes, net: Upstream, now: int) returns (ghost loaded: bool)
      modifies this, logger, storage.s, net
      ensures RefreshStep(storage.prefix, logger.debug, net.respond, now, appid, old(Observed(net)), Observed(net), loaded)
    {
      var r := LoadApp(appid);
      if r.Failure? {
        logger.Errorf(LoadFailed(appid));
        loaded := false;
      } else {
        logger.Debugf(Refreshing(appid));
        r.value.NewAccessToken(net, now);
        loaded := true;
      }
    }
  }

  /** The record `CreateApp` stores. */
  function CreatedRecord(app: App, now: int): (r: App)
    ensures r.retry == Lit("0") && r.expireTime == now
    ensures r.(retry := app.retry, expireTime := app.expireTime) == app
  {
    app.(retry := Lit("0"), expireTime := now)
  }

  /** The store after `CreateApp` has listed the app and written its record. */
  function Registered(st: StoreState, prefix: Bytes, app: App): (r: StoreState)
    ensures app.appid in Members(r, Pre(prefix, AppListKey()))
    ensures FromHash(HGetAllOf(r, Pre(prefix, AppKey(app.appid)))) == app
  {
    var listed := SAddOf(st, Pre(prefix, AppListKey()), [app.appid]);
    FromHashOverwrite(HGetAllOf(listed, Pre(prefix, AppKey(app.appid))), app);
    HSetOf(listed, Pre(prefix, AppKey(app.appid)), ToHash(app))
  }

  /**
   * What `DeleteApp` does to the store: the app leaves the list, its record
   * is gone, and every other list entry and record stays.
   */
  lemma DeleteEffect(st: StoreState, prefix: Bytes, appid: Bytes)
    ensures var r := DelOf(SRemOf(st, Pre(prefix, AppListKey()), [appid]), Pre(prefix, AppKey(appid)));
            && (forall v :: v in Members(r, Pre(prefix, AppListKey())) <==> v in Members(st, Pre(prefix, AppListKey())) && v != appid)
            && HGetAllOf(r, Pre(prefix, AppKey(appid))) == map[]
            && (forall id :: id != appid ==> HGetAllOf(r, Pre(prefix, AppKey(id))) == HGetAllOf(st, Pre(prefix, AppKey(id))))
  {
    var lk := Pre(prefix, AppListKey());
    var ak := Pre(prefix, AppKey(appid));
    KeysDistinct(prefix, appid, appid);
    var r0 := SRemOf(st, lk, [appid]);
    assert (set v | v in [appid]) == {appid};
    var r := DelOf(r0, ak);
    assert Members(r, lk) == Members(r0, lk);
    forall id | id != appid
      ensures HGetAllOf(r, Pre(prefix, AppKey(id))) == HGetAllOf(st, Pre(prefix, AppKey(id)))
    {
      KeysDistinct(prefix, id, appid);
    }
  }

  /** The keys of the records of the apps `ids`. */
  ghost function AppKeys(prefix: Bytes, ids: set<Bytes>): set<Bytes> {
    set id | id in ids :: Pre(prefix, AppKey(id))
  }

  /**
   * `st'` differs from `st` at most in the list key and the record keys of
   * the apps `ids`: every other key holds the same members, hash and string.
   */
  ghost predicate OnlyAppsDeleted(st: StoreState, st': StoreState, prefix: Bytes, ids: set<Bytes>) {
    && (forall k :: k != Pre(prefix, AppListKey()) && k !in AppKeys(prefix, ids) ==>
                      Members(st', k) == Members(st, k) && HGetAllOf(st', k) == HGetAllOf(st, k))
    && (forall k, t :: k != Pre(prefix, AppListKey()) && k !in AppKeys(prefix, ids) ==> GetOf(st', k, t) == GetOf(st, k, t))
  }

  /**
   * The clean start has deleted the apps `done`, from the apps `listed` in
   * `st0`: they are off the list and their records are empty, the other
   * listed apps are still listed, and nothing else has changed.
   */
  ghost predicate CleanedUpTo(st0: StoreState, st: StoreState, prefix: Bytes, listed: set<Bytes>, done: seq<Bytes>) {
    && (forall v :: v in Members(st, Pre(prefix, AppListKey())) <==> v in listed && v !in done)
    && (forall id :: id in done ==> HGetAllOf(st, Pre(prefix, AppKey(id))) == map[])
    && OnlyAppsDeleted(st0, st, prefix, listed)
  }

  /** Before the first deletion nothing has been cleaned. */
  lemma CleanStart(st: StoreState, prefix: Bytes, listed: set<Bytes>)
    requires Members(st, Pre(prefix, AppListKey())) == listed
    ensures CleanedUpTo(st, st, prefix, listed, [])
  {
  }

  /** One `DeleteApp` of a listed app extends `CleanedUpTo` by that app. */
  lemma CleanStep(st0: StoreState, st: StoreState, prefix: Bytes, listed: set<Bytes>, done: seq<Bytes>, appid: Bytes)
    requires appid in listed && CleanedUpTo(st0, st, prefix, listed, done)
    ensures CleanedUpTo(st0, DelOf(SRemOf(st, Pre(prefix, AppListKey()), [appid]), Pre(prefix, AppKey(appid))),
                        prefix, listed, done + [appid])
  {
    DeleteEffect(st, prefix, appid);
    DeleteStaysInFrame(st0, st, prefix, listed, appid);
  }

  /** Once every listed app is deleted the list is empty and so is every listed app's record. */
  lemma CleanedAll(st0: StoreState, st: StoreState, prefix: Bytes, listed: set<Bytes>, done: seq<Bytes>)
    requires CleanedUpTo(st0, st, prefix, listed, done)
    requires forall v :: v in done <==> v in listed
    ensures Members(st, Pre(prefix, AppListKey())) == {}
    ensures forall id :: id in listed ==> HGetAllOf(st, Pre(prefix, AppKey(id))) == map[]
  {
    var lk := Pre(prefix, AppListKey());
    if v :| v in Members(st, lk) {
      assert false;
    }
  }

  /** The debug lines `DeleteApp` writes for `ids`, in order. */
  function DeletingLines(debug: bool, ids: seq<Bytes>): (r: seq<LogEntry>)
    ensures |r| == if debug then |ids| else 0
  {
    if ids == [] then [] else DeletingLines(debug, ids[..|ids| - 1]) + DebugLine(debug, Deleting(ids[|ids| - 1]))
  }

  lemma DeletingLinesSnoc(debug: bool, ids: seq<Bytes>, appid: Bytes)
    ensures DeletingLines(debug, ids + [appid]) == DeletingLines(debug, ids) + DebugLine(debug, Deleting(appid))
  {
    assert (ids + [appid])[..|ids|] == ids;
  }

  /** Deleting one of the apps `ids` keeps the store within `OnlyAppsDeleted`. */
  lemma DeleteStaysInFrame(st0: StoreState, st: StoreState, prefix: Bytes, ids: set<Bytes>, appid: Bytes)
    requires appid in ids && OnlyAppsDeleted(st0, st, prefix, ids)
    ensures OnlyAppsDeleted(st0, DelOf(SRemOf(st, Pre(prefix, AppListKey()), [appid]), Pre(prefix, AppKey(appid))), prefix, ids)
  {
    var lk := Pre(prefix, AppListKey());
    var ak := Pre(prefix, AppKey(appid));
    assert ak in AppKeys(prefix, ids);
    var r0 := SRemOf(st, lk, [appid]);
    var r := DelOf(r0, ak);
    forall k, t | k != lk && k !in AppKeys(prefix, ids)
      ensures GetOf(r, k, t) == GetOf(st, k, t)
    {
      assert GetOf(r0, k, t) == GetOf(st, k, t);
    }
  }

  /** Deleting an app that is neither listed nor stored leaves every set and hash as it was. */
  lemma DeleteUnknown(st: StoreState, prefix: Bytes, appid: Bytes)
    requires appid !in Members(st, Pre(prefix, AppListKey()))
    requires var key := Pre(prefix, AppKey(appid)); key !in st.strs && key !in st.sets && key !in st.hashes
    ensures var r := DelOf(SRemOf(st, Pre(prefix, AppListKey()), [appid]), Pre(prefix, AppKey(appid)));
            r.strs == st.strs
            && (forall k :: Members(r, k) == Members(st, k))
            && (forall k :: HGetAllOf(r, k) == HGetAllOf(st, k))
  {
    var lk := Pre(prefix, AppListKey());
    var ak := Pre(prefix, AppKey(appid));
    KeysDistinct(prefix, appid, appid);
    var r0 := SRemOf(st, lk, [appid]);
    var r := DelOf(r0, ak);
    assert r.strs == st.strs;
    forall k ensures Members(r, k) == Members(st, k) {
      if k == lk {
        assert (set v | v in [appid]) == {appid};
      }
    }
  }

  /**
   * Once the clock has moved on, a created app of a category that fetches
   * nothing keeps no token or ticket it was created with: its expiry is the
   * creation instant, so the acquisition clears them.
   */
  lemma CreatedNoFetchHasNoToken(app: App, respond: seq<Request> -> Response, sent: seq<Request>, now: int, later: int)
    requires app.appType in {TypeWxMiniGame, TypeWxOpen, TypeWxVideo, TypeWxStore, TypeWxPay}
    requires now < later
    ensures var o := AcquireOutcome(CreatedRecord(app, now), respond, sent, later);
            && o == Some(Outcome(CreatedRecord(app, now).(accessToken := [], jsTicket := [], cardTicket := []), sent, []))
            && o.value.app.accessToken == []
  {
    NoFetchExpired(CreatedRecord(app, now), respond, sent, later);
  }

  /** Persisting an app never leaves its stored record empty. */
  lemma PersistedKeepsRecord(st: StoreState, prefix: Bytes, app: App)
    requires HGetAllOf(st, Pre(prefix, AppKey(app.appid))) != map[]
    ensures HGetAllOf(Persisted(st, prefix, app), Pre(prefix, AppKey(app.appid))) != map[]
  {
    var key := Pre(prefix, AppKey(app.appid));
    var h := HGetAllOf(st, key);
    var k0 :| k0 in h;
    assert k0 in HGetAllOf(Persisted(st, prefix, app), key);
  }

  /** A created app is listed and has a stored record, so it loads. */
  lemma CreatedIsLoadable(st: StoreState, prefix: Bytes, app: App, respond: seq<Request> -> Response,
                          sent: seq<Request>, now: int, later: int)
    requires Valid(app)
    ensures var created := CreatedRecord(app, now);
            var written := Registered(st, prefix, created);
            var o := AcquireOutcome(created, respond, sent, later);
            var final := if o.Some? then Persisted(written, prefix, o.value.app) else written;
            app.appid in Members(final, Pre(prefix, AppListKey()))
            && HGetAllOf(final, Pre(prefix, AppKey(app.appid))) != map[]
  {
    var created := CreatedRecord(app, now);
    var written := Registered(st, prefix, created);
    assert HGetAllOf(written, Pre(prefix, AppKey(app.appid))) != map[] by {
      assert FromHash(map[]).appid == [];
    }
    var o := AcquireOutcome(created, respond, sent, later);
    if o.Some? {
      PersistedKeepsRecord(written, prefix, o.value.app);
    }
  }

  /**
   * `New`: validate the options, build the manager over the chosen store,
   * then either forget every managed app (clean start) or run one refresh
   * sweep. Without a store the process does not continue: the default
   * logger's `Fatalf` exits, and any other logger leaves a nil store that
   * the first storage call dereferences.
   */
  method New(options: Opts.Options, backend: Backend, net: Upstream, now: int) returns (r: Option<Wx>, ghost cleaned: seq<Bytes>)
    modifies options, backend, net
    ensures options.storage == Opts.ResolvedStorage(old(options.valkeyClient), old(options.redisClient), old(options.storage))
    ensures options.logger == Opts.ResolvedLogger(old(options.logger))
    ensures options.accessTokenRefresh == Opts.ResolvedRefresh(old(options.accessTokenRefresh))
    ensures r.None? <==> options.storage == Opts.NoStorage
    ensures r.None? ==> backend.state == old(backend.state) && net.sent == old(net.sent)
    ensures r.Some? ==>
              && fresh(r.value) && fresh(r.value.logger)
              && r.value.debug == options.debug && r.value.logger.debug == options.debug
              && r.value.storage.prefix == options.storagePrefix && r.value.storage.s == backend
              && r.value.accessTokenRefresh == options.accessTokenRefresh
              && |r.value.logger.entries| > 0 && r.value.logger.entries[|r.value.logger.entries| - 1] == LogEntry(Info, Initialised)
    ensures r.Some? && options.alwaysCleanBeforeStart ==>
              var prefix := options.storagePrefix;
              && Members(backend.state, Pre(prefix, AppListKey())) == {}
              && (forall id :: id in Members(old(backend.state), Pre(prefix, AppListKey())) ==>
                                 HGetAllOf(backend.state, Pre(prefix, AppKey(id))) == map[])
              && OnlyAppsDeleted(old(backend.state), backend.state, prefix, Members(old(backend.state), Pre(prefix, AppListKey())))
              && (forall v :: v in cleaned <==> v in Members(old(backend.state), Pre(prefix, AppListKey())))
              && r.value.logger.entries == DeletingLines(options.debug, cleaned) + [LogEntry(Info, Initialised)]
              && net.sent == old(net.sent)
  {
    var fatal := options.Validate();
    cleaned := [];
    if fatal {
      return None, cleaned;
    }
    var logger := new Logger(options.debug);
    var storage := new Storage(options.storagePrefix, backend);
    var wx := new Wx(options.debug, logger, storage, options.accessTokenRefresh);
    if options.alwaysCleanBeforeStart {
      cleaned := wx.Clean();
    } else {
      ghost var ids, loads, trace := wx.RefreshAccessTokenMember(net, now);
    }
    wx.logger.Infof(Initialised);
    return Some(wx), cleaned;
  }
}
